=== FILE: README.md ===
# OurLlama crawler core in Dafny

OurLlama crawls the public Ollama model library. It collects model
families (a slug such as `llama3`, a display name, a description, catalog
labels, a download count and an "Updated … ago" text) and their variants (a
tag such as `llama3:8b`, with a digest, a size in bytes, a context window,
an input type and an age). It stores them in Postgres next to the
bookkeeping of each crawl run. On request it also writes first-pass VRAM
estimates for every variant at one or two context lengths. A static site
then reads the exported catalog and, for a GPU budget, context length and
KV cache type, says which variants fit, how long a context fits, and in
which order to show them.

This project models that core as pure functions over immutable data and
proves properties of it:

- `wrappers.dfy`: `Option` and `Result`.
- `records.dfy`: the two parsed records, `FamilyParsed` and
  `VariantParsed`, with the same fields and defaults as
  `crawler/types.py:5-21`.
- `text.dfy`: the character classes, lower and upper case, and digit
  runs. It also holds the number scanners, the `re.search` combinator
  `FirstMatch` (leftmost position where a per-position matcher succeeds),
  and `str(n)`.
- `normalize.dfy`: the text normalisers of `crawler/normalize.py`. Each
  regular expression becomes a matcher at one position, and the search
  becomes `FirstMatch`.
- `dedup.dfy`: the "keep the first of each key" loop that both page
  extractors run. It is a method with a set of seen keys. Its partner is a
  recursive reference definition, `FirstByKey` over the accepted items
  `FilterMap`.
- `parse.dfy`: the page extractors of `crawler/parse.py`. A page is
  reduced to what they read: its `<meta>` elements, its text and its `<a
  href>` elements in document order. The variant extractor reads the
  context window as the code does (`Parse.MaxContextAsWritten`), so a
  lower-case suffix yields no context; `Parse.MaxContext` is the reading
  that accepts either case (see Findings).
- `vram.dfy`: the estimator of `crawler/vram.py`: the parameter-tier parser, the tier profiles,
  the KV element sizes and the VRAM estimate.
- `store.dfy`: the persistence calls of `crawler/db.py`. Each table is a
  map keyed by its conflict key, and generated ids come from one counter.
  A connection holds a committed store and the store of the open
  transaction.
- `crawl.dfy`: the run loop of `crawler/main.py` as a state machine. The
  outside world is an oracle with these answers:
  - the listing,
  - each tags page, or the error fetching it raised,
  - whether an upsert raises,
  - the clock of each transaction.
- `fit.dfy`: the fit logic of `site/app.js`: the cache-type scale, the
  memory need, the fit tier, the longest fitting context, the ranking
  score, and the filtered and sorted result list.

## Model

| member | source | states |
|---|---|---|
| Normalize.NormalizeWhitespace | crawler/normalize.py:49-50 | the result has no whitespace at either end. Every inner whitespace is a single blank. It keeps exactly the input's visible characters, in order. |
| Normalize.NormalizeWhitespaceIdempotent | crawler/normalize.py:49-50 | normalising an already normalised text changes nothing |
| Normalize.ParseSizeBytes | crawler/normalize.py:23-29 | an error exactly when no position of the text holds a number, optional whitespace, a KB/MB/GB/TB unit in any case and a word boundary. The error message names the text. Otherwise the size is the one read at the leftmost such position. |
| Normalize.SizeOfWholeNumber | crawler/normalize.py:5-29 | `str(n)` followed by an optional blank and a unit in any letter case reads back as n times 1024, 1024², 1024³ or 1024⁴ for KB, MB, GB, TB |
| Normalize.ParseSizeBytesIgnoresCase | crawler/normalize.py:24 | lower-casing the text does not change the size read from it |
| Normalize.ParseHumanNumber | crawler/normalize.py:14-21 | no digit gives None. When a K/M/B-suffixed number occurs anywhere, the result is the leftmost such reading. Otherwise it is the leftmost plain number. None exactly when neither occurs anywhere. |
| Normalize.HumanNumberOfWhole | crawler/normalize.py:18-20 | a plain `str(n)` reads back as n |
| Normalize.HumanNumberOfSuffixed | crawler/normalize.py:12-17 | n with suffix K, M or B reads as n × 1000, × 1 000 000 or × 1 000 000 000 |
| Normalize.HumanNumberWithGrouping | crawler/normalize.py:18-20 | "n,ddd" reads as n·1000 + ddd: the thousands comma is dropped |
| Normalize.ParseContextTokens | crawler/normalize.py:31-43 | no digit gives None, and None exactly when the context pattern matches at no position. Otherwise the result is what it yields at the leftmost match. |
| Normalize.ContextOfWhole | crawler/normalize.py:31-43 | a plain `str(n)` reads back as n tokens |
| Normalize.ContextOfSuffixed | crawler/normalize.py:32-41 | n with suffix K, M or B reads as n × 1024, × 1024² or n tokens |
| Normalize.ContextLowerCaseSuffixRejected | crawler/normalize.py:32 | n followed by any lower-case letter (as in "128k") yields None: the pattern is case-sensitive and no word boundary follows the digits |
| Normalize.ExtractAgeText | crawler/normalize.py:45-47 | a found age text is a substring of the input that starts with a digit and ends in "ago". It is the phrase at the leftmost position where one starts. None exactly when no position starts an age phrase. |
| Normalize.AgeOfPhrase | crawler/normalize.py:45-47 | the phrase "n day(s)/week(s)/month(s)/year(s) ago" is extracted from itself whole |
| Dedup.CollectFirst | crawler/parse.py:18-34 | the loop with a set of seen keys returns exactly the reference de-duplication of the accepted items: each item is kept iff no earlier accepted item has its key |
| Dedup.FirstByKeyKeys | crawler/parse.py:31-33 | the kept items carry exactly the keys of the input, no key is lost |
| Dedup.FirstByKeyDistinct | crawler/parse.py:31-33 | no two kept items share a key |
| Dedup.FirstByKeyFirst | crawler/parse.py:31-33 | each kept item is an input item whose key does not occur earlier in the input |
| Dedup.FirstByKeySubsequence | crawler/parse.py:31-33 | the kept items appear in input order |
| Dedup.FirstByKeyIdempotent | crawler/parse.py:31-33 | de-duplicating a de-duplicated list changes nothing |
| Dedup.FilterMapSkip | crawler/parse.py:79-103 | an input the reader rejects can be removed from anywhere without changing the accepted items |
| Parse.LibraryRest | crawler/parse.py:23-25 | there is a rest exactly when the href starts with "/library/", and prefix plus rest gives back the href |
| Parse.SlugOfHref | crawler/parse.py:22-31 | a slug comes only from a "/library/" href and is non-empty, with no '/' and no ':' |
| Parse.SlugOfFamilyHref | crawler/parse.py:23-31 | "/library/" + a clean slug yields that slug. The same href followed by ":" or "/" and anything yields nothing. |
| Parse.ParseLibrarySlugs | crawler/parse.py:16-34 | each slug appears once, in order of first appearance, and a string is a slug iff some anchor's href names it |
| Parse.FindMeta | crawler/parse.py:37-40 | a found element is in the page with the key as its name (or property), and None means no element has it |
| Parse.MetaContent | crawler/parse.py:36-43 | any result is non-empty and is the content of an element whose name or property is the key |
| Parse.MetaNameFirst | crawler/parse.py:37-39 | when the first `name=key` element has non-empty content, that content is the result |
| Parse.MetaByProperty | crawler/parse.py:37-43 | when the first `name=key` element is absent or has no content, the first `property=key` element decides |
| Parse.EmptyNameFallsBack | crawler/parse.py:37-43 | a `name=key` element with empty content followed by a `property=key` element with content x gives x |
| Parse.DisplayName | crawler/parse.py:48 | the og:title content when present, else the slug |
| Parse.Description | crawler/parse.py:49 | None exactly when neither description nor og:description has content, and never the empty string |
| Parse.DownloadsAt | crawler/parse.py:53 | a match is a run starting with a digit, '.' or ',' that occurs at the position and is later followed by "Downloads" |
| Parse.Downloads | crawler/parse.py:52-55 | None when the "… Downloads" pattern matches nowhere. Otherwise the count is the human-number reading of the group captured at the leftmost match. |
| Parse.DownloadsOfWhole | crawler/parse.py:52-55 | "`str(n)` Downloads" gives n |
| Parse.DownloadsOfSuffixed | crawler/parse.py:52-55 | "`str(n)`K Downloads" (or M, B) gives n × 1000 (or × 1 000 000, × 1 000 000 000) |
| Parse.UpdatedAt | crawler/parse.py:57-60 | the captured text follows "Updated", starts with a digit and ends in "ago" |
| Parse.UpdatedText | crawler/parse.py:57-60 | the result is the text captured at the leftmost "Updated … ago" match, and None exactly when there is no match |
| Parse.UpdatedOfPhrase | crawler/parse.py:57-60 | "Updated n day(s)/week(s)/month(s)/year(s) ago" gives back the phrase after "Updated " |
| Parse.SortedLabelsSorted | crawler/parse.py:14-63 | the sorted label list holds exactly the catalog labels, strictly ascending in Python's string order |
| Parse.WordsIn | crawler/parse.py:63-65 | a candidate is reported iff it occurs in the text as a whole word, keeping candidate order |
| Parse.WordsInAscending | crawler/parse.py:63-65 | candidates in ascending order give labels in ascending order |
| Parse.Labels | crawler/parse.py:62-65 | a label is reported iff it is a catalog label occurring as a whole word in the page text, and the labels are strictly ascending |
| Parse.ParseFamily | crawler/parse.py:45-74 | the record carries the slug, always has a display name, and its labels are catalog labels in ascending order |
| Parse.DigestAt | crawler/parse.py:95-98 | a digest is 12 lower-case hex characters occurring in the text |
| Parse.Digest | crawler/parse.py:95-98 | the digest is the one at the leftmost match, and None exactly when no position holds one |
| Parse.ContextWindowAt | crawler/parse.py:105-108 | the captured group occurs in the text at the match position and starts with a digit |
| Parse.MaxContextAsWritten | crawler/parse.py:105-108 | None without a match. Otherwise the captured group at the leftmost match, read by the case-sensitive context parser. |
| Parse.MaxContext | crawler/parse.py:105-108 | None without a match. Otherwise the captured group at the leftmost match, upper-cased, then read by the context parser. |
| Parse.LowerSuffixDropped | crawler/parse.py:106-108 | as written, a phrase like "128k context window" (lower-case suffix, accepted by the case-insensitive pattern) yields no context length |
| Parse.SuffixCaseIgnored | crawler/parse.py:106-108 | with the suffix read in either case, "n k/m/b context window" gives n × 1024, × 1024² or n tokens |
| Parse.InputType | crawler/parse.py:110-114 | the input type is only ever "Text" or "Vision" |
| Parse.InputTypePrecedence | crawler/parse.py:110-114 | "Vision" iff the text mentions vision or image. "Text" iff not, but it mentions text input or the word Text. None otherwise. |
| Parse.TagShort | crawler/parse.py:117 | with a ':' in the tag, the tag is a ':'-free head, a ':' and the result. Without one, the result is the tag. |
| Parse.TagShortOfFamilyTag | crawler/parse.py:117 | the short tag of "slug:short" is short |
| Parse.BuildVariant | crawler/parse.py:86-129 | the record holds the slug, tag, size and short tag. Its digest, input type and age text are those read from the text. Its maximum context is the as-written reading. |
| Parse.FamilyTagOf | crawler/parse.py:80-85 | an accepted href is "/library/" + a tag that starts with the family slug and ':' |
| Parse.VariantOf | crawler/parse.py:79-128 | a variant belongs to the family, its tag starts with "slug:", and its href is "/library/" + tag. Its digest, input type, age text and presence of a maximum context are those read, as written, from the normalised anchor text. |
| Parse.VariantOfAccepts | crawler/parse.py:79-117 | an anchor gives a variant iff its href is a family tag, its normalised text shows the separator, and a size parses. The variant then carries that size and short tag. |
| Parse.VariantCandidatesOfFamily | crawler/parse.py:84 | every candidate belongs to the family and has one of its tags |
| Parse.ParseVariants | crawler/parse.py:76-131 | the variants are the candidates (each built as written from its anchor) reduced to the first of each tag, no tag twice, all of the family |
| Parse.RejectedAnchorIgnored | crawler/parse.py:79-103 | an anchor that does not describe a variant can be removed from the page without changing the candidates |
| Parse.ParseTagsPage | crawler/parse.py:45-131 | the family record and the de-duplicated variants of the page (each built as written from its anchor), all of them belonging to that family |
| Vram.ParseParamTier | crawler/vram.py:19-35 | a tier is never negative, and a tag without ':' has no tier |
| Vram.ParamTierSearch | crawler/vram.py:26-35 | the leftmost mixture-of-experts match decides. Without one, the leftmost billions match does. Without either, the millions search does. No tier exactly when none of the three matches anywhere. |
| Vram.TierOfSizedTag | crawler/vram.py:29-35 | for "name:⟨d[.f]⟩⟨unit⟩…" the tier is the number for unit b/B, the number / 1000 for m/M, and none for any other letter |
| Vram.TierOfMoeTag | crawler/vram.py:26-28 | for "name:⟨e⟩x⟨d[.f]⟩b…" the tier is e times the size |
| Vram.MixtralExample | crawler/vram.py:23-28 | "mixtral:8x7b" has tier 56 |
| Vram.QwenExample | crawler/vram.py:24-31 | "qwen2.5:0.5b" has tier 0.5 |
| Vram.LlamaExample | crawler/vram.py:29-31 | "llama3:8b" has tier 8 |
| Vram.DeepseekExample | crawler/vram.py:22-31 | "deepseek-r1:671b-fp16" has tier 671 |
| Vram.TierProfile | crawler/vram.py:37-55 | confidence is low iff the tier is unknown. The conservative GQA factor is 1, and the optimistic one is below it iff the tier exceeds 15B. |
| Vram.UnknownTierIsThirteenB | crawler/vram.py:43-50 | an unknown tier is sized like a 13-14B model |
| Vram.ProfileMonotone | crawler/vram.py:45-55 | a larger tier never has fewer layers, a smaller model dimension or a larger optimistic GQA factor |
| Vram.KvBytesPerElem | crawler/vram.py:57-67 | the element size is 0.5, 1, 2 or 4 bytes |
| Vram.KvBytesPerElemTable | crawler/vram.py:57-67 | 4 bytes exactly for fp32/f32, 1 exactly for q8/q8_0/int8, 0.5 exactly for q4/int4 (any case), and 2 for every other string, which never raises |
| Vram.KvOverheadFactor | crawler/vram.py:91 | the overhead factor is 1 or 1.1 |
| Vram.OverheadOnlyForHalfByte | crawler/vram.py:57-91 | the 10% overhead applies exactly to the half-byte cache types |
| Vram.KvTypeIgnoresCase | crawler/vram.py:58-91 | element size and overhead depend on the cache type only up to letter case |
| Vram.RuntimeOverhead | crawler/vram.py:83-84 | the runtime overhead lies within [0.8, 8] GiB |
| Vram.RuntimeOverheadShape | crawler/vram.py:83-84 | 0.8 GiB up to an empty model, 0.8 + 2% of the weights in between, and 8 GiB from 360 GiB of weights on |
| Vram.RuntimeOverheadMonotone | crawler/vram.py:83-84 | larger weights never give a smaller runtime overhead |
| Vram.EstimateVram | crawler/vram.py:69-116 | the weights are the size in GiB × 1.05 × the offload fraction. The runtime overhead is that of the size in GiB, within [0.8, 8]. Each total is weights + its KV estimate + runtime overhead. Confidence is low iff the tag gives no tier. |
| Vram.OptimisticNotAboveConservative | crawler/vram.py:93-100 | for a non-negative context, 0 ≤ optimistic KV ≤ conservative KV and optimistic total ≤ conservative total |
| Vram.MoreContextNeedsMore | crawler/vram.py:93-100 | a longer context keeps weights and runtime and never lowers the KV cache or the totals |
| Vram.ZeroContext | crawler/vram.py:96-100 | at zero context there is no KV cache, and both totals are weights plus runtime |
| Vram.OffloadScalesWeightsOnly | crawler/vram.py:78-80 | the offload fraction scales the weights (size in GiB × 1.05) and nothing else |
| Vram.FourBitCache | crawler/vram.py:57-97 | a q4/int4 cache is 0.275 of an fp16/f16 cache, under both GQA factors |
| Vram.WorkedExample | crawler/vram.py:69-116 | 4 GiB "llama3:8b" at 8192 fp16 tokens gives 4.2 weights, 0.88 runtime, 4 KV, 9.08 in total, medium confidence |
| Store.GetDbUrl | crawler/db.py:9-10 | the command-line URL when non-empty, else the environment's, else "" |
| Store.Connect | crawler/db.py:12-15 | fails exactly for the empty URL, otherwise opens the store as it is |
| Store.UpsertFamily | crawler/db.py:43-62 | the slug is stored. An existing slug keeps its id and first-seen time. A new one gets the current time and, in a well-formed store, an unused id. Nothing else changes. |
| Store.UpsertFamilyOverwrites | crawler/db.py:49-56 | after an upsert the row holds the record's descriptive fields, the current time as last seen and "catalog" |
| Store.UpsertFamilyTwice | crawler/db.py:43-62 | a repeated upsert returns the same id and first-seen time and changes only last seen |
| Store.UpsertFamilyIdempotent | crawler/db.py:43-62 | repeating an upsert at the same time changes nothing |
| Store.UpsertFamilyWf | crawler/db.py:43-62 | an upsert keeps every id below the id counter |
| Store.UpsertVariant | crawler/db.py:64-87 | the key (family id, tag) is stored. First seen is kept if present, else taken from the family. An existing key keeps its id. Nothing else changes. |
| Store.UpsertVariantOverwrites | crawler/db.py:74-82 | after an upsert the row holds the record's fields, the current time as last seen and "catalog" |
| Store.UpsertVariantTwice | crawler/db.py:64-87 | a repeated upsert keeps the id and changes only last seen, whatever family first-seen time it is passed |
| Store.UpsertVariantWf | crawler/db.py:64-87 | an upsert keeps every id below the id counter |
| Store.EnsureEstimateProfile | crawler/db.py:30-41 | the (name, version) row holds the new assumptions. An existing profile keeps its id, and nothing else changes. |
| Store.EnsureEstimateProfileIdempotent | crawler/db.py:30-41 | ensuring the same profile twice is ensuring it once |
| Store.InsertEstimate | crawler/db.py:89-112 | the row is appended after all existing estimates and nothing else changes |
| Store.InsertEstimateTwice | crawler/db.py:89-112 | two identical inserts give two identical rows at the end |
| Store.InsertEstimates | crawler/db.py:89-112 | inserting rows one by one appends them in order and changes nothing else |
| Store.StartCrawlRun | crawler/db.py:17-21 | a run row is added as running with the current start time. Its id is unused in a well-formed store, and no other row changes. |
| Store.FinishCrawlRun | crawler/db.py:23-28 | an existing run gets its finish time, status and report. A missing run id changes nothing. Other tables are untouched. |
| Store.StartThenFinish | crawler/db.py:17-28 | starting then finishing a run records both times, the status and the report, and keeps the earlier runs |
| Store.Commit | crawler/main.py:216 | the open transaction's store becomes the committed one |
| Store.Rollback | crawler/main.py:224 | the open transaction's store is discarded for the committed one, and the transaction ends, so the next statement runs in a new one |
| Store.RollbackUndoes | crawler/main.py:216-224 | writes after a commit are undone by a rollback, which ends a second transaction |
| Crawl.CtxPoints | crawler/main.py:89-93 | one or two context lengths, strictly ascending: the default, plus the variant's maximum when positive |
| Crawl.ZerosOfCtxPoints | crawler/main.py:89-93 | a context length of zero occurs once when it is the default, otherwise never |
| Crawl.RowsAt | crawler/main.py:94-211 | eight rows at a non-zero context and six at zero, in a fixed order of estimate types. All share variant, profile, context, cache type, offload 1.0, confidence and "estimated". |
| Crawl.BytesPerTokenRoundTrip | crawler/main.py:129-211 | the bytes-per-token rows times the context, in GiB, give back the KV estimates |
| Crawl.RowsFor | crawler/main.py:93-211 | eight rows per context length, two fewer for each zero length |
| Crawl.ProcessVariant | crawler/main.py:80-213 | counts the variant. A raising upsert leaves the transaction unchanged and counts a failure. Otherwise the variant is stored. Without estimation nothing else is written. |
| Crawl.EstimatesCounted | crawler/main.py:93-213 | the counter grows by eight per context length, while the rows written are two fewer when the default context is zero. Earlier rows are kept. |
| Crawl.ProcessVariants | crawler/main.py:80-86 | each variant is counted once, failures never outnumber what was seen, and nothing is committed |
| Crawl.ProcessFamily | crawler/main.py:66-217 | counts the family. An unreadable page is counted as failed and changes nothing. A raising family upsert is fatal. Otherwise the work is committed. |
| Crawl.ProcessFamilies | crawler/main.py:66-217 | a completed loop counts every slug, a fatal one stops early, failure counts stay bounded, and no family touches the run rows |
| Crawl.Limit | crawler/main.py:63-64 | a positive limit keeps that many leading slugs, and any other limit keeps them all |
| Crawl.Begin | crawler/main.py:33-57 | a fresh run row is running, the counters are zero, the profile exists iff estimating, and the committed store is the start store, or the new one when committing at start |
| Crawl.End | crawler/main.py:219-227 | a completed loop finishes "success" at the open transaction's clock. A fatal one is raised and finishes "failed" on the rolled-back store, at the clock of the transaction after the rollback, changing only the runs table. |
| Crawl.RunWith | crawler/main.py:33-227 | no URL means no run. Otherwise the counters stay consistent, and the status is success iff nothing was raised. |
| Crawl.RunAsWritten | crawler/main.py:33-227 | no URL means no run. Otherwise the counters stay consistent and the status is success iff nothing was raised. A successful run has seen every slug of the (limited) listing. |
| Crawl.Run | crawler/main.py:33-227 | no URL means no run. Otherwise the counters stay consistent and the status is success iff nothing was raised. A listing that cannot be fetched fails the run and is raised. |
| Crawl.AsWrittenLosesEarlyFailure | crawler/main.py:35-226 | as written, a listing that cannot be fetched leaves the store exactly as it was: the run row is rolled back before it is marked failed |
| Crawl.RunIsRecorded | crawler/main.py:35-227 | with the run row committed at start, every run ends with its row recorded with its status, counters and error, and earlier runs unchanged |
| Crawl.SuccessSeesEverySlug | crawler/main.py:63-219 | a successful run has seen every slug of the (limited) listing |
| Fit.KvOverheadFactor | site/app.js:3-10 | the scale is 0.5 exactly for q8/int8, 0.275 exactly for q4/int4 (any case), and 1 otherwise, a missing type included |
| Fit.FactorAgreesWithCrawler | site/app.js:3-10 | for the cache types both sides know, the site's scale equals the crawler's element size relative to fp16 times its overhead |
| Fit.ComputeVram | site/app.js:31-34 | no context or no per-token cost needs just weights plus runtime. With non-negative inputs, the need lies between that and weights + runtime + the unscaled KV cache. |
| Fit.ComputeVramMonotone | site/app.js:31-34 | with a non-negative per-token cost, more context never needs less memory |
| Fit.FitTier | site/app.js:25-30 | unknown iff no positive budget. Otherwise fits_cons iff the conservative need fits, fits_opt iff only the optimistic one does, and no_fit iff neither does. |
| Fit.MaxCtxThatFits | site/app.js:35-40 | no headroom gives zero tokens |
| Fit.MaxCtxIsLongestFit | site/app.js:35-40 | with headroom and a positive per-token cost, the result fits the budget and one token more does not |
| Fit.Clamp20 | site/app.js:47 | the vote term lies within [0, 20] and equals the votes inside that range |
| Fit.RankScore | site/app.js:42-52 | without a run, the score is fit points + trust + clamped votes. Otherwise it lies from 80 below to 20 above fit points + trust + the measured term, and not below that sum when no penalty applies. |
| Fit.BetterFitScoresMore | site/app.js:44 | with all else equal, fits_cons scores 40 above fits_opt, fits_opt 60 above unknown, and unknown 999 above no_fit |
| Fit.VotesBounded | site/app.js:47 | votes add between 0 and 20 points, and votes of 20 or more all count as 20 |
| Fit.PenaltiesExact | site/app.js:49-50 | a too-slow run costs exactly 50 points and a too-laggy one exactly 30, and without a run there is no penalty |
| Fit.Evaluate | site/app.js:238-283 | a row is produced iff the variant has components and does not land in no_fit, and the row is that variant's. Without a run its score is fit points plus clamped votes: no trust term. |
| Fit.Insert | site/app.js:286 | inserting into a sorted list keeps it sorted and adds exactly that row |
| Fit.Sort | site/app.js:286 | the result is in display order (higher score first, then lower conservative need) and is a permutation of the input |
| Fit.Apply | site/app.js:225-286 | the rows shown are sorted, and are exactly the rows of the candidates that evaluate to one, as a multiset |
| Fit.ApplyShows | site/app.js:238-286 | a row is shown iff some candidate evaluates to it, and no shown row is no_fit |

## Left out

- Fetching pages (`crawler/http.py`) and the catalog export
  (`scripts/export_site.py`) are not part of this model. The run takes the
  fetched and parsed pages as oracle answers.
- HTML parsing by BeautifulSoup/lxml is abstracted. A page is its `<meta>`
  elements, its `get_text(" ")` text and its `/library/` anchors, each with
  its text. The CSS selector `a[href^="/library/"]` and the extractor's own
  `startswith` check are the same filter here.
- Regular expressions are modelled with ASCII character classes. `\d` is
  0-9 and `\s` is the six ASCII whitespace characters. `\w` is ASCII
  letters, digits and `_`, and `lower()`/`upper()` change only A-Z/a-z.
  Python's Unicode classes are wider.
- Python floats and JavaScript numbers are modelled as exact reals, and
  `int(float)` as the floor of a non-negative real. IEEE rounding is not
  modelled, so `Vram.WorkedExample`'s values are the exact ones.
- Normalize.ParseSizeBytes: the error message holds the text itself rather
  than Python's `repr` of it, with quotes and escapes. The message is never
  read, because the only caller drops the anchor.
- `Vram.EstimateVram` takes the text Python prints for the offload fraction
  as a parameter. The notes string is built but not reasoned about.
- Postgres is an abstract store. These parts of it are not modelled:
  - SQL text and column types;
  - `now()`, which is the clock reading of the open transaction here. A
    commit or a rollback ends a transaction, and the next one reads the
    clock anew;
  - `RETURNING … ::text`;
  - the schema's default for `catalog_first_seen_at`, since the schema is
    not part of this model, so a new family's first-seen time is the
    current time;
  - `main.py`'s `or "now()"` fallback, since a first-seen time always
    exists here;
  - the aborted-transaction state after a failed statement, since a failed
    upsert is modelled as having written nothing and the transaction goes
    on.
- Which statement raises, and the error text, come from the oracle for the
  family and variant upserts only. Failures of `start_crawl_run`,
  `ensure_estimate_profile`, `insert_estimate` and `commit` are not
  modelled. In the source they are not caught separately, so they would end
  the run.
- The run statistics and profile assumptions are stored as data rather
  than as JSON text. The string id conversions (`str(id)`) are dropped.
- Command-line parsing, `time.sleep` between requests, printing and URL
  building are I/O and are left out.
- Fit.RankScore: the trust term `10 * Math.log(1 + runs)` is a parameter
  `trust`, because logarithms are not available. The properties proved
  hold for any value of it. `Fit.Evaluate` passes 0 when there is no run
  or no trusted run, as the logarithm of 1 is 0, and otherwise the
  candidate's value.
- The site's text search and use-case filters, the page rendering and the
  loading of the exported catalog are UI. `Fit.Apply` receives the
  candidates those filters let through. The choice of the run aggregate
  and the best template is an input to it.
- JavaScript `null`/`undefined`/`NaN` handling is narrowed to `Option`:
  - a missing value counts as 0 where the source uses `|| 0` or `?? 0`;
  - missing components skip the variant;
  - the `Infinity` that `maxCtxThatFits` returns when the per-token cost is
    zero is `Unbounded`.
- Fit.Sort: the JavaScript sort is stable and orders rows that tie on both
  keys by input order. The model proves the order and the permutation, not
  the stability.

## Findings

| source | as written | input that shows it | evidently intended | confidence | as-written member | corrected member |
|---|---|---|---|---|---|---|
| crawler/main.py:35-37,59-61,223-226 | `start_crawl_run` inserts the run row in the open transaction, and only the first family's `commit()` makes it durable. On an exception before that commit, the handler rolls back, which deletes the row. `finish_crawl_run(…, "failed", …)` then updates no row. | the listing fetch at main.py:61 raises, or the first family upsert raises: the store ends with no trace of the run | the run row committed as soon as it is written, so that a failure is recorded | not executed | Crawl.AsWrittenLosesEarlyFailure (on Crawl.RunAsWritten) | Crawl.RunIsRecorded (on Crawl.Run) |
| crawler/parse.py:106-108 with crawler/normalize.py:32-43 | the context-window pattern is case-insensitive and captures a lower-case suffix ("128k"), but `parse_context_tokens` accepts only K, M and B in upper case | a variant whose text reads "128k context window" gets no maximum context | the suffix read in either case, giving 131072 tokens | not executed | Parse.LowerSuffixDropped (on Parse.MaxContextAsWritten) | Parse.SuffixCaseIgnored (on Parse.MaxContext) |

=== FILE: crawl.dfy ===
/**
 * The crawl run as a state machine over the abstract store. What the
 * outside world answers — the listing and tags pages (fetched and
 * parsed), whether a store write raises, and the transaction clock — is
 * an oracle. A family whose page cannot be read is counted and skipped; a
 * variant whose upsert raises is counted and skipped; anything else that
 * raises ends the run: the open transaction is rolled back, the run is
 * recorded as failed, and the error propagates.
 */
module Crawl {
  import opened Wrappers
  import opened Records
  import opened Store
  import opened Vram

  /** The command-line options the run loop reads. */
  datatype Config = Config(limit: int, estimate: bool, kvCacheType: string, contextDefault: int)

  /** What one tags page yields: the family record and its variants. */
  datatype TagsPage = TagsPage(family: FamilyParsed, variants: seq<VariantParsed>)

  /**
   * The answers of the outside world: the slugs of the library listing or
   * the error its fetch raised; each family's tags page or the error; the
   * error `upsert_family` raises for a slug, if any; whether
   * `upsert_variant` raises for a family slug and tag; and the clock
   * reading of the n-th transaction.
   */
  datatype Oracle = Oracle(
    listing: Result<seq<string>>,
    tagsPage: string -> Result<TagsPage>,
    familyUpsertError: string -> Option<string>,
    variantUpsertFails: (string, string) -> bool,
    clock: nat -> Time)

  datatype State = State(conn: Conn, runId: nat, profile: Option<nat>, stats: Stats)

  /** The outcome of a part of the loop: go on, or an exception that escapes the loop. */
  datatype Step = Next(state: State) | Fatal(state: State, error: string)

  function Now(s: State, o: Oracle): Time { o.clock(s.conn.txns) }

  const NoStats: Stats := Stats(0, 0, 0, 0, 0)

  /** Failures never outnumber what was seen. */
  predicate StatsOk(st: Stats) {
    st.familiesFailed <= st.familiesSeen && st.variantsFailed <= st.variantsSeen
  }

  /* ---------------------------------------------------------------------- */
  /* Context points and estimate rows                                        */
  /* ---------------------------------------------------------------------- */

  /**
   * The context lengths a variant is estimated at: the default and, when
   * it is positive, the variant's own maximum, once each, ascending.
   */
  function CtxPoints(contextDefault: int, maxContext: Option<int>): (r: seq<int>)
    ensures 1 <= |r| <= 2
    ensures forall i :: 0 < i < |r| ==> r[i - 1] < r[i]
    ensures forall c :: c in r <==> c == contextDefault || (maxContext.Some? && maxContext.value > 0 && c == maxContext.value)
  {
    match maxContext
    case Some(m) =>
      if m <= 0 || m == contextDefault then [contextDefault]
      else if m < contextDefault then [m, contextDefault]
      else [contextDefault, m]
    case None => [contextDefault]
  }

  function ConfidenceText(c: Confidence): string {
    match c
    case Low => "low"
    case Medium => "medium"
  }

  /** The estimate the run asks for: the whole model on the GPU, the configured cache type. */
  function EstimateAt(v: VariantParsed, ctx: int, kvCacheType: string): VramEstimate {
    EstimateVram(v.sizeBytes, v.tag, ctx, kvCacheType, 1.0, "1.0")
  }

  function Row(variantId: nat, profileId: nat, estimateType: string, value: real, units: string,
               ctx: int, kvCacheType: string, est: VramEstimate): EstimateRow {
    EstimateRow(variantId, profileId, estimateType, value, units, ctx, kvCacheType, 1.0,
                ConfidenceText(est.confidence), "estimated")
  }

  const EstimateTypes: seq<string> := [
    "vram_total_gib_opt", "vram_total_gib_cons", "vram_weights_gib", "vram_runtime_overhead_gib",
    "vram_kv_gib_opt", "vram_kv_gib_cons", "kv_bytes_per_token_opt", "kv_bytes_per_token_cons"]

  /** KV bytes per token, derived back from the KV cache estimated at a non-zero context length. */
  function BytesPerToken(kvGib: real, ctx: int): real
    requires ctx != 0
  {
    kvGib * GiB as real / ctx as real
  }

  /**
   * The rows written for one context point: the two totals and the four
   * components, then the two per-token rates unless the context length
   * is zero.
   */
  function RowsAt(variantId: nat, profileId: nat, est: VramEstimate, ctx: int, kvCacheType: string): (r: seq<EstimateRow>)
    ensures |r| == if ctx == 0 then 6 else 8
    ensures forall i :: 0 <= i < |r| ==> r[i].estimateType == EstimateTypes[i]
    ensures forall i :: 0 <= i < |r| ==>
      && r[i].variantId == variantId && r[i].profileId == profileId && r[i].contextTokens == ctx
      && r[i].kvCacheType == kvCacheType && r[i].offloadFraction == 1.0
      && r[i].confidence == ConfidenceText(est.confidence) && r[i].verification == "estimated"
  {
    var base := [
      Row(variantId, profileId, EstimateTypes[0], est.totalOpt, "GiB", ctx, kvCacheType, est),
      Row(variantId, profileId, EstimateTypes[1], est.totalCons, "GiB", ctx, kvCacheType, est),
      Row(variantId, profileId, EstimateTypes[2], est.weights, "GiB", ctx, kvCacheType, est),
      Row(variantId, profileId, EstimateTypes[3], est.runtimeOverhead, "GiB", ctx, kvCacheType, est),
      Row(variantId, profileId, EstimateTypes[4], est.kvOpt, "GiB", ctx, kvCacheType, est),
      Row(variantId, profileId, EstimateTypes[5], est.kvCons, "GiB", ctx, kvCacheType, est)];
    if ctx == 0 then base
    else base + [
      Row(variantId, profileId, EstimateTypes[6], BytesPerToken(est.kvOpt, ctx), "bytes/token", ctx, kvCacheType, est),
      Row(variantId, profileId, EstimateTypes[7], BytesPerToken(est.kvCons, ctx), "bytes/token", ctx, kvCacheType, est)]
  }

  /** The per-token rows give back the KV cache they were derived from. */
  lemma {:induction false} BytesPerTokenRoundTrip(variantId: nat, profileId: nat, est: VramEstimate, ctx: int, kvCacheType: string)
    requires ctx != 0
    ensures var r := RowsAt(variantId, profileId, est, ctx, kvCacheType);
      r[6].value * ctx as real / GiB as real == est.kvOpt && r[7].value * ctx as real / GiB as real == est.kvCons
  {
    var r := RowsAt(variantId, profileId, est, ctx, kvCacheType);
    BytesPerTokenInverse(est.kvOpt, ctx);
    BytesPerTokenInverse(est.kvCons, ctx);
  }

  lemma {:induction false} BytesPerTokenInverse(kvGib: real, ctx: int)
    requires ctx != 0
    ensures BytesPerToken(kvGib, ctx) * ctx as real / GiB as real == kvGib
  {
    var g := GiB as real;
    var c := ctx as real;
    assert (kvGib * g / c) * c == kvGib * g;
  }

  /** The rows for every context point, in order. */
  function RowsFor(variantId: nat, profileId: nat, v: VariantParsed, kvCacheType: string, points: seq<int>): (r: seq<EstimateRow>)
    ensures |r| == 8 * |points| - 2 * Zeros(points)
    decreases |points|
  {
    if |points| == 0 then []
    else
      RowsAt(variantId, profileId, EstimateAt(v, points[0], kvCacheType), points[0], kvCacheType)
      + RowsFor(variantId, profileId, v, kvCacheType, points[1..])
  }

  /** How many of the context points are zero. */
  function Zeros(points: seq<int>): (r: nat)
    ensures r <= |points|
    decreases |points|
  {
    if |points| == 0 then 0 else (if points[0] == 0 then 1 else 0) + Zeros(points[1..])
  }

  /** The context points of a variant hold zero at most once, and only when zero is the default. */
  lemma {:induction false} ZerosOfCtxPoints(contextDefault: int, maxContext: Option<int>)
    ensures Zeros(CtxPoints(contextDefault, maxContext)) == if contextDefault == 0 then 1 else 0
  {
    var p := CtxPoints(contextDefault, maxContext);
    if |p| == 2 {
      assert p[1..][1..] == [];
    }
  }

  /* ---------------------------------------------------------------------- */
  /* Variants                                                                */
  /* ---------------------------------------------------------------------- */

  /**
   * One variant of a family: count it; when its upsert raises, count the
   * failure and move on; else upsert it and, when estimating, write its
   * rows at every context point, counting eight per point.
   */
  function ProcessVariant(s: State, slug: string, familyId: nat, firstSeen: Time, v: VariantParsed,
                          cfg: Config, o: Oracle): (r: State)
    ensures r.runId == s.runId && r.profile == s.profile
    ensures r.conn.committed == s.conn.committed && r.conn.txns == s.conn.txns
    ensures r.stats.variantsSeen == s.stats.variantsSeen + 1
    ensures r.stats.familiesSeen == s.stats.familiesSeen && r.stats.familiesFailed == s.stats.familiesFailed
    ensures o.variantUpsertFails(slug, v.tag) ==>
      r.conn == s.conn && r.stats.variantsFailed == s.stats.variantsFailed + 1 && r.stats.estimatesWritten == s.stats.estimatesWritten
    ensures !o.variantUpsertFails(slug, v.tag) ==>
      && r.stats.variantsFailed == s.stats.variantsFailed
      && (familyId, v.tag) in r.conn.current.variants
      && r.conn.current.runs == s.conn.current.runs && r.conn.current.families == s.conn.current.families
    ensures !(cfg.estimate && s.profile.Some?) ==>
      r.conn.current.estimates == s.conn.current.estimates && r.stats.estimatesWritten == s.stats.estimatesWritten
  {
    var st := s.stats.(variantsSeen := s.stats.variantsSeen + 1);
    if o.variantUpsertFails(slug, v.tag) then
      s.(stats := st.(variantsFailed := st.variantsFailed + 1))
    else
      var up := UpsertVariant(s.conn.current, familyId, firstSeen, v, Now(s, o));
      if cfg.estimate && s.profile.Some? then
        var points := CtxPoints(cfg.contextDefault, v.maxContext);
        var rows := RowsFor(up.id, s.profile.value, v, cfg.kvCacheType, points);
        s.(conn := s.conn.(current := InsertEstimates(up.store, rows)),
           stats := st.(estimatesWritten := st.estimatesWritten + 8 * |points|))
      else
        s.(conn := s.conn.(current := up.store), stats := st)
  }

  /**
   * An estimated variant adds eight to the count per context point but
   * writes only six rows at a zero context length.
   */
  lemma {:induction false} EstimatesCounted(s: State, slug: string, familyId: nat, firstSeen: Time, v: VariantParsed,
                                            cfg: Config, o: Oracle)
    requires cfg.estimate && s.profile.Some? && !o.variantUpsertFails(slug, v.tag)
    ensures var r := ProcessVariant(s, slug, familyId, firstSeen, v, cfg, o);
            var points := |CtxPoints(cfg.contextDefault, v.maxContext)|;
      && r.stats.estimatesWritten == s.stats.estimatesWritten + 8 * points
      && |r.conn.current.estimates| == |s.conn.current.estimates| + 8 * points - (if cfg.contextDefault == 0 then 2 else 0)
      && r.conn.current.estimates[..|s.conn.current.estimates|] == s.conn.current.estimates
  {
    ZerosOfCtxPoints(cfg.contextDefault, v.maxContext);
    var r := ProcessVariant(s, slug, familyId, firstSeen, v, cfg, o);
    var up := UpsertVariant(s.conn.current, familyId, firstSeen, v, Now(s, o));
    var rows := RowsFor(up.id, s.profile.value, v, cfg.kvCacheType, CtxPoints(cfg.contextDefault, v.maxContext));
    assert r.conn.current.estimates == s.conn.current.estimates + rows;
  }

  /** The variant loop of one family, in order. */
  function ProcessVariants(s: State, slug: string, familyId: nat, firstSeen: Time, vs: seq<VariantParsed>,
                           cfg: Config, o: Oracle): (r: State)
    ensures r.runId == s.runId && r.profile == s.profile
    ensures r.conn.committed == s.conn.committed && r.conn.txns == s.conn.txns
    ensures r.stats.variantsSeen == s.stats.variantsSeen + |vs|
    ensures r.stats.variantsFailed <= s.stats.variantsFailed + |vs|
    ensures r.stats.familiesSeen == s.stats.familiesSeen && r.stats.familiesFailed == s.stats.familiesFailed
    ensures StatsOk(s.stats) ==> StatsOk(r.stats)
    ensures r.conn.current.runs == s.conn.current.runs && r.conn.current.families == s.conn.current.families
    decreases |vs|
  {
    if |vs| == 0 then s
    else ProcessVariants(ProcessVariant(s, slug, familyId, firstSeen, vs[0], cfg, o), slug, familyId, firstSeen, vs[1..], cfg, o)
  }

  /* ---------------------------------------------------------------------- */
  /* Families                                                                */
  /* ---------------------------------------------------------------------- */

  /**
   * One family: count it; when its page cannot be read, count the failure
   * and move on without writing; else upsert the family (an error there
   * escapes), run its variant loop and commit.
   */
  function ProcessFamily(s: State, slug: string, cfg: Config, o: Oracle): (r: Step)
    ensures r.state.runId == s.runId && r.state.profile == s.profile
    ensures r.state.stats.familiesSeen == s.stats.familiesSeen + 1
    ensures StatsOk(s.stats) ==> StatsOk(r.state.stats)
    ensures r.Fatal? <==> o.tagsPage(slug).Ok? && o.familyUpsertError(slug).Some?
    ensures r.Fatal? ==> r.state.conn == s.conn
    ensures o.tagsPage(slug).Err? ==>
      r.state.conn == s.conn && r.state.stats == s.stats.(familiesSeen := s.stats.familiesSeen + 1, familiesFailed := s.stats.familiesFailed + 1)
    ensures r.Next? && o.tagsPage(slug).Ok? ==>
      r.state.conn.committed == r.state.conn.current && r.state.conn.txns == s.conn.txns + 1
      && r.state.conn.current.runs == s.conn.current.runs
  {
    var s1 := s.(stats := s.stats.(familiesSeen := s.stats.familiesSeen + 1));
    match o.tagsPage(slug)
    case Err(_) => Next(s1.(stats := s1.stats.(familiesFailed := s1.stats.familiesFailed + 1)))
    case Ok(page) =>
      match o.familyUpsertError(slug)
      case Some(e) => Fatal(s1, e)
      case None =>
        var up := UpsertFamily(s1.conn.current, page.family, Now(s1, o));
        var s2 := s1.(conn := s1.conn.(current := up.store));
        var s3 := ProcessVariants(s2, slug, up.id, up.firstSeenAt, page.variants, cfg, o);
        Next(s3.(conn := Commit(s3.conn)))
  }

  /** The family loop over the slugs, in order, up to the first error that escapes. */
  function ProcessFamilies(s: State, slugs: seq<string>, cfg: Config, o: Oracle): (r: Step)
    ensures r.state.runId == s.runId && r.state.profile == s.profile
    ensures r.Next? ==> r.state.stats.familiesSeen == s.stats.familiesSeen + |slugs|
    ensures r.Fatal? ==> s.stats.familiesSeen < r.state.stats.familiesSeen <= s.stats.familiesSeen + |slugs|
    ensures StatsOk(s.stats) ==> StatsOk(r.state.stats)
    ensures r.state.conn.current.runs == s.conn.current.runs
    ensures r.state.conn.committed.runs == s.conn.committed.runs || r.state.conn.committed.runs == s.conn.current.runs
    decreases |slugs|
  {
    if |slugs| == 0 then Next(s)
    else
      match ProcessFamily(s, slugs[0], cfg, o)
      case Fatal(s1, e) => Fatal(s1, e)
      case Next(s1) => ProcessFamilies(s1, slugs[1..], cfg, o)
  }

  /** `slugs[:limit]` when the limit is positive, else every slug. */
  function Limit(slugs: seq<string>, limit: int): (r: seq<string>)
    ensures limit > 0 ==> |r| == if limit < |slugs| then limit else |slugs|
    ensures limit <= 0 ==> r == slugs
    ensures r == slugs[..|r|]
  {
    if limit > 0 && limit < |slugs| then slugs[..limit] else slugs
  }

  /* ---------------------------------------------------------------------- */
  /* The run                                                                 */
  /* ---------------------------------------------------------------------- */

  const RuntimeOverheadText: string := "0.8 + 0.02 * weights_gib, clamped [0.8, 8.0]"
  const TierProfilesText: string := "heuristic: (n_layers, d_model, gqa_opt/cons) by parameter tier"

  /** The assumptions the run's estimate profile records. */
  function ProfileAssumptions(kvCacheType: string): Assumptions {
    Assumptions(1.05, RuntimeOverheadText, kvCacheType, TierProfilesText)
  }

  datatype RunOutcome =
    | NotConnected(error: string)
    | Finished(store: Store, runId: nat, status: RunStatus, stats: Stats, raised: bool)

  /**
   * The run before the loop: open the transaction, start the run and,
   * when estimating, ensure the profile. `commitAtStart` says whether
   * these writes are committed before the loop begins.
   */
  function Begin(st: Store, cfg: Config, o: Oracle, commitAtStart: bool): (r: State)
    ensures r.stats == NoStats
    ensures r.runId in r.conn.current.runs && r.conn.current.runs[r.runId].status == Running
    ensures Wf(st) ==> r.runId !in st.runs
    ensures r.conn.current.runs.Keys == st.runs.Keys + {r.runId}
    ensures forall k :: k in st.runs && k != r.runId ==> r.conn.current.runs[k] == st.runs[k]
    ensures r.conn.committed == if commitAtStart then r.conn.current else st
    ensures r.profile.Some? <==> cfg.estimate
  {
    var c := Open(st);
    var run := StartCrawlRun(c.current, o.clock(0));
    var prof := EnsureEstimateProfile(run.store, "vram_estimator", "1.0.0", ProfileAssumptions(cfg.kvCacheType));
    var c1 := c.(current := if cfg.estimate then prof.store else run.store);
    var profile := if cfg.estimate then Some(prof.id) else None;
    State(if commitAtStart then Commit(c1) else c1, run.id, profile, NoStats)
  }

  /**
   * The end of the run. On success the run is marked successful and
   * committed. On an escaping error the open transaction is rolled back,
   * the run is marked failed with the error in the transaction that
   * follows (so at that transaction's clock) and committed, and the error
   * is raised again.
   */
  function End(step: Step, o: Oracle): (r: RunOutcome)
    ensures r.Finished? && r.runId == step.state.runId && r.stats == step.state.stats
    ensures r.raised <==> step.Fatal?
    ensures r.status == if step.Fatal? then Failed else Success
    ensures step.Fatal? ==>
      var kept := step.state.conn.committed;
      r.store.(runs := kept.runs) == kept
    ensures step.Next? && step.state.runId in step.state.conn.current.runs ==>
      r.runId in r.store.runs && r.store.runs[r.runId].finishedAt == Some(Now(step.state, o))
    ensures step.Fatal? && step.state.runId in step.state.conn.committed.runs ==>
      r.runId in r.store.runs && r.store.runs[r.runId].finishedAt == Some(o.clock(step.state.conn.txns + 1))
  {
    match step
    case Next(s) =>
      var done := FinishCrawlRun(s.conn.current, s.runId, Success, RunReport(s.stats, None), Now(s, o));
      Finished(Commit(s.conn.(current := done)).committed, s.runId, Success, s.stats, false)
    case Fatal(s, e) =>
      var c := Rollback(s.conn);
      var done := FinishCrawlRun(c.current, s.runId, Failed, RunReport(s.stats, Some(e)), o.clock(c.txns));
      Finished(Commit(c.(current := done)).committed, s.runId, Failed, s.stats, true)
  }

  /** `main` with the given start discipline. */
  function RunWith(cli: Option<string>, env: Option<string>, st: Store, cfg: Config, o: Oracle, commitAtStart: bool): (r: RunOutcome)
    ensures r.NotConnected? <==> GetDbUrl(cli, env) == ""
    ensures r.Finished? ==> StatsOk(r.stats) && (r.status == Success <==> !r.raised)
  {
    match Connect(GetDbUrl(cli, env), st)
    case Err(e) => NotConnected(e)
    case Ok(st0) =>
      var s := Begin(st0, cfg, o, commitAtStart);
      var step := match o.listing
        case Err(e) => Fatal(s, e)
        case Ok(slugs) => ProcessFamilies(s, Limit(slugs, cfg.limit), cfg, o);
      End(step, o)
  }

  /** `main` as written: the run row and the profile stay in the open transaction until the first family commits. */
  function RunAsWritten(cli: Option<string>, env: Option<string>, st: Store, cfg: Config, o: Oracle): (r: RunOutcome)
    ensures r.NotConnected? <==> GetDbUrl(cli, env) == ""
    ensures r.Finished? ==> StatsOk(r.stats) && (r.status == Success <==> !r.raised)
    ensures r.Finished? && o.listing.Ok? && !r.raised ==> r.stats.familiesSeen == |Limit(o.listing.value, cfg.limit)|
  {
    RunWith(cli, env, st, cfg, o, false)
  }

  /** `main` with the run row committed as soon as it is written. */
  function Run(cli: Option<string>, env: Option<string>, st: Store, cfg: Config, o: Oracle): (r: RunOutcome)
    ensures r.NotConnected? <==> GetDbUrl(cli, env) == ""
    ensures r.Finished? ==> StatsOk(r.stats) && (r.status == Success <==> !r.raised)
    ensures r.Finished? && o.listing.Err? ==> r.raised && r.status == Failed
  {
    RunWith(cli, env, st, cfg, o, true)
  }

  /**
   * When the listing cannot be fetched, the run as written rolls back its
   * own run row before marking it failed: the update finds no row and the
   * store ends as it began, with no trace of the run.
   */
  lemma {:induction false} AsWrittenLosesEarlyFailure(cli: Option<string>, env: Option<string>, st: Store, cfg: Config, o: Oracle)
    requires Wf(st) && GetDbUrl(cli, env) != "" && o.listing.Err?
    ensures var r := RunAsWritten(cli, env, st, cfg, o);
      r.Finished? && r.raised && r.store == st && r.runId !in r.store.runs
  {
    var s := Begin(st, cfg, o, false);
    assert s.conn.committed == st;
  }

  /**
   * With the run row committed at once, every run that connects ends with
   * its row in the store, finished, with the status and counters it
   * reports and an error exactly when it raised, and every other run as it
   * was.
   */
  lemma {:induction false} RunIsRecorded(cli: Option<string>, env: Option<string>, st: Store, cfg: Config, o: Oracle)
    requires Wf(st) && GetDbUrl(cli, env) != ""
    ensures var r := Run(cli, env, st, cfg, o);
      && r.Finished? && r.runId !in st.runs && r.runId in r.store.runs
      && RecordedAs(r.store.runs[r.runId], r)
      && (forall k :: k in st.runs ==> k in r.store.runs && r.store.runs[k] == st.runs[k])
  {
    var s := Begin(st, cfg, o, true);
    var step := match o.listing
      case Err(e) => Fatal(s, e)
      case Ok(slugs) => ProcessFamilies(s, Limit(slugs, cfg.limit), cfg, o);
    var runs := s.conn.current.runs;
    assert step.state.conn.committed.runs == runs && step.state.conn.current.runs == runs;
    assert step.state.runId == s.runId;
    EndRecords(step, o, runs);
    assert Connect(GetDbUrl(cli, env), st) == Ok(st);
    assert Run(cli, env, st, cfg, o) == End(step, o);
  }

  /** A finished run row that records the outcome. */
  predicate RecordedAs(row: RunRow, r: RunOutcome)
    requires r.Finished?
  {
    && row.status == r.status && row.finishedAt.Some? && row.report.Some?
    && row.report.value.stats == r.stats && (row.report.value.error.Some? <==> r.raised)
  }

  /** When both the committed and the open state hold the run, the end of the run records it and touches no other run. */
  lemma {:induction false} EndRecords(step: Step, o: Oracle, runs: map<nat, RunRow>)
    requires step.state.conn.committed.runs == runs && step.state.conn.current.runs == runs
    requires step.state.runId in runs
    ensures var r := End(step, o);
      && r.store.runs.Keys == runs.Keys && RecordedAs(r.store.runs[step.state.runId], r)
      && (forall k :: k in runs && k != step.state.runId ==> r.store.runs[k] == runs[k])
  {
  }

  /** A successful run saw every slug the listing gave, up to the limit. */
  lemma {:induction false} SuccessSeesEverySlug(cli: Option<string>, env: Option<string>, st: Store, cfg: Config, o: Oracle)
    requires GetDbUrl(cli, env) != "" && o.listing.Ok?
    ensures var r := Run(cli, env, st, cfg, o);
      r.Finished? && !r.raised ==> r.stats.familiesSeen == |Limit(o.listing.value, cfg.limit)|
  {
  }
}

=== FILE: dedup.dfy ===
/**
 * Order-preserving de-duplication by key: the crawler keeps the first item
 * seen for each key (a slug, a variant tag) and drops the later ones. The
 * items are what a partial reader makes of each input element.
 */
module Dedup {
  import opened Wrappers

  /** The results of a partial reader over the inputs it accepts, in input order. */
  function FilterMap<A, T>(xs: seq<A>, f: A -> Option<T>): seq<T>
    decreases |xs|
  {
    if |xs| == 0 then []
    else FilterMap(xs[..|xs| - 1], f) + (match f(xs[|xs| - 1]) case Some(v) => [v] case None => [])
  }

  lemma {:induction false} FilterMapSnoc<A, T>(xs: seq<A>, x: A, f: A -> Option<T>)
    ensures FilterMap(xs + [x], f) == FilterMap(xs, f) + (match f(x) case Some(v) => [v] case None => [])
  {
    var ys := xs + [x];
    assert ys[..|ys| - 1] == xs;
  }

  lemma {:induction false} FilterMapConcat<A, T>(a: seq<A>, b: seq<A>, f: A -> Option<T>)
    ensures FilterMap(a + b, f) == FilterMap(a, f) + FilterMap(b, f)
    decreases |b|
  {
    if |b| == 0 {
      assert a + b == a;
    } else {
      var bi := b[..|b| - 1];
      var last := b[|b| - 1];
      assert a + b == (a + bi) + [last];
      FilterMapSnoc(a + bi, last, f);
      FilterMapConcat(a, bi, f);
    }
  }

  /** Every result comes from some input the reader accepted. */
  lemma {:induction false} FilterMapFrom<A, T>(xs: seq<A>, f: A -> Option<T>, v: T)
    requires v in FilterMap(xs, f)
    ensures exists i :: 0 <= i < |xs| && f(xs[i]) == Some(v)
    decreases |xs|
  {
    var init := xs[..|xs| - 1];
    if v in FilterMap(init, f) {
      FilterMapFrom(init, f, v);
      var i :| 0 <= i < |init| && f(init[i]) == Some(v);
      assert xs[i] == init[i];
    }
  }

  /** Every accepted input contributes its result. */
  lemma {:induction false} FilterMapTo<A, T>(xs: seq<A>, f: A -> Option<T>, i: nat)
    requires i < |xs| && f(xs[i]).Some?
    ensures f(xs[i]).value in FilterMap(xs, f)
    decreases |xs|
  {
    var init := xs[..|xs| - 1];
    if i < |init| {
      FilterMapTo(init, f, i);
      assert init[i] == xs[i];
    }
  }

  function Keys<T, K>(xs: seq<T>, key: T -> K): (r: seq<K>)
    ensures |r| == |xs|
    ensures forall i :: 0 <= i < |xs| ==> r[i] == key(xs[i])
  {
    seq(|xs|, i requires 0 <= i < |xs| => key(xs[i]))
  }

  /** No two items share a key. */
  predicate DistinctKeys<T, K(==)>(xs: seq<T>, key: T -> K) {
    forall i, j :: 0 <= i < j < |xs| ==> key(xs[i]) != key(xs[j])
  }

  /**
   * The reference definition: an item is kept exactly when no earlier item
   * of the input has its key.
   */
  function FirstByKey<T, K(==)>(xs: seq<T>, key: T -> K): seq<T>
    decreases |xs|
  {
    if |xs| == 0 then []
    else
      var init := xs[..|xs| - 1];
      var last := xs[|xs| - 1];
      FirstByKey(init, key) + (if key(last) in Keys(init, key) then [] else [last])
  }

  /** The kept items carry exactly the keys of the input. */
  lemma {:induction false} FirstByKeyKeys<T, K>(xs: seq<T>, key: T -> K, k: K)
    ensures k in Keys(FirstByKey(xs, key), key) <==> k in Keys(xs, key)
    decreases |xs|
  {
    if |xs| > 0 {
      var init := xs[..|xs| - 1];
      var last := xs[|xs| - 1];
      FirstByKeyKeys(init, key, k);
      FirstByKeyKeys(init, key, key(last));
      var tail := if key(last) in Keys(init, key) then [] else [last];
      KeysConcat(FirstByKey(init, key), tail, key);
      KeysConcat(init, [last], key);
      assert xs == init + [last];
    }
  }

  lemma {:induction false} KeysConcat<T, K>(a: seq<T>, b: seq<T>, key: T -> K)
    ensures Keys(a + b, key) == Keys(a, key) + Keys(b, key)
  {
  }

  /** No key is kept twice. */
  lemma {:induction false} FirstByKeyDistinct<T, K>(xs: seq<T>, key: T -> K)
    ensures DistinctKeys(FirstByKey(xs, key), key)
    decreases |xs|
  {
    if |xs| > 0 {
      var init := xs[..|xs| - 1];
      var last := xs[|xs| - 1];
      FirstByKeyDistinct(init, key);
      var p := FirstByKey(init, key);
      if key(last) !in Keys(init, key) {
        FirstByKeyKeys(init, key, key(last));
        var r := p + [last];
        forall i, j | 0 <= i < j < |r| ensures key(r[i]) != key(r[j]) {
          if j == |p| {
            assert Keys(p, key)[i] == key(r[i]);
          }
        }
      }
    }
  }

  /** Every kept item is an input item whose key no earlier input item has. */
  lemma {:induction false} FirstByKeyFirst<T, K>(xs: seq<T>, key: T -> K, x: T)
    requires x in FirstByKey(xs, key)
    ensures exists i :: 0 <= i < |xs| && xs[i] == x && key(x) !in Keys(xs[..i], key)
    decreases |xs|
  {
    var init := xs[..|xs| - 1];
    var last := xs[|xs| - 1];
    if x in FirstByKey(init, key) {
      FirstByKeyFirst(init, key, x);
      var i :| 0 <= i < |init| && init[i] == x && key(x) !in Keys(init[..i], key);
      assert xs[i] == x && xs[..i] == init[..i];
    } else {
      assert x == last && key(last) !in Keys(init, key);
      assert xs[..|xs| - 1] == init;
    }
  }

  lemma {:induction false} FirstByKeySubset<T, K>(xs: seq<T>, key: T -> K)
    ensures forall x :: x in FirstByKey(xs, key) ==> x in xs
  {
    forall x | x in FirstByKey(xs, key) ensures x in xs {
      FirstByKeyFirst(xs, key, x);
    }
  }

  /** The kept items keep their input order: the result is a subsequence of the input. */
  predicate Subsequence<T(==)>(r: seq<T>, xs: seq<T>)
    decreases |xs|
  {
    if |r| == 0 then true
    else if |xs| == 0 then false
    else if r[|r| - 1] == xs[|xs| - 1] then Subsequence(r[..|r| - 1], xs[..|xs| - 1])
    else Subsequence(r, xs[..|xs| - 1])
  }

  lemma {:induction false} FirstByKeySubsequence<T, K>(xs: seq<T>, key: T -> K)
    ensures Subsequence(FirstByKey(xs, key), xs)
    decreases |xs|
  {
    if |xs| > 0 {
      var init := xs[..|xs| - 1];
      var last := xs[|xs| - 1];
      var p := FirstByKey(init, key);
      FirstByKeySubsequence(init, key);
      if key(last) in Keys(init, key) {
        assert FirstByKey(xs, key) == p;
        SubsequenceExtend(p, init, last);
        assert init + [last] == xs;
      } else {
        var r := p + [last];
        assert FirstByKey(xs, key) == r;
        assert r[..|r| - 1] == p;
      }
    }
  }

  lemma {:induction false} SubsequenceExtend<T>(r: seq<T>, xs: seq<T>, x: T)
    requires Subsequence(r, xs)
    ensures Subsequence(r, xs + [x])
    decreases |xs|, 1
  {
    var ys := xs + [x];
    assert ys[..|ys| - 1] == xs;
    if |r| > 0 && r[|r| - 1] == x {
      SubsequenceShorten(r, xs);
    }
  }

  /** Dropping the last kept item keeps a subsequence. */
  lemma {:induction false} SubsequenceShorten<T>(r: seq<T>, xs: seq<T>)
    requires |r| > 0 && Subsequence(r, xs)
    ensures Subsequence(r[..|r| - 1], xs)
    decreases |xs|, 0
  {
    var init := xs[..|xs| - 1];
    if r[|r| - 1] == xs[|xs| - 1] {
      SubsequenceExtend(r[..|r| - 1], init, xs[|xs| - 1]);
      assert init + [xs[|xs| - 1]] == xs;
    } else {
      SubsequenceShorten(r, init);
      SubsequenceExtend(r[..|r| - 1], init, xs[|xs| - 1]);
      assert init + [xs[|xs| - 1]] == xs;
    }
  }

  /** Input whose keys are already distinct passes through unchanged; so de-duplicating twice changes nothing. */
  lemma {:induction false} FirstByKeyOfDistinct<T, K>(xs: seq<T>, key: T -> K)
    requires DistinctKeys(xs, key)
    ensures FirstByKey(xs, key) == xs
    decreases |xs|
  {
    if |xs| > 0 {
      var init := xs[..|xs| - 1];
      assert DistinctKeys(init, key);
      FirstByKeyOfDistinct(init, key);
      assert key(xs[|xs| - 1]) !in Keys(init, key) by {
        forall i | 0 <= i < |init| ensures Keys(init, key)[i] != key(xs[|xs| - 1]) {
          assert init[i] == xs[i];
        }
      }
      assert init + [xs[|xs| - 1]] == xs;
    }
  }

  lemma {:induction false} FirstByKeyIdempotent<T, K>(xs: seq<T>, key: T -> K)
    ensures FirstByKey(FirstByKey(xs, key), key) == FirstByKey(xs, key)
  {
    FirstByKeyDistinct(xs, key);
    FirstByKeyOfDistinct(FirstByKey(xs, key), key);
  }

  /** One step of the loop that keeps a set of seen keys, expressed on the reference definition. */
  lemma {:induction false} FirstByKeySnoc<T, K>(xs: seq<T>, x: T, key: T -> K)
    ensures FirstByKey(xs + [x], key) ==
            FirstByKey(xs, key) + (if key(x) in Keys(FirstByKey(xs, key), key) then [] else [x])
  {
    var ys := xs + [x];
    assert ys[..|ys| - 1] == xs;
    FirstByKeyKeys(xs, key, key(x));
  }

  /** A rejected input changes nothing, wherever it stands. */
  lemma {:induction false} FilterMapSkip<A, T>(before: seq<A>, x: A, after: seq<A>, f: A -> Option<T>)
    requires f(x).None?
    ensures FilterMap(before + [x] + after, f) == FilterMap(before + after, f)
  {
    FilterMapConcat(before + [x], after, f);
    FilterMapSnoc(before, x, f);
    FilterMapConcat(before, after, f);
  }

  /**
   * The loop both extractors run: read each input, and keep the result
   * unless a result with its key was already kept, tracking the kept keys
   * in a set.
   */
  method CollectFirst<A, T, K(==)>(xs: seq<A>, f: A -> Option<T>, key: T -> K) returns (r: seq<T>)
    ensures r == FirstByKey(FilterMap(xs, f), key)
  {
    r := [];
    var seen: set<K> := {};
    var i := 0;
    while i < |xs|
      invariant 0 <= i <= |xs|
      invariant r == FirstByKey(FilterMap(xs[..i], f), key)
      invariant forall j :: 0 <= j < |r| ==> key(r[j]) in seen
      invariant forall k :: k in seen ==> k in Keys(r, key)
    {
      var cands := FilterMap(xs[..i], f);
      assert xs[..i + 1] == xs[..i] + [xs[i]];
      FilterMapSnoc(xs[..i], xs[i], f);
      match f(xs[i]) {
        case Some(v) =>
          assert FilterMap(xs[..i + 1], f) == cands + [v];
          FirstByKeySnoc(cands, v, key);
          if key(v) !in seen {
            assert key(v) !in Keys(r, key);
            KeysConcat(r, [v], key);
            r := r + [v];
            seen := seen + {key(v)};
          }
        case None =>
          assert FilterMap(xs[..i + 1], f) == cands;
      }
      i := i + 1;
    }
    assert xs[..i] == xs;
  }
}

=== FILE: fit.dfy ===
/**
 * The browser's fit logic: scale the stored fp16-based per-token KV
 * estimates to the chosen cache type, compute the memory a context needs,
 * classify it against the user's budget, find the longest context that
 * fits, score each variant, drop what cannot fit and order the rest.
 */
module Fit {
  import opened Wrappers
  import opened Text
  import opened Dedup
  import Vram

  const GiB: real := 1073741824.0

  /**
   * The cache-type scale relative to fp16: a half for 8-bit caches, a
   * quarter with a 10% margin for 4-bit caches, one otherwise; a missing
   * or empty type counts as fp16.
   */
  function KvOverheadFactor(kv: Option<string>): (r: real)
    ensures r == 0.5 || r == 0.275 || r == 1.0
    ensures r == 0.5 <==> kv.Some? && (Lower(kv.value) == "q8" || Lower(kv.value) == "int8")
    ensures r == 0.275 <==> kv.Some? && (Lower(kv.value) == "q4" || Lower(kv.value) == "int4")
  {
    var k := match kv case Some(s) => if s == "" then "fp16" else Lower(s) case None => "fp16";
    if k == "q8" || k == "int8" then 0.5
    else if k == "q4" || k == "int4" then 0.275
    else 1.0
  }

  /**
   * For the cache types both sides name, the browser's scale is the
   * crawler's bytes per element relative to fp16, times the crawler's
   * 4-bit overhead.
   */
  lemma {:induction false} FactorAgreesWithCrawler(kv: string)
    requires Lower(kv) in ["fp16", "f16", "q8", "int8", "q4", "int4"]
    ensures KvOverheadFactor(Some(kv)) == Vram.KvBytesPerElem(kv) / 2.0 * Vram.KvOverheadFactor(kv)
  {
  }

  /** The memory a context needs: weights, runtime, and the scaled KV cache of `ctx` tokens. */
  function ComputeVram(weights: real, runtime: real, kvBytesPerTok: real, ctx: real, kv: Option<string>): (r: real)
    ensures ctx == 0.0 || kvBytesPerTok == 0.0 ==> r == weights + runtime
    ensures 0.0 <= kvBytesPerTok && 0.0 <= ctx ==> weights + runtime <= r
    ensures 0.0 <= kvBytesPerTok && 0.0 <= ctx ==> r <= weights + runtime + kvBytesPerTok * ctx / GiB
  {
    KvCostBounds(kvBytesPerTok, ctx, KvOverheadFactor(kv));
    VramWith(weights, runtime, kvBytesPerTok, ctx, KvOverheadFactor(kv))
  }

  /** The memory need under a given cache-type scale. */
  function VramWith(weights: real, runtime: real, kvBytesPerTok: real, ctx: real, factor: real): real {
    weights + runtime + (kvBytesPerTok * ctx * factor) / GiB
  }

  /** A scaled KV cost of non-negative inputs lies between nothing and the unscaled cost. */
  lemma {:induction false} KvCostBounds(kvBytesPerTok: real, ctx: real, factor: real)
    requires 0.0 < factor <= 1.0
    ensures 0.0 <= kvBytesPerTok && 0.0 <= ctx ==>
      0.0 <= kvBytesPerTok * ctx * factor <= kvBytesPerTok * ctx
  {
    if 0.0 <= kvBytesPerTok && 0.0 <= ctx {
      var c := kvBytesPerTok * ctx;
      assert 0.0 <= c;
      assert c * factor <= c * 1.0;
    }
  }

  /** More context never needs less memory. */
  lemma {:induction false} ComputeVramMonotone(weights: real, runtime: real, kvBytesPerTok: real, c1: real, c2: real, kv: Option<string>)
    requires 0.0 <= kvBytesPerTok && c1 <= c2
    ensures ComputeVram(weights, runtime, kvBytesPerTok, c1, kv) <= ComputeVram(weights, runtime, kvBytesPerTok, c2, kv)
  {
    var f := KvOverheadFactor(kv);
    assert kvBytesPerTok * (c2 - c1) * f >= 0.0;
    assert kvBytesPerTok * c2 * f - kvBytesPerTok * c1 * f == kvBytesPerTok * (c2 - c1) * f;
  }

  datatype Tier = Unknown | FitsCons | FitsOpt | NoFit

  /**
   * Without a positive budget the fit is unknown; otherwise the
   * conservative need is tried first, then the optimistic one.
   */
  function FitTier(vramCons: real, vramOpt: real, budget: real): (r: Tier)
    ensures r == Unknown <==> budget <= 0.0
    ensures r == FitsCons <==> budget > 0.0 && vramCons <= budget
    ensures r == FitsOpt <==> budget > 0.0 && budget < vramCons && vramOpt <= budget
    ensures r == NoFit <==> budget > 0.0 && budget < vramCons && budget < vramOpt
  {
    if budget <= 0.0 then Unknown
    else if vramCons <= budget then FitsCons
    else if vramOpt <= budget then FitsOpt
    else NoFit
  }

  /** A context length limit: a whole number of tokens, or none when the KV cache takes no room. */
  datatype CtxLimit = Tokens(n: int) | Unbounded

  /**
   * The longest context that fits the budget: zero when the weights and
   * runtime leave no headroom, else the headroom divided by the scaled
   * per-token cost, rounded down.
   */
  function MaxCtxThatFits(budget: real, weights: real, runtime: real, kvBytesPerTok: real, kv: Option<string>): (r: CtxLimit)
    ensures budget - weights - runtime <= 0.0 ==> r == Tokens(0)
  {
    MaxCtxWith(budget, weights, runtime, kvBytesPerTok, KvOverheadFactor(kv))
  }

  function MaxCtxWith(budget: real, weights: real, runtime: real, kvBytesPerTok: real, factor: real): (r: CtxLimit)
  {
    var headroom := budget - weights - runtime;
    var perTok := kvBytesPerTok * factor;
    if headroom <= 0.0 then Tokens(0)
    else if perTok == 0.0 then Unbounded
    else Tokens((headroom * GiB / perTok).Floor)
  }

  /**
   * With a positive per-token cost and some headroom, the answer is the
   * exact limit: that many tokens fit the budget and one more does not.
   */
  lemma {:induction false} MaxCtxIsLongestFit(budget: real, weights: real, runtime: real, kvBytesPerTok: real, kv: Option<string>)
    requires kvBytesPerTok > 0.0 && budget - weights - runtime > 0.0
    ensures var r := MaxCtxThatFits(budget, weights, runtime, kvBytesPerTok, kv);
      && r.Tokens? && r.n >= 0
      && ComputeVram(weights, runtime, kvBytesPerTok, r.n as real, kv) <= budget
      && ComputeVram(weights, runtime, kvBytesPerTok, (r.n + 1) as real, kv) > budget
  {
    LongestFitWith(budget, weights, runtime, kvBytesPerTok, KvOverheadFactor(kv));
  }

  lemma {:induction false} LongestFitWith(budget: real, weights: real, runtime: real, kvBytesPerTok: real, factor: real)
    requires kvBytesPerTok > 0.0 && factor > 0.0 && budget - weights - runtime > 0.0
    ensures var r := MaxCtxWith(budget, weights, runtime, kvBytesPerTok, factor);
      && r.Tokens? && r.n >= 0
      && VramWith(weights, runtime, kvBytesPerTok, r.n as real, factor) <= budget
      && VramWith(weights, runtime, kvBytesPerTok, (r.n + 1) as real, factor) > budget
  {
    var h := budget - weights - runtime;
    var p := kvBytesPerTok * factor;
    PositiveProduct(kvBytesPerTok, factor);
    var n := (h * GiB / p).Floor;
    assert MaxCtxWith(budget, weights, runtime, kvBytesPerTok, factor) == Tokens(n);
    FloorFits(h, p);
    VramPerToken(weights, runtime, kvBytesPerTok, n as real, factor);
    VramPerToken(weights, runtime, kvBytesPerTok, (n + 1) as real, factor);
  }

  lemma {:induction false} PositiveProduct(a: real, b: real)
    requires a > 0.0 && b > 0.0
    ensures a * b > 0.0
  {
  }

  /** The memory need in terms of the scaled per-token cost. */
  lemma {:induction false} VramPerToken(weights: real, runtime: real, kvBytesPerTok: real, ctx: real, factor: real)
    ensures VramWith(weights, runtime, kvBytesPerTok, ctx, factor) == weights + runtime + ctx * (kvBytesPerTok * factor) / GiB
  {
    assert kvBytesPerTok * ctx * factor == ctx * (kvBytesPerTok * factor);
  }

  /** Rounding the headroom's token count down gives the last count that fits. */
  lemma {:induction false} FloorFits(h: real, p: real)
    requires h > 0.0 && p > 0.0
    ensures var n := (h * GiB / p).Floor;
      n >= 0 && n as real * p / GiB <= h && (n + 1) as real * p / GiB > h
  {
    var q := h * GiB / p;
    var n := q.Floor;
    assert q >= 0.0;
    ScaledBelow(n as real, q, p, h);
    ScaledAbove((n + 1) as real, q, p, h);
  }

  lemma {:induction false} ScaledBelow(c: real, q: real, p: real, h: real)
    requires p > 0.0 && q == h * GiB / p && c <= q
    ensures c * p / GiB <= h
  {
    assert c * p <= q * p;
    assert q * p == h * GiB;
  }

  lemma {:induction false} ScaledAbove(c: real, q: real, p: real, h: real)
    requires p > 0.0 && q == h * GiB / p && c > q
    ensures c * p / GiB > h
  {
    assert c * p > q * p;
    assert q * p == h * GiB;
  }

  /* ---------------------------------------------------------------------- */
  /* Ranking                                                                 */
  /* ---------------------------------------------------------------------- */

  function FitPoints(t: Tier): real {
    match t
    case FitsCons => 100.0
    case FitsOpt => 60.0
    case NoFit => -999.0
    case Unknown => 0.0
  }

  /** `Math.min(20, Math.max(0, x))`. */
  function Clamp20(x: real): (r: real)
    ensures 0.0 <= r <= 20.0
    ensures 0.0 <= x <= 20.0 ==> r == x
  {
    if x > 20.0 then 20.0 else if x < 0.0 then 0.0 else x
  }

  /** JavaScript's `x || 0` on a number that may be null. */
  function OrZero(x: Option<real>): real { x.GetOr(0.0) }

  /** The measured run aggregate of a variant for the chosen workflow and toolchain. */
  datatype RunAgg = RunAgg(trustedRuns: nat, p50Tps: Option<real>, p50TtftMs: Option<real>, avgQuality: Option<real>)

  /** The user's ranking preferences. */
  datatype Prefs = Prefs(preferQuality: bool, minTps: Option<real>, maxTtft: Option<real>)

  /** A run below the minimum throughput; both values must be known. */
  predicate TooSlow(run: Option<RunAgg>, prefs: Prefs) {
    prefs.minTps.Some? && run.Some? && run.value.p50Tps.Some? && run.value.p50Tps.value < prefs.minTps.value
  }

  /** A run above the maximum time to first token; both values must be known. */
  predicate TooLaggy(run: Option<RunAgg>, prefs: Prefs) {
    prefs.maxTtft.Some? && run.Some? && run.value.p50TtftMs.Some? && run.value.p50TtftMs.value > prefs.maxTtft.value
  }

  /** The measured term: four points per quality point, or 0.8 per token per second; nothing unmeasured. */
  function Perf(run: Option<RunAgg>, prefs: Prefs): real {
    if prefs.preferQuality then OrZero(if run.Some? then run.value.avgQuality else None) * 4.0
    else OrZero(if run.Some? then run.value.p50Tps else None) * 0.8
  }

  /**
   * `rankScore`: fit points, the trust term for the run count (given as
   * `trust`, since it is a logarithm), quality or throughput, the clamped
   * template votes, and the two penalties.
   */
  function RankScore(tier: Tier, run: Option<RunAgg>, votes: Option<real>, trust: real, prefs: Prefs): (r: real)
    ensures run.None? ==> r == FitPoints(tier) + trust + Clamp20(OrZero(votes))
    ensures FitPoints(tier) + trust + Perf(run, prefs) - 80.0 <= r <= FitPoints(tier) + trust + Perf(run, prefs) + 20.0
    ensures !TooSlow(run, prefs) && !TooLaggy(run, prefs) ==> FitPoints(tier) + trust + Perf(run, prefs) <= r
  {
    FitPoints(tier) + trust + Perf(run, prefs) + Clamp20(OrZero(votes))
    - (if TooSlow(run, prefs) then 50.0 else 0.0) - (if TooLaggy(run, prefs) then 30.0 else 0.0)
  }

  /** A better fit scores more, everything else being equal: fits_cons, fits_opt, unknown, no_fit. */
  lemma {:induction false} BetterFitScoresMore(run: Option<RunAgg>, votes: Option<real>, trust: real, prefs: Prefs)
    ensures RankScore(FitsCons, run, votes, trust, prefs) == RankScore(FitsOpt, run, votes, trust, prefs) + 40.0
    ensures RankScore(FitsOpt, run, votes, trust, prefs) == RankScore(Unknown, run, votes, trust, prefs) + 60.0
    ensures RankScore(Unknown, run, votes, trust, prefs) == RankScore(NoFit, run, votes, trust, prefs) + 999.0
  {
  }

  /** The votes add between 0 and 20 points, and nothing beyond 20 counts. */
  lemma {:induction false} VotesBounded(tier: Tier, run: Option<RunAgg>, v: real, trust: real, prefs: Prefs)
    ensures RankScore(tier, run, None, trust, prefs) <= RankScore(tier, run, Some(v), trust, prefs) <= RankScore(tier, run, None, trust, prefs) + 20.0
    ensures v >= 20.0 ==> RankScore(tier, run, Some(v), trust, prefs) == RankScore(tier, run, Some(20.0), trust, prefs)
  {
  }

  /**
   * Each penalty costs exactly its points and applies only when both of
   * its values are known: dropping the threshold removes it.
   */
  lemma {:induction false} PenaltiesExact(tier: Tier, run: Option<RunAgg>, votes: Option<real>, trust: real, prefs: Prefs)
    ensures var open := prefs.(minTps := None, maxTtft := None);
      RankScore(tier, run, votes, trust, prefs) ==
        RankScore(tier, run, votes, trust, open) - (if TooSlow(run, prefs) then 50.0 else 0.0) - (if TooLaggy(run, prefs) then 30.0 else 0.0)
    ensures run.None? ==> RankScore(tier, run, votes, trust, prefs) == RankScore(tier, run, votes, trust, prefs.(minTps := None, maxTtft := None))
  {
  }

  /* ---------------------------------------------------------------------- */
  /* The result list                                                         */
  /* ---------------------------------------------------------------------- */

  /** The stored components of a variant's estimate. */
  datatype Components = Components(weights: real, runtime: real, kvBptOpt: real, kvBptCons: real)

  /**
   * A variant the text and use-case filters let through, with what the
   * catalog holds for it. `trust` is the value of `10 * Math.log(1 + n)`
   * for the run's trusted-run count n.
   */
  datatype Candidate = Candidate(variantId: string, comps: Option<Components>, run: Option<RunAgg>,
                                 votes: Option<real>, trust: real)

  /** The trust term of a candidate: the logarithm of its trusted runs, and 0 (the logarithm of 1) without any. */
  function TrustTerm(c: Candidate): real {
    if c.run.None? || c.run.value.trustedRuns == 0 then 0.0 else c.trust
  }

  /** The sizing the user asked for. */
  datatype Sizing = Sizing(budget: real, ctx: real, kv: Option<string>)

  datatype Row = Row(variantId: string, tier: Tier, vramOpt: real, vramCons: real, maxCtxCons: CtxLimit, score: real)

  /** The row of one variant, unless it has no components or cannot fit. */
  function Evaluate(c: Candidate, sz: Sizing, prefs: Prefs): (r: Option<Row>)
    ensures r.Some? <==> (c.comps.Some? &&
      FitTier(ComputeVram(c.comps.value.weights, c.comps.value.runtime, c.comps.value.kvBptCons, sz.ctx, sz.kv),
              ComputeVram(c.comps.value.weights, c.comps.value.runtime, c.comps.value.kvBptOpt, sz.ctx, sz.kv),
              sz.budget) != NoFit)
    ensures r.Some? ==> r.value.variantId == c.variantId && r.value.tier != NoFit
    ensures r.Some? && c.run.None? ==> r.value.score == FitPoints(r.value.tier) + Clamp20(OrZero(c.votes))
  {
    match c.comps
    case None => None
    case Some(k) =>
      var vramOpt := ComputeVram(k.weights, k.runtime, k.kvBptOpt, sz.ctx, sz.kv);
      var vramCons := ComputeVram(k.weights, k.runtime, k.kvBptCons, sz.ctx, sz.kv);
      var tier := FitTier(vramCons, vramOpt, sz.budget);
      if tier == NoFit then None
      else
        Some(Row(c.variantId, tier, vramOpt, vramCons,
                 MaxCtxThatFits(sz.budget, k.weights, k.runtime, k.kvBptCons, sz.kv),
                 RankScore(tier, c.run, c.votes, TrustTerm(c), prefs)))
  }

  /** Display order: higher score first, then lower conservative need. */
  predicate Before(a: Row, b: Row) {
    a.score > b.score || (a.score == b.score && a.vramCons <= b.vramCons)
  }

  predicate Sorted(rs: seq<Row>) {
    forall i, j :: 0 <= i < j < |rs| ==> Before(rs[i], rs[j])
  }

  function Insert(x: Row, rs: seq<Row>): (r: seq<Row>)
    requires Sorted(rs)
    ensures Sorted(r)
    ensures multiset(r) == multiset(rs) + multiset{x}
    decreases |rs|
  {
    if |rs| == 0 then [x]
    else if Before(x, rs[0]) then
      var r := [x] + rs;
      assert forall j :: 0 < j < |r| ==> Before(x, r[j]) by {
        forall j | 0 < j < |r| ensures Before(x, r[j]) {
          assert Before(rs[0], rs[j - 1]) || j == 1;
        }
      }
      r
    else
      var tail := Insert(x, rs[1..]);
      assert rs == [rs[0]] + rs[1..];
      var r := [rs[0]] + tail;
      assert forall j :: 0 <= j < |tail| ==> Before(rs[0], tail[j]) by {
        forall j | 0 <= j < |tail| ensures Before(rs[0], tail[j]) {
          assert tail[j] in multiset(tail);
          assert tail[j] == x || tail[j] in multiset(rs[1..]);
          if tail[j] != x {
            var k :| 0 <= k < |rs[1..]| && rs[1..][k] == tail[j];
            assert Before(rs[0], rs[k + 1]);
          }
        }
      }
      r
  }

  /** `results.sort(...)`: the rows in display order. */
  function Sort(rs: seq<Row>): (r: seq<Row>)
    ensures Sorted(r)
    ensures multiset(r) == multiset(rs)
    decreases |rs|
  {
    if |rs| == 0 then []
    else
      assert rs == [rs[0]] + rs[1..];
      Insert(rs[0], Sort(rs[1..]))
  }

  function Evaluator(sz: Sizing, prefs: Prefs): Candidate -> Option<Row> {
    c => Evaluate(c, sz, prefs)
  }

  /**
   * `apply`: the row of every candidate that has components and can fit,
   * in display order.
   */
  function Apply(cs: seq<Candidate>, sz: Sizing, prefs: Prefs): (r: seq<Row>)
    ensures Sorted(r)
    ensures multiset(r) == multiset(FilterMap(cs, Evaluator(sz, prefs)))
  {
    Sort(FilterMap(cs, Evaluator(sz, prefs)))
  }

  /** A row is shown exactly when some candidate evaluates to it, and no shown row is a no-fit. */
  lemma {:induction false} ApplyShows(cs: seq<Candidate>, sz: Sizing, prefs: Prefs, row: Row)
    ensures row in Apply(cs, sz, prefs) <==> exists i :: 0 <= i < |cs| && Evaluate(cs[i], sz, prefs) == Some(row)
    ensures row in Apply(cs, sz, prefs) ==> row.tier != NoFit
  {
    var f := Evaluator(sz, prefs);
    var rows := FilterMap(cs, f);
    assert row in Apply(cs, sz, prefs) <==> row in multiset(rows);
    if row in rows {
      FilterMapFrom(cs, f, row);
      var i :| 0 <= i < |cs| && f(cs[i]) == Some(row);
      assert Evaluate(cs[i], sz, prefs) == Some(row);
    }
    if exists i :: 0 <= i < |cs| && Evaluate(cs[i], sz, prefs) == Some(row) {
      var i :| 0 <= i < |cs| && Evaluate(cs[i], sz, prefs) == Some(row);
      assert f(cs[i]) == Some(row);
      FilterMapTo(cs, f, i);
    }
  }
}

=== FILE: normalize.dfy ===
/**
 * The text normalisers of the crawler: whitespace collapsing, the parsers of
 * catalog sizes ("4.7GB"), human numbers ("1.2M", "12,345"), context lengths
 * ("128K") and the "3 weeks ago" recency text.
 */
module Normalize {
  import opened Wrappers
  import opened Text

  /* ---------------------------------------------------------------------- */
  /* normalize_whitespace                                                    */
  /* ---------------------------------------------------------------------- */

  /** Every whitespace character of s is a plain blank and no two are adjacent. */
  predicate Collapsed(s: string) {
    && (forall i :: 0 <= i < |s| ==> IsSpace(s[i]) ==> s[i] == ' ')
    && (forall i :: 0 < i < |s| ==> IsSpace(s[i]) ==> !IsSpace(s[i - 1]))
  }

  predicate NoEdgeSpace(s: string) {
    |s| > 0 ==> !IsSpace(s[0]) && !IsSpace(s[|s| - 1])
  }

  /** The characters of s that are not whitespace, in order. */
  function NonSpace(s: string): string
  {
    if |s| == 0 then "" else (if IsSpace(s[0]) then "" else [s[0]]) + NonSpace(s[1..])
  }

  lemma {:induction false} NonSpaceConcat(a: string, b: string)
    ensures NonSpace(a + b) == NonSpace(a) + NonSpace(b)
    decreases |a|
  {
    if |a| > 0 {
      assert (a + b)[1..] == a[1..] + b;
      NonSpaceConcat(a[1..], b);
    } else {
      assert a + b == b;
    }
  }

  /** Skipping a run of whitespace loses no visible character. */
  lemma {:induction false} NonSpaceSkipsSpaces(s: string, e: nat)
    requires e <= |s|
    requires forall k :: 0 <= k < e ==> IsSpace(s[k])
    ensures NonSpace(s) == NonSpace(s[e..])
    decreases e
  {
    if e > 0 {
      assert s[1..][e - 1..] == s[e..];
      NonSpaceSkipsSpaces(s[1..], e - 1);
    }
  }

  /** `re.sub(r"\s+", " ", s)`: every maximal whitespace run becomes one blank. */
  function Collapse(s: string): (r: string)
    ensures Collapsed(r)
    ensures |s| > 0 ==> |r| > 0 && (IsSpace(s[0]) <==> IsSpace(r[0]))
    ensures NonSpace(r) == NonSpace(s)
    decreases |s|
  {
    if |s| == 0 then ""
    else if IsSpace(s[0]) then
      var e := SpaceRunEnd(s, 0);
      var rest := Collapse(s[e..]);
      NonSpaceConcat(" ", rest);
      NonSpaceSkipsSpaces(s, e);
      " " + rest
    else
      var rest := Collapse(s[1..]);
      NonSpaceConcat([s[0]], rest);
      [s[0]] + rest
  }

  /** `str.lstrip()`. */
  function TrimLeft(s: string): (r: string)
    ensures |r| <= |s| && r == s[|s| - |r|..]
    ensures |r| > 0 ==> !IsSpace(r[0])
    ensures forall k :: 0 <= k < |s| - |r| ==> IsSpace(s[k])
    decreases |s|
  {
    if |s| > 0 && IsSpace(s[0]) then TrimLeft(s[1..]) else s
  }

  /** `str.rstrip()`. */
  function TrimRight(s: string): (r: string)
    ensures |r| <= |s| && r == s[..|r|]
    ensures |r| > 0 ==> !IsSpace(r[|r| - 1])
    ensures forall k :: |r| <= k < |s| ==> IsSpace(s[k])
    decreases |s|
  {
    if |s| > 0 && IsSpace(s[|s| - 1]) then TrimRight(s[..|s| - 1]) else s
  }

  lemma {:induction false} CollapsedInfix(s: string, i: nat, j: nat)
    requires Collapsed(s) && i <= j <= |s|
    ensures Collapsed(s[i..j])
  {
    var t := s[i..j];
    forall k | 0 < k < |t| && IsSpace(t[k]) ensures !IsSpace(t[k - 1]) {
      assert t[k] == s[i + k] && t[k - 1] == s[i + k - 1];
    }
  }

  /** Removing whitespace at either end never removes a visible character. */
  lemma {:induction false} NonSpaceOfTrim(s: string)
    ensures NonSpace(TrimLeft(TrimRight(s))) == NonSpace(s)
  {
    NonSpaceOfTrimRight(s);
    NonSpaceOfTrimLeft(TrimRight(s));
  }

  lemma {:induction false} NonSpaceOfTrimRight(s: string)
    ensures NonSpace(TrimRight(s)) == NonSpace(s)
  {
    var m := TrimRight(s);
    var t := s[|m|..];
    assert s == m + t;
    NonSpaceConcat(m, t);
    NonSpaceAllSpaces(t);
  }

  lemma {:induction false} NonSpaceOfTrimLeft(s: string)
    ensures NonSpace(TrimLeft(s)) == NonSpace(s)
  {
    var r := TrimLeft(s);
    NonSpaceSkipsSpaces(s, |s| - |r|);
  }

  /** A string of whitespace only has no visible character. */
  lemma {:induction false} NonSpaceAllSpaces(t: string)
    requires forall k :: 0 <= k < |t| ==> IsSpace(t[k])
    ensures NonSpace(t) == ""
  {
    NonSpaceSkipsSpaces(t, |t|);
    assert t[|t|..] == "";
  }

  /**
   * `normalize_whitespace`: the result has no whitespace at either end, only
   * single blanks inside, and the same visible characters in the same order.
   */
  function NormalizeWhitespace(s: string): (r: string)
    ensures NoEdgeSpace(r)
    ensures Collapsed(r)
    ensures NonSpace(r) == NonSpace(s)
  {
    var c := Collapse(s);
    var m := TrimRight(c);
    var r := TrimLeft(m);
    CollapsedInfix(c, 0, |m|);
    CollapsedInfix(m, |m| - |r|, |m|);
    NonSpaceOfTrim(c);
    r
  }

  /** A string that is already collapsed is its own collapse. */
  lemma {:induction false} CollapseOfCollapsed(s: string)
    requires Collapsed(s)
    ensures Collapse(s) == s
    decreases |s|
  {
    if |s| > 0 {
      CollapsedInfix(s, 1, |s|);
      if IsSpace(s[0]) {
        assert SpaceRunEnd(s, 0) == 1 by {
          assert |s| > 1 ==> !IsSpace(s[1]);
        }
        CollapseOfCollapsed(s[1..]);
        assert s == " " + s[1..];
      } else {
        CollapseOfCollapsed(s[1..]);
        assert s == [s[0]] + s[1..];
      }
    }
  }

  /** Normalising twice is the same as normalising once. */
  lemma {:induction false} NormalizeWhitespaceIdempotent(s: string)
    ensures NormalizeWhitespace(NormalizeWhitespace(s)) == NormalizeWhitespace(s)
  {
    var r := NormalizeWhitespace(s);
    CollapseOfCollapsed(r);
  }

  /* ---------------------------------------------------------------------- */
  /* parse_size_bytes                                                        */
  /* ---------------------------------------------------------------------- */

  /** Power of 1024 of a size unit letter, matched case-insensitively: K, M, G, T. */
  function UnitPower(c: char): (r: Option<nat>)
    ensures r.Some? ==> 1 <= r.value <= 4
  {
    match LowerChar(c)
    case 'k' => Some(1)
    case 'm' => Some(2)
    case 'g' => Some(3)
    case 't' => Some(4)
    case _ => None
  }

  /** `(\d+(?:\.\d+)?)\s*(KB|MB|GB|TB)\b` (case-insensitive) at position i, as a byte count. */
  function SizeAt(s: string, i: nat): Option<nat>
  {
    match NumberAt(s, i)
    case None => None
    case Some(n) => UnitSizeAt(s, n.value, SpaceRunEnd(s, n.end))
  }

  /** The byte count of value v when a unit `KB`..`TB` followed by a word boundary starts at j. */
  function UnitSizeAt(s: string, v: real, j: nat): Option<nat>
    requires 0.0 <= v
  {
    if j + 2 <= |s| && UnitPower(s[j]).Some? && CharIs(s[j + 1], 'b') && BoundaryAt(s, j + 2)
    then Some(Scale(v, Pow(1024, UnitPower(s[j]).value)))
    else None
  }

  /**
   * `parse_size_bytes`: the first size in the text, with binary units, the
   * product truncated to an integer; an error when the text holds none.
   */
  function ParseSizeBytes(text: string): (r: Result<nat>)
    ensures r.Err? <==> forall i :: 0 <= i <= |text| ==> SizeAt(text, i).None?
    ensures r.Err? ==> r.error == "Could not parse size from: " + text
    ensures r.Ok? ==>
      exists p :: 0 <= p <= |text| && SizeAt(text, p) == Some(r.value)
        && forall q :: 0 <= q < p ==> SizeAt(text, q).None?
  {
    FirstMatchLeftmost(text, 0, SizeAt);
    match FirstMatch(text, 0, SizeAt)
    case Some(n) => Ok(n)
    case None => Err("Could not parse size from: " + text)
  }

  /** A digit string followed by neither a digit nor a '.' is read as exactly that whole number. */
  lemma {:induction false} NumberOfDigits(d: string, rest: string)
    requires |d| > 0 && AllDigits(d)
    requires |rest| == 0 || (!IsDigit(rest[0]) && rest[0] != '.')
    ensures NumberAt(d + rest, 0) == Some(Number(DigitsValue(d) as real, |d|))
  {
    var s := d + rest;
    DigitRunOfPrefix(d, rest);
    assert s[0..|d|] == d;
    assert |d| < |s| ==> s[|d|] == rest[0];
  }

  /** A whole number followed by a unit, in any letter case, parses to that number of KiB, MiB, GiB or TiB. */
  lemma {:induction false} SizeOfWholeNumber(n: nat, sep: string, unit: string)
    requires sep == "" || sep == " "
    requires |unit| == 2 && UnitPower(unit[0]).Some? && CharIs(unit[1], 'b')
    ensures ParseSizeBytes(NatToString(n) + sep + unit) == Ok(n * Pow(1024, UnitPower(unit[0]).value))
  {
    var d := NatToString(n);
    var s := d + sep + unit;
    var j := |d| + |sep|;
    var mult := Pow(1024, UnitPower(unit[0]).value);
    assert NumberAt(s, 0) == Some(Number(n as real, |d|)) by {
      var rest := sep + unit;
      assert s == d + rest;
      assert rest[0] == ' ' || rest[0] == unit[0];
      NumberOfDigits(d, rest);
      NatToStringValue(n);
    }
    assert j + 2 == |s| && s[j] == unit[0] && s[j + 1] == unit[1];
    assert SpaceRunEnd(s, |d|) == j by {
      assert !IsSpace(unit[0]);
      if sep == " " {
        assert s[|d|] == ' ';
        assert SpaceRunEnd(s, |d| + 1) == |d| + 1;
      }
    }
    assert BoundaryAt(s, j + 2) by {
      assert IsWordChar(LowerChar(unit[1]));
    }
    assert UnitSizeAt(s, n as real, j) == Some(n * mult) by {
      ScaleWhole(n, mult);
    }
    assert FirstMatch(s, 0, SizeAt) == Some(n * mult) by {
      FirstMatchAt(s, 0, 0, SizeAt);
    }
  }

  /** The size parser ignores letter case: lower-casing the text finds the same size. */
  lemma {:induction false} ParseSizeBytesIgnoresCase(text: string)
    ensures ParseSizeBytes(Lower(text)).ToOption() == ParseSizeBytes(text).ToOption()
  {
    var t := Lower(text);
    forall i | 0 <= i <= |text| ensures SizeAt(text, i) == SizeAt(t, i) {
      SizeAtIgnoresCase(text, i);
    }
    FirstMatchCongruent(text, t, 0, SizeAt);
  }

  lemma {:induction false} DigitRunIgnoresCase(s: string, i: nat)
    requires i <= |s|
    ensures DigitRunEnd(Lower(s), i) == DigitRunEnd(s, i)
    ensures Lower(s)[i..DigitRunEnd(s, i)] == s[i..DigitRunEnd(s, i)]
    decreases |s| - i
  {
    if i < |s| && IsDigit(s[i]) {
      DigitRunIgnoresCase(s, i + 1);
      var e := DigitRunEnd(s, i);
      assert Lower(s)[i..e] == [Lower(s)[i]] + Lower(s)[i + 1..e];
      assert s[i..e] == [s[i]] + s[i + 1..e];
    }
  }

  lemma {:induction false} SpaceRunIgnoresCase(s: string, i: nat)
    requires i <= |s|
    ensures SpaceRunEnd(Lower(s), i) == SpaceRunEnd(s, i)
    decreases |s| - i
  {
    if i < |s| && IsSpace(s[i]) {
      SpaceRunIgnoresCase(s, i + 1);
    }
  }

  lemma {:induction false} NumberAtIgnoresCase(s: string, i: nat)
    ensures NumberAt(Lower(s), i) == NumberAt(s, i)
  {
    var t := Lower(s);
    if i < |s| {
      DigitRunIgnoresCase(s, i);
      var e := DigitRunEnd(s, i);
      if e + 1 < |s| {
        assert (t[e] == '.') == (s[e] == '.');
        DigitRunIgnoresCase(s, e + 1);
      }
    }
  }

  lemma {:induction false} SizeAtIgnoresCase(s: string, i: nat)
    ensures SizeAt(Lower(s), i) == SizeAt(s, i)
  {
    var t := Lower(s);
    NumberAtIgnoresCase(s, i);
    if NumberAt(s, i).Some? {
      var n := NumberAt(s, i).value;
      SpaceRunIgnoresCase(s, n.end);
      UnitSizeIgnoresCase(s, n.value, SpaceRunEnd(s, n.end));
    }
  }

  lemma {:induction false} UnitSizeIgnoresCase(s: string, v: real, j: nat)
    requires 0.0 <= v
    ensures UnitSizeAt(Lower(s), v, j) == UnitSizeAt(s, v, j)
  {
    var t := Lower(s);
    if j + 2 <= |s| {
      LowerCharIdempotent(s[j]);
      LowerCharIdempotent(s[j + 1]);
      assert UnitPower(t[j]) == UnitPower(s[j]);
      assert CharIs(t[j + 1], 'b') == CharIs(s[j + 1], 'b');
      assert BoundaryAt(t, j + 2) == BoundaryAt(s, j + 2);
    }
  }

  /* ---------------------------------------------------------------------- */
  /* parse_human_number                                                      */
  /* ---------------------------------------------------------------------- */

  /** Decimal multiplier of a case-sensitive K, M or B suffix. */
  function SuffixMult(c: char): Option<nat> {
    match c
    case 'K' => Some(1000)
    case 'M' => Some(1000000)
    case 'B' => Some(1000000000)
    case _ => None
  }

  /** `(\d+(?:\.\d+)?)([KMB])\b` at position i, scaled by the suffix and truncated. */
  function HumanSuffixAt(s: string, i: nat): Option<nat>
  {
    match NumberAt(s, i)
    case None => None
    case Some(n) =>
      if n.end < |s| && SuffixMult(s[n.end]).Some? && BoundaryAt(s, n.end + 1)
      then Some(Scale(n.value, SuffixMult(s[n.end]).value))
      else None
  }

  predicate IsDigitOrComma(c: char) { IsDigit(c) || c == ',' }

  function DigitCommaRunEnd(s: string, i: nat): (e: nat)
    ensures i <= e && (i <= |s| ==> e <= |s|)
    ensures forall k :: i <= k < e ==> k < |s| && IsDigitOrComma(s[k])
    decreases |s| - i
  {
    if i < |s| && IsDigitOrComma(s[i]) then DigitCommaRunEnd(s, i + 1) else i
  }

  /** The largest k with lo <= k <= hi at which `\b` holds: where the backtracking `[\d,]*\b` stops. */
  function LastBoundary(s: string, lo: nat, hi: nat): (r: Option<nat>)
    requires lo <= hi
    ensures r.Some? ==> lo <= r.value <= hi && BoundaryAt(s, r.value)
    ensures r.Some? ==> forall k :: r.value < k <= hi ==> !BoundaryAt(s, k)
    ensures r.None? ==> forall k :: lo <= k <= hi ==> !BoundaryAt(s, k)
    decreases hi - lo
  {
    if BoundaryAt(s, hi) then Some(hi)
    else if hi == lo then None
    else LastBoundary(s, lo, hi - 1)
  }

  function RemoveCommas(s: string): (r: string)
    ensures forall k :: 0 <= k < |r| ==> r[k] != ','
  {
    if |s| == 0 then "" else (if s[0] == ',' then "" else [s[0]]) + RemoveCommas(s[1..])
  }

  /** `\b(\d[\d,]*)\b` at position i, with the commas dropped before `int()`. */
  function PlainNumberAt(s: string, i: nat): Option<nat>
  {
    if !(i < |s| && IsDigit(s[i]) && BoundaryAt(s, i)) then None
    else
      var e := DigitCommaRunEnd(s, i + 1);
      match LastBoundary(s, i + 1, e)
      case None => None
      case Some(k) => Some(DigitsValue(RemoveCommas(s[i..k])))
  }

  predicate HasDigit(s: string) { exists i :: 0 <= i < |s| && IsDigit(s[i]) }

  /**
   * `parse_human_number`: a number with a K/M/B suffix if there is one
   * anywhere, otherwise the first comma-grouped digit run, otherwise None.
   */
  function ParseHumanNumber(s: string): (r: Option<nat>)
    ensures !HasDigit(s) ==> r.None?
    ensures (exists i :: 0 <= i <= |s| && HumanSuffixAt(s, i).Some?) ==>
      exists p :: 0 <= p <= |s| && HumanSuffixAt(s, p) == r && forall q :: 0 <= q < p ==> HumanSuffixAt(s, q).None?
    ensures (forall i :: 0 <= i <= |s| ==> HumanSuffixAt(s, i).None?) && r.Some? ==>
      exists p :: 0 <= p <= |s| && PlainNumberAt(s, p) == r && forall q :: 0 <= q < p ==> PlainNumberAt(s, q).None?
    ensures r.None? <==>
      (forall i :: 0 <= i <= |s| ==> HumanSuffixAt(s, i).None?) && (forall i :: 0 <= i <= |s| ==> PlainNumberAt(s, i).None?)
  {
    FirstMatchLeftmost(s, 0, HumanSuffixAt);
    FirstMatchLeftmost(s, 0, PlainNumberAt);
    match FirstMatch(s, 0, HumanSuffixAt)
    case Some(v) => Some(v)
    case None => FirstMatch(s, 0, PlainNumberAt)
  }

  /** Without a K, M or B anywhere, the suffixed reading never applies. */
  lemma {:induction false} NoSuffixLetter(s: string)
    requires forall k :: 0 <= k < |s| ==> SuffixMult(s[k]).None?
    ensures FirstMatch(s, 0, HumanSuffixAt).None?
  {
    forall i | 0 <= i <= |s| ensures HumanSuffixAt(s, i).None? {
    }
    FirstMatchLeftmost(s, 0, HumanSuffixAt);
  }

  /** A number written out in digits reads back as itself. */
  lemma {:induction false} HumanNumberOfWhole(n: nat)
    ensures ParseHumanNumber(NatToString(n)) == Some(n)
  {
    var s := NatToString(n);
    NoSuffixLetter(s);
    assert PlainNumberAt(s, 0) == Some(n) by {
      NatToStringValue(n);
      DigitCommaRunAllDigits(s, 1);
      assert BoundaryAt(s, |s|);
      RemoveCommasOfDigits(s);
      assert s[0..|s|] == s;
    }
    assert FirstMatch(s, 0, PlainNumberAt) == Some(n) by {
      FirstMatchAt(s, 0, 0, PlainNumberAt);
    }
  }

  /** A K, M or B suffix scales a whole number by 10^3, 10^6 or 10^9. */
  lemma {:induction false} HumanNumberOfSuffixed(n: nat, suffix: char)
    requires SuffixMult(suffix).Some?
    ensures ParseHumanNumber(NatToString(n) + [suffix]) == Some(n * SuffixMult(suffix).value)
  {
    var d := NatToString(n);
    var s := d + [suffix];
    var mult := SuffixMult(suffix).value;
    assert HumanSuffixAt(s, 0) == Some(n * mult) by {
      NumberOfDigits(d, [suffix]);
      NatToStringValue(n);
      assert s[|d|] == suffix;
      assert BoundaryAt(s, |d| + 1);
      ScaleWhole(n, mult);
    }
    assert FirstMatch(s, 0, HumanSuffixAt) == Some(n * mult) by {
      FirstMatchAt(s, 0, 0, HumanSuffixAt);
    }
  }

  lemma {:induction false} DigitCommaRunAllDigits(s: string, i: nat)
    requires AllDigits(s) && i <= |s|
    ensures DigitCommaRunEnd(s, i) == |s|
    decreases |s| - i
  {
    if i < |s| {
      DigitCommaRunAllDigits(s, i + 1);
    }
  }

  lemma {:induction false} RemoveCommasOfDigits(s: string)
    requires AllDigits(s)
    ensures RemoveCommas(s) == s
  {
    if |s| > 0 {
      RemoveCommasOfDigits(s[1..]);
    }
  }

  lemma {:induction false} DigitsValueConcat(a: string, b: string)
    ensures DigitsValue(a + b) == DigitsValue(a) * Pow(10, |b|) + DigitsValue(b)
    decreases |b|
  {
    if |b| == 0 {
      assert a + b == a;
    } else {
      var ab := a + b;
      assert ab[..|ab| - 1] == a + b[..|b| - 1];
      DigitsValueConcat(a, b[..|b| - 1]);
    }
  }

  lemma {:induction false} RemoveCommasConcat(a: string, b: string)
    ensures RemoveCommas(a + b) == RemoveCommas(a) + RemoveCommas(b)
    decreases |a|
  {
    if |a| == 0 {
      assert a + b == b;
    } else {
      assert (a + b)[1..] == a[1..] + b;
      RemoveCommasConcat(a[1..], b);
    }
  }

  /** Thousands separators are dropped: a number written as "n,ddd" reads as n * 1000 + ddd. */
  lemma {:induction false} HumanNumberWithGrouping(n: nat, group: string)
    requires |group| == 3 && AllDigits(group)
    ensures ParseHumanNumber(NatToString(n) + "," + group) == Some(n * 1000 + DigitsValue(group))
  {
    var d := NatToString(n);
    var s := d + "," + group;
    assert forall k :: 0 <= k < |s| ==> IsDigitOrComma(s[k]) by {
      forall k | 0 <= k < |s| ensures IsDigitOrComma(s[k]) {
        if k < |d| { assert s[k] == d[k]; }
        else if k > |d| { assert s[k] == group[k - |d| - 1]; }
      }
    }
    NoSuffixLetter(s);
    GroupedPlainNumber(n, group);
    assert FirstMatch(s, 0, PlainNumberAt) == Some(n * 1000 + DigitsValue(group)) by {
      FirstMatchAt(s, 0, 0, PlainNumberAt);
    }
  }

  lemma {:induction false} GroupedPlainNumber(n: nat, group: string)
    requires |group| == 3 && AllDigits(group)
    ensures PlainNumberAt(NatToString(n) + "," + group, 0) == Some(n * 1000 + DigitsValue(group))
  {
    var d := NatToString(n);
    var s := d + "," + group;
    assert DigitCommaRunEnd(s, 1) == |s| by {
      forall k | 0 <= k < |s| ensures IsDigitOrComma(s[k]) {
        if k < |d| { assert s[k] == d[k]; }
        else if k > |d| { assert s[k] == group[k - |d| - 1]; }
      }
      DigitCommaRunToEnd(s, 1);
    }
    assert BoundaryAt(s, |s|) by {
      assert s[|s| - 1] == group[2];
    }
    assert RemoveCommas(s) == d + group by {
      RemoveCommasConcat(d + ",", group);
      RemoveCommasConcat(d, ",");
      RemoveCommasOfDigits(d);
      RemoveCommasOfDigits(group);
    }
    assert DigitsValue(d + group) == n * 1000 + DigitsValue(group) by {
      DigitsValueConcat(d, group);
      NatToStringValue(n);
    }
    assert s[0..|s|] == s;
    assert s[0] == d[0];
  }

  lemma {:induction false} DigitCommaRunToEnd(s: string, i: nat)
    requires i <= |s|
    requires forall k :: 0 <= k < |s| ==> IsDigitOrComma(s[k])
    ensures DigitCommaRunEnd(s, i) == |s|
    decreases |s| - i
  {
    if i < |s| {
      DigitCommaRunToEnd(s, i + 1);
    }
  }

  /* ---------------------------------------------------------------------- */
  /* parse_context_tokens                                                    */
  /* ---------------------------------------------------------------------- */

  /** Binary multiplier of a case-sensitive context suffix; B means "as is". */
  function ContextMult(c: char): Option<nat> {
    match c
    case 'K' => Some(1024)
    case 'M' => Some(1024 * 1024)
    case 'B' => Some(1)
    case _ => None
  }

  /** `([KMB])?\b` after the number n: the optional suffix is tried first. */
  function ContextTail(s: string, n: Number): Option<nat>
    requires 0.0 <= n.value
  {
    if n.end < |s| && ContextMult(s[n.end]).Some? && BoundaryAt(s, n.end + 1)
    then Some(Scale(n.value, ContextMult(s[n.end]).value))
    else if BoundaryAt(s, n.end) then Some(Scale(n.value, 1))
    else None
  }

  /**
   * `\b(\d+(?:\.\d+)?)([KMB])?\b` at position i. Unlike the other number
   * patterns, the fraction-less reading can succeed where the fraction
   * fails, because `\b` holds between a digit and a '.'.
   */
  function ContextAt(s: string, i: nat): Option<nat>
  {
    if !(i < |s| && IsDigit(s[i]) && BoundaryAt(s, i)) then None
    else
      var n := NumberAt(s, i).value;
      match ContextTail(s, n)
      case Some(v) => Some(v)
      case None => ContextTail(s, IntegerAt(s, i).value)
  }

  /** `parse_context_tokens`: the first number with its optional K/M/B suffix, or None. */
  function ParseContextTokens(text: string): (r: Option<nat>)
    ensures !HasDigit(text) ==> r.None?
    ensures r.Some? ==>
      exists p :: 0 <= p <= |text| && ContextAt(text, p) == r
        && forall q :: 0 <= q < p ==> ContextAt(text, q).None?
    ensures r.None? <==> forall i :: 0 <= i <= |text| ==> ContextAt(text, i).None?
  {
    FirstMatchLeftmost(text, 0, ContextAt);
    FirstMatch(text, 0, ContextAt)
  }

  /** A whole context length without a suffix reads back as itself. */
  lemma {:induction false} ContextOfWhole(n: nat)
    ensures ParseContextTokens(NatToString(n)) == Some(n)
  {
    var s := NatToString(n);
    assert ContextAt(s, 0) == Some(n) by {
      NumberOfDigits(s, "");
      assert s + "" == s;
      NatToStringValue(n);
      assert BoundaryAt(s, 0) && BoundaryAt(s, |s|);
      ScaleWhole(n, 1);
    }
    assert FirstMatch(s, 0, ContextAt) == Some(n) by {
      FirstMatchAt(s, 0, 0, ContextAt);
    }
  }

  /** A K suffix scales a whole context length by 1024, M by 1024^2 and B by 1. */
  lemma {:induction false} ContextOfSuffixed(n: nat, suffix: char)
    requires ContextMult(suffix).Some?
    ensures ParseContextTokens(NatToString(n) + [suffix]) == Some(n * ContextMult(suffix).value)
  {
    var d := NatToString(n);
    var s := d + [suffix];
    var mult := ContextMult(suffix).value;
    assert ContextAt(s, 0) == Some(n * mult) by {
      NumberOfDigits(d, [suffix]);
      NatToStringValue(n);
      assert s[|d|] == suffix;
      assert BoundaryAt(s, 0) && BoundaryAt(s, |d| + 1);
      ScaleWhole(n, mult);
    }
    assert FirstMatch(s, 0, ContextAt) == Some(n * mult) by {
      FirstMatchAt(s, 0, 0, ContextAt);
    }
  }

  /**
   * A lower-case suffix is not a suffix: in "128k" there is no `\b` after
   * the digits, and none before the later digits, so nothing is read.
   */
  lemma {:induction false} ContextLowerCaseSuffixRejected(n: nat, c: char)
    requires 'a' <= c <= 'z'
    ensures ParseContextTokens(NatToString(n) + [c]) == None
  {
    var d := NatToString(n);
    var s := d + [c];
    NumberOfDigits(d, [c]);
    DigitRunOfPrefix(d, [c]);
    assert s[|d|] == c;
    forall i | 0 <= i <= |s| ensures ContextAt(s, i).None? {
      if 0 < i < |d| {
        assert s[i - 1] == d[i - 1] && s[i] == d[i];
      }
    }
    FirstMatchLeftmost(s, 0, ContextAt);
  }

  /* ---------------------------------------------------------------------- */
  /* extract_age_text                                                        */
  /* ---------------------------------------------------------------------- */

  /** End of the unit word day, week, month or year that starts at j. */
  function AgeUnitEnd(s: string, j: nat): (r: Option<nat>)
    ensures r.Some? ==> j < r.value <= |s|
  {
    if OccursAt(s, "day", j) then Some(j + 3)
    else if OccursAt(s, "week", j) then Some(j + 4)
    else if OccursAt(s, "month", j) then Some(j + 5)
    else if OccursAt(s, "year", j) then Some(j + 4)
    else None
  }

  /** End of `\d+\s+(?:day|week|month|year)s?\s+ago` when it matches at position i. */
  function AgeEndAt(s: string, i: nat): (r: Option<nat>)
    ensures r.Some? ==> i + 4 <= r.value <= |s| && IsDigit(s[i]) && s[r.value - 3..r.value] == "ago"
  {
    match IntegerAt(s, i)
    case None => None
    case Some(n) =>
      var j := SpaceRunEnd(s, n.end);
      if j == n.end then None
      else match AgeUnitEnd(s, j)
        case None => None
        case Some(k) =>
          var k2 := if k < |s| && s[k] == 's' then k + 1 else k;
          var m := SpaceRunEnd(s, k2);
          if m > k2 && OccursAt(s, "ago", m) then Some(m + 3) else None
  }

  function AgeAt(s: string, i: nat): (r: Option<string>)
    ensures r.Some? ==> OccursAt(s, r.value, i)
    ensures r.Some? ==> |r.value| >= 4 && IsDigit(r.value[0]) && r.value[|r.value| - 3..] == "ago"
  {
    match AgeEndAt(s, i)
    case None => None
    case Some(e) => Some(s[i..e])
  }

  /**
   * `extract_age_text`: the leftmost "N unit[s] ago" phrase of the text; it
   * starts with a digit and ends with "ago". None exactly when no position
   * starts such a phrase.
   */
  function ExtractAgeText(text: string): (r: Option<string>)
    ensures r.Some? ==> Contains(text, r.value)
    ensures r.Some? ==> |r.value| >= 4 && IsDigit(r.value[0]) && r.value[|r.value| - 3..] == "ago"
    ensures r.Some? ==> exists p :: 0 <= p <= |text| && AgeAt(text, p) == r && forall q :: 0 <= q < p ==> AgeEndAt(text, q).None?
    ensures r.None? <==> forall i :: 0 <= i <= |text| ==> AgeEndAt(text, i).None?
  {
    AgeSearchFacts(text);
    FirstMatch(text, 0, AgeAt)
  }

  lemma {:induction false} AgeSearchFacts(text: string)
    ensures FirstMatch(text, 0, AgeAt).Some? ==>
      exists i :: 0 <= i <= |text| && AgeAt(text, i) == FirstMatch(text, 0, AgeAt)
                  && forall q :: 0 <= q < i ==> AgeEndAt(text, q).None?
    ensures FirstMatch(text, 0, AgeAt).Some? ==> Contains(text, FirstMatch(text, 0, AgeAt).value)
    ensures FirstMatch(text, 0, AgeAt).None? <==> forall i :: 0 <= i <= |text| ==> AgeEndAt(text, i).None?
  {
    FirstMatchLeftmost(text, 0, AgeAt);
    forall i | 0 <= i <= |text| ensures AgeAt(text, i).None? <==> AgeEndAt(text, i).None? { }
    var r := FirstMatch(text, 0, AgeAt);
    if r.Some? {
      var p :| 0 <= p <= |text| && AgeAt(text, p) == r && forall q :: 0 <= q < p ==> AgeAt(text, q).None?;
      assert OccursAt(text, r.value, p);
    }
  }

  lemma {:induction false} FirstLetterDecides(s: string, j: nat, w: string)
    requires |w| > 0
    ensures OccursAt(s, w, j) ==> s[j] == w[0]
  {
    if OccursAt(s, w, j) {
      assert s[j..j + |w|][0] == s[j];
    }
  }

  function Phrase(n: nat, unit: string, plural: string): string {
    NatToString(n) + " " + unit + plural + " ago"
  }

  /** The phrase "N unit[s] ago" written after a prefix. */
  function PhraseAfter(pre: string, n: nat, unit: string, plural: string): string {
    pre + NatToString(n) + " " + unit + plural + " ago"
  }

  lemma {:induction false} PhraseHead(pre: string, n: nat, unit: string, plural: string, e: nat)
    requires unit in ["day", "week", "month", "year"] && plural in ["", "s"]
    requires e == |pre| + |NatToString(n)|
    ensures IntegerAt(PhraseAfter(pre, n, unit, plural), |pre|).Some?
    ensures IntegerAt(PhraseAfter(pre, n, unit, plural), |pre|).value.end == e
    ensures SpaceRunEnd(PhraseAfter(pre, n, unit, plural), e) == e + 1
  {
    var d := NatToString(n);
    var s := PhraseAfter(pre, n, unit, plural);
    var post := " " + unit + plural + " ago";
    assert s == pre + d + post;
    IntegerAtLayout(s, |pre|, pre, d, post);
    assert s[e] == ' ' && s[e + 1] == unit[0];
    assert SpaceRunEnd(s, e + 1) == e + 1;
  }

  /** A unit word that occurs at j is the unit the alternation takes there. */
  lemma {:induction false} UnitEndAt(s: string, j: nat, unit: string)
    requires unit in ["day", "week", "month", "year"] && OccursAt(s, unit, j)
    ensures AgeUnitEnd(s, j) == Some(j + |unit|)
  {
    FirstLetterDecides(s, j, unit);
    FirstLetterDecides(s, j, "day");
    FirstLetterDecides(s, j, "week");
    FirstLetterDecides(s, j, "month");
  }

  lemma {:induction false} PhraseUnit(pre: string, n: nat, unit: string, plural: string, j: nat, k: nat, k2: nat)
    requires unit in ["day", "week", "month", "year"] && plural in ["", "s"]
    requires j == |pre| + |NatToString(n)| + 1 && k == j + |unit| && k2 == k + |plural|
    ensures var s := PhraseAfter(pre, n, unit, plural);
            AgeUnitEnd(s, j) == Some(k) && (if k < |s| && s[k] == 's' then k + 1 else k) == k2
  {
    var d := NatToString(n);
    var s := PhraseAfter(pre, n, unit, plural);
    var a := pre + d + " " + unit;
    OccursAtEnd(pre + d + " ", unit);
    OccursInPrefix(a, plural, unit, j);
    OccursInPrefix(a + plural, " ago", unit, j);
    UnitEndAt(s, j, unit);
    assert s[|a|] == (if plural == "s" then 's' else ' ');
  }

  /** The phrase ends in one space and "ago" after the optional plural 's'. */
  lemma {:induction false} PhraseTail(pre: string, n: nat, unit: string, plural: string, k2: nat)
    requires k2 == |pre| + |NatToString(n)| + 1 + |unit| + |plural|
    ensures var s := PhraseAfter(pre, n, unit, plural);
            SpaceRunEnd(s, k2) == k2 + 1 && OccursAt(s, "ago", k2 + 1) && |s| == k2 + 4
  {
    TailAgo(pre + NatToString(n) + " " + unit + plural);
  }

  /** The tail " ago" after pre: one space, then "ago", then the end. */
  lemma {:induction false} TailAgo(pre: string)
    ensures var s := pre + " ago";
            SpaceRunEnd(s, |pre|) == |pre| + 1 && OccursAt(s, "ago", |pre| + 1) && |pre| + 4 == |s|
  {
    var s := pre + " ago";
    var k := |pre|;
    assert s[k] == ' ' && s[k + 1] == 'a';
    assert SpaceRunEnd(s, k + 1) == k + 1;
    assert s[k + 1..k + 4] == "ago";
  }

  /** A phrase "N unit[s] ago" written out on its own is extracted whole. */
  lemma {:induction false} AgeOfPhrase(n: nat, unit: string, plural: string)
    requires unit in ["day", "week", "month", "year"] && plural in ["", "s"]
    ensures ExtractAgeText(NatToString(n) + " " + unit + plural + " ago")
         == Some(NatToString(n) + " " + unit + plural + " ago")
  {
    AgeEndOfPhrase("", n, unit, plural);
    WholeAgeMatch(PhraseAfter("", n, unit, plural));
    PhraseAfterNothing(n, unit, plural);
  }

  lemma {:induction false} PhraseAfterNothing(n: nat, unit: string, plural: string)
    ensures PhraseAfter("", n, unit, plural) == NatToString(n) + " " + unit + plural + " ago"
  {
    assert "" + NatToString(n) == NatToString(n);
  }

  /** After any prefix, the age match at the start of the phrase runs to the end of the text. */
  lemma {:induction false} AgeEndOfPhrase(pre: string, n: nat, unit: string, plural: string)
    requires unit in ["day", "week", "month", "year"] && plural in ["", "s"]
    ensures AgeEndAt(PhraseAfter(pre, n, unit, plural), |pre|) == Some(|PhraseAfter(pre, n, unit, plural)|)
  {
    var s := PhraseAfter(pre, n, unit, plural);
    var e := |pre| + |NatToString(n)|;
    var j := e + 1;
    var k := j + |unit|;
    var k2 := k + |plural|;
    PhraseHead(pre, n, unit, plural, e);
    PhraseUnit(pre, n, unit, plural, j, k, k2);
    PhraseTail(pre, n, unit, plural, k2);
    AgeEndFromParts(s, |pre|, e, j, k, k2);
  }

  /** A text that is one age phrase from its first to its last character is extracted whole. */
  lemma {:induction false} WholeAgeMatch(s: string)
    requires AgeEndAt(s, 0) == Some(|s|)
    ensures ExtractAgeText(s) == Some(s)
  {
    assert s[0..|s|] == s;
    FirstMatchAt(s, 0, 0, AgeAt);
  }

  lemma {:induction false} AgeEndFromParts(s: string, i: nat, e: nat, j: nat, k: nat, k2: nat)
    requires IntegerAt(s, i).Some? && IntegerAt(s, i).value.end == e
    requires SpaceRunEnd(s, e) == j && j > e
    requires AgeUnitEnd(s, j) == Some(k)
    requires (if k < |s| && s[k] == 's' then k + 1 else k) == k2
    requires SpaceRunEnd(s, k2) == k2 + 1 && OccursAt(s, "ago", k2 + 1)
    ensures AgeEndAt(s, i) == Some(k2 + 4)
  {
  }
}

=== FILE: parse.dfy ===
/**
 * The page extractor over an abstract document. An HTML page is reduced to
 * what the extractor reads from it: the `<meta>` elements, the page text
 * (`get_text(" ")`) and the `<a>` elements with an `href`, each with its
 * own text, in document order.
 */
module Parse {
  import opened Wrappers
  import opened Text
  import opened Normalize
  import opened Records
  import opened Dedup

  datatype Anchor = Anchor(href: string, text: string)

  /** A `<meta>` element: its `name`, `property` and `content` attributes, when present. */
  datatype MetaTag = MetaTag(name: Option<string>, property: Option<string>, content: Option<string>)

  datatype Page = Page(metas: seq<MetaTag>, text: string, anchors: seq<Anchor>)

  const LibraryPrefix: string := "/library/"

  /** The separator the variant anchors show between their facts, as written in the extractor. */
  const Separator: string := "\U{E2}\U{20AC}\U{A2}"

  function Id(s: string): string { s }

  predicate NoDuplicates(xs: seq<string>) {
    forall i, j :: 0 <= i < j < |xs| ==> xs[i] != xs[j]
  }

  lemma {:induction false} KeysOfId(xs: seq<string>)
    ensures Keys(xs, Id) == xs
  {
  }

  /** What follows "/library/" in an href, when the href starts with it. */
  function LibraryRest(href: string): (r: Option<string>)
    ensures r.Some? <==> StartsWith(href, LibraryPrefix)
    ensures r.Some? ==> href == LibraryPrefix + r.value
  {
    if StartsWith(href, LibraryPrefix) then Some(href[|LibraryPrefix|..]) else None
  }

  /** Python's `str.strip()`. */
  function Strip(s: string): string { TrimLeft(TrimRight(s)) }

  /* ---------------------------------------------------------------------- */
  /* parse_library_slugs                                                     */
  /* ---------------------------------------------------------------------- */

  /**
   * The slug an href of the library listing names: the rest after
   * "/library/" when it is non-empty and holds no '/' and no ':', stripped
   * of surrounding whitespace, and only when something remains.
   */
  function SlugOfHref(href: string): (r: Option<string>)
    ensures r.Some? ==> StartsWith(href, LibraryPrefix)
    ensures r.Some? ==> r.value != "" && !ContainsChar(r.value, '/') && !ContainsChar(r.value, ':')
  {
    match LibraryRest(href)
    case None => None
    case Some(rest) =>
      if rest == "" || ContainsChar(rest, '/') || ContainsChar(rest, ':') then None
      else
        var slug := Strip(rest);
        StripInfix(rest);
        if slug == "" then None else Some(slug)
  }

  /** The stripped string is a piece of the original. */
  lemma {:induction false} StripInfix(s: string)
    ensures exists i :: 0 <= i <= |s| && OccursAt(s, Strip(s), i)
  {
    var m := TrimRight(s);
    var r := TrimLeft(m);
    var i := |m| - |r|;
    assert s[i..i + |r|] == m[i..] == r;
    assert OccursAt(s, Strip(s), i);
  }

  lemma {:induction false} StripOfStripped(s: string)
    requires |s| > 0 && !IsSpace(s[0]) && !IsSpace(s[|s| - 1])
    ensures Strip(s) == s
  {
  }

  /** The href of a family's page gives back its slug; a tag's page or a sub-page gives none. */
  lemma {:induction false} SlugOfFamilyHref(slug: string, tail: string)
    requires slug != "" && !ContainsChar(slug, '/') && !ContainsChar(slug, ':')
    requires !IsSpace(slug[0]) && !IsSpace(slug[|slug| - 1])
    ensures SlugOfHref(LibraryPrefix + slug) == Some(slug)
    ensures SlugOfHref(LibraryPrefix + slug + ":" + tail).None?
    ensures SlugOfHref(LibraryPrefix + slug + "/" + tail).None?
  {
    StripOfStripped(slug);
    assert LibraryRest(LibraryPrefix + slug) == Some(slug);
    var t1 := slug + ":" + tail;
    var t2 := slug + "/" + tail;
    assert LibraryPrefix + slug + ":" + tail == LibraryPrefix + t1;
    assert LibraryPrefix + slug + "/" + tail == LibraryPrefix + t2;
    assert LibraryRest(LibraryPrefix + t1) == Some(t1);
    assert LibraryRest(LibraryPrefix + t2) == Some(t2);
    assert t1[|slug|] == ':';
    assert t2[|slug|] == '/';
  }

  function AnchorSlug(a: Anchor): Option<string> { SlugOfHref(a.href) }

  /**
   * `parse_library_slugs`: every slug the anchors name, once, in the order
   * of first appearance.
   */
  method ParseLibrarySlugs(anchors: seq<Anchor>) returns (slugs: seq<string>)
    ensures slugs == FirstByKey(FilterMap(anchors, AnchorSlug), Id)
    ensures NoDuplicates(slugs)
    ensures forall s :: s in slugs <==> exists i :: 0 <= i < |anchors| && SlugOfHref(anchors[i].href) == Some(s)
  {
    slugs := CollectFirst(anchors, AnchorSlug, Id);
    SlugsFacts(anchors, slugs);
  }

  lemma {:induction false} SlugsFacts(anchors: seq<Anchor>, slugs: seq<string>)
    requires slugs == FirstByKey(FilterMap(anchors, AnchorSlug), Id)
    ensures NoDuplicates(slugs)
    ensures forall s :: s in slugs <==> exists i :: 0 <= i < |anchors| && SlugOfHref(anchors[i].href) == Some(s)
  {
    var cands := FilterMap(anchors, AnchorSlug);
    FirstByKeyDistinct(cands, Id);
    KeysOfId(slugs);
    KeysOfId(cands);
    forall s ensures s in slugs <==> exists i :: 0 <= i < |anchors| && SlugOfHref(anchors[i].href) == Some(s) {
      FirstByKeyKeys(cands, Id, s);
      if s in cands {
        FilterMapFrom(anchors, AnchorSlug, s);
      }
      if exists i :: 0 <= i < |anchors| && SlugOfHref(anchors[i].href) == Some(s) {
        var i :| 0 <= i < |anchors| && SlugOfHref(anchors[i].href) == Some(s);
        FilterMapTo(anchors, AnchorSlug, i);
      }
    }
  }

  /* ---------------------------------------------------------------------- */
  /* Family facts                                                            */
  /* ---------------------------------------------------------------------- */

  /** The first `<meta>` whose `name` (byName) or `property` attribute is key, as `soup.find` returns it. */
  function FindMeta(metas: seq<MetaTag>, key: string, byName: bool): (r: Option<MetaTag>)
    ensures r.Some? ==> r.value in metas && (if byName then r.value.name else r.value.property) == Some(key)
    ensures r.None? ==> forall m :: m in metas ==> (if byName then m.name else m.property) != Some(key)
  {
    if |metas| == 0 then None
    else if (if byName then metas[0].name else metas[0].property) == Some(key) then Some(metas[0])
    else FindMeta(metas[1..], key, byName)
  }

  /** A found element's non-empty `content`. */
  function ContentOf(m: Option<MetaTag>): Option<string> {
    if m.Some? && m.value.content.Some? && m.value.content.value != "" then m.value.content else None
  }

  /**
   * `_meta`: the content of the first `<meta name=key>` if it has a
   * non-empty one, else that of the first `<meta property=key>`.
   */
  function MetaContent(metas: seq<MetaTag>, key: string): (r: Option<string>)
    ensures r.Some? ==> r.value != ""
    ensures r.Some? ==> exists m :: m in metas && m.content == r && (m.name == Some(key) || m.property == Some(key))
  {
    var byName := ContentOf(FindMeta(metas, key, true));
    if byName.Some? then byName else ContentOf(FindMeta(metas, key, false))
  }

  /** The `name` attribute wins: a property of the same key is read only when the named element has no content. */
  lemma {:induction false} MetaNameFirst(metas: seq<MetaTag>, key: string, c: string)
    requires ContentOf(FindMeta(metas, key, true)) == Some(c)
    ensures MetaContent(metas, key) == Some(c)
  {
  }

  /** When the first `name=key` element is absent or has no content, the first `property=key` element decides. */
  lemma {:induction false} MetaByProperty(metas: seq<MetaTag>, key: string)
    requires ContentOf(FindMeta(metas, key, true)).None?
    ensures MetaContent(metas, key) == ContentOf(FindMeta(metas, key, false))
  {
  }

  /** A named element with empty content does not hide the property element after it. */
  lemma {:induction false} EmptyNameFallsBack(key: string, x: string)
    requires x != ""
    ensures MetaContent([MetaTag(Some(key), None, Some("")), MetaTag(None, Some(key), Some(x))], key) == Some(x)
  {
    var metas := [MetaTag(Some(key), None, Some("")), MetaTag(None, Some(key), Some(x))];
    assert FindMeta(metas[1..], key, true) == None;
    assert FindMeta(metas[1..], key, false) == Some(metas[1]);
  }

  /** `display_name`: the og:title content, or the slug when there is none. */
  function DisplayName(metas: seq<MetaTag>, slug: string): (r: string)
    ensures MetaContent(metas, "og:title").None? ==> r == slug
    ensures MetaContent(metas, "og:title").Some? ==> r != "" && r == MetaContent(metas, "og:title").value
  {
    MetaContent(metas, "og:title").GetOr(slug)
  }

  /** `description`: the description meta, or the og:description one. */
  function Description(metas: seq<MetaTag>): (r: Option<string>)
    ensures r.Some? ==> r.value != ""
    ensures r.None? <==> MetaContent(metas, "description").None? && MetaContent(metas, "og:description").None?
  {
    var d := MetaContent(metas, "description");
    if d.Some? then d else MetaContent(metas, "og:description")
  }

  predicate IsNumberChar(c: char) { IsDigit(c) || c == '.' || c == ',' }

  function NumberCharRunEnd(s: string, i: nat): (e: nat)
    ensures i <= e && (i <= |s| ==> e <= |s|)
    ensures forall k :: i <= k < e ==> k < |s| && IsNumberChar(s[k])
    ensures e < |s| ==> !IsNumberChar(s[e])
    decreases |s| - i
  {
    if i < |s| && IsNumberChar(s[i]) then NumberCharRunEnd(s, i + 1) else i
  }

  /**
   * `([\d.,]+(?:\.\d+)?[KMB]?)\s+Downloads` at position i: the group is the
   * whole run of digits, dots and commas, with a K, M or B after it when
   * the spaces and "Downloads" follow that letter.
   */
  function DownloadsAt(s: string, i: nat): (r: Option<string>)
    ensures r.Some? ==> OccursAt(s, r.value, i) && |r.value| > 0 && IsNumberChar(r.value[0])
    ensures r.Some? ==> exists j :: i + |r.value| < j && OccursAt(s, "Downloads", j)
  {
    if !(i < |s| && IsNumberChar(s[i])) then None
    else
      var e := NumberCharRunEnd(s, i);
      var e2 := if e < |s| && SuffixMult(s[e]).Some? then e + 1 else e;
      var j := SpaceRunEnd(s, e2);
      if j > e2 && OccursAt(s, "Downloads", j) then Some(s[i..e2]) else None
  }

  /** The download count: the human number of the first downloads phrase. */
  function Downloads(pageText: string): (r: Option<nat>)
    ensures (forall i :: 0 <= i <= |pageText| ==> DownloadsAt(pageText, i).None?) ==> r.None?
    ensures (exists i :: 0 <= i <= |pageText| && DownloadsAt(pageText, i).Some?) ==>
      exists p :: 0 <= p <= |pageText| && DownloadsAt(pageText, p).Some?
        && (forall q :: 0 <= q < p ==> DownloadsAt(pageText, q).None?)
        && r == ParseHumanNumber(DownloadsAt(pageText, p).value)
  {
    FirstMatchLeftmost(pageText, 0, DownloadsAt);
    match FirstMatch(pageText, 0, DownloadsAt)
    case None => None
    case Some(g) => ParseHumanNumber(g)
  }

  /** A digit run that stops at a character outside `[\d.,]` is the whole run of number characters. */
  lemma {:induction false} NumberCharRunOfDigits(s: string, i: nat, e: nat)
    requires i <= e < |s|
    requires forall k :: i <= k < e ==> IsDigit(s[k])
    requires !IsNumberChar(s[e])
    ensures NumberCharRunEnd(s, i) == e
    decreases e - i
  {
    if i < e {
      NumberCharRunOfDigits(s, i + 1, e);
    }
  }

  /** "n Downloads" counts n downloads. */
  lemma {:induction false} DownloadsOfWhole(n: nat)
    ensures Downloads(NatToString(n) + " Downloads") == Some(n)
  {
    var d := NatToString(n);
    var s := d + " Downloads";
    assert s[|d|] == ' ' && s[|d| + 1] == 'D';
    assert forall k :: 0 <= k < |d| ==> s[k] == d[k];
    NumberCharRunOfDigits(s, 0, |d|);
    assert SpaceRunEnd(s, |d|) == |d| + 1 by {
      assert SpaceRunEnd(s, |d| + 1) == |d| + 1;
    }
    assert s == (d + " ") + "Downloads";
    OccursAtEnd(d + " ", "Downloads");
    assert s[0..|d|] == d;
    assert DownloadsAt(s, 0) == Some(d);
    FirstMatchAt(s, 0, 0, DownloadsAt);
    HumanNumberOfWhole(n);
  }

  /** "nK Downloads" counts n thousand downloads, and M and B scale by a million and a billion. */
  lemma {:induction false} DownloadsOfSuffixed(n: nat, suffix: char)
    requires SuffixMult(suffix).Some?
    ensures Downloads(NatToString(n) + [suffix] + " Downloads") == Some(n * SuffixMult(suffix).value)
  {
    var d := NatToString(n);
    var s := d + [suffix] + " Downloads";
    assert s[|d|] == suffix && s[|d| + 1] == ' ' && s[|d| + 2] == 'D';
    assert forall k :: 0 <= k < |d| ==> s[k] == d[k];
    NumberCharRunOfDigits(s, 0, |d|);
    assert SpaceRunEnd(s, |d| + 1) == |d| + 2 by {
      assert SpaceRunEnd(s, |d| + 2) == |d| + 2;
    }
    assert s == (d + [suffix] + " ") + "Downloads";
    OccursAtEnd(d + [suffix] + " ", "Downloads");
    assert s[0..|d| + 1] == d + [suffix];
    assert DownloadsAt(s, 0) == Some(d + [suffix]);
    FirstMatchAt(s, 0, 0, DownloadsAt);
    HumanNumberOfSuffixed(n, suffix);
  }

  /** `Updated\s+(<age phrase>)` at position i: the age phrase after "Updated". */
  function UpdatedAt(s: string, i: nat): (r: Option<string>)
    ensures r.Some? ==> |r.value| >= 4 && IsDigit(r.value[0]) && r.value[|r.value| - 3..] == "ago"
    ensures r.Some? ==> OccursAt(s, "Updated", i) && exists j :: i + 7 < j && OccursAt(s, r.value, j)
  {
    if !OccursAt(s, "Updated", i) then None
    else
      var j := SpaceRunEnd(s, i + 7);
      if j == i + 7 then None else AgeAt(s, j)
  }

  /** The age text of the first "Updated" phrase. */
  function UpdatedText(pageText: string): (r: Option<string>)
    ensures r.Some? ==>
      exists p :: 0 <= p <= |pageText| && UpdatedAt(pageText, p) == r
        && forall q :: 0 <= q < p ==> UpdatedAt(pageText, q).None?
    ensures r.None? <==> forall p :: 0 <= p <= |pageText| ==> UpdatedAt(pageText, p).None?
  {
    FirstMatchLeftmost(pageText, 0, UpdatedAt);
    FirstMatch(pageText, 0, UpdatedAt)
  }

  /** "Updated N unit[s] ago" gives back the age phrase. */
  lemma {:induction false} UpdatedOfPhrase(n: nat, unit: string, plural: string)
    requires unit in ["day", "week", "month", "year"] && plural in ["", "s"]
    ensures UpdatedText("Updated " + NatToString(n) + " " + unit + plural + " ago")
         == Some(NatToString(n) + " " + unit + plural + " ago")
  {
    var s := PhraseAfter("Updated ", n, unit, plural);
    UpdatedHead(n, unit, plural);
    UpdatedAge(n, unit, plural);
    assert UpdatedAt(s, 0) == AgeAt(s, 8);
    FirstMatchAt(s, 0, 0, UpdatedAt);
    UpdatedTail(n, unit, plural);
  }

  /** "Updated" then one space start the text, and the age phrase follows them. */
  lemma {:induction false} UpdatedHead(n: nat, unit: string, plural: string)
    ensures var s := PhraseAfter("Updated ", n, unit, plural);
      OccursAt(s, "Updated", 0) && SpaceRunEnd(s, 7) == 8
  {
    var s := PhraseAfter("Updated ", n, unit, plural);
    var d := NatToString(n);
    assert s == "Updated " + (d + " " + unit + plural + " ago");
    assert s[..7] == "Updated";
    assert s[7] == ' ' && s[8] == d[0];
    assert SpaceRunEnd(s, 8) == 8;
  }

  /** The age phrase after "Updated " runs to the end of the text. */
  lemma {:induction false} UpdatedAge(n: nat, unit: string, plural: string)
    requires unit in ["day", "week", "month", "year"] && plural in ["", "s"]
    ensures var s := PhraseAfter("Updated ", n, unit, plural);
      8 <= |s| && AgeAt(s, 8) == Some(s[8..|s|])
  {
    AgeEndOfPhrase("Updated ", n, unit, plural);
    assert |"Updated "| == 8;
  }

  lemma {:induction false} UpdatedTail(n: nat, unit: string, plural: string)
    ensures var s := PhraseAfter("Updated ", n, unit, plural);
      8 <= |s| && s[8..|s|] == NatToString(n) + " " + unit + plural + " ago" &&
      s == "Updated " + NatToString(n) + " " + unit + plural + " ago"
  {
    var d := NatToString(n);
    assert PhraseAfter("Updated ", n, unit, plural) == "Updated " + (d + " " + unit + plural + " ago");
  }

  /* ---------------------------------------------------------------------- */
  /* Labels                                                                  */
  /* ---------------------------------------------------------------------- */

  const CatalogLabels: set<string> := {"tools", "thinking", "vision", "embedding", "cloud", "audio", "image", "multimodal"}

  /** `sorted(CATALOG_LABELS)`. */
  const SortedLabels: seq<string> := ["audio", "cloud", "embedding", "image", "multimodal", "thinking", "tools", "vision"]

  /** Python's string order: the first differing character decides, and a proper prefix comes first. */
  predicate LexLess(a: string, b: string)
    decreases |a|
  {
    |b| > 0 && (|a| == 0 || a[0] < b[0] || (a[0] == b[0] && LexLess(a[1..], b[1..])))
  }

  predicate StrictlyAscending(xs: seq<string>) {
    forall i :: 0 < i < |xs| ==> LexLess(xs[i - 1], xs[i])
  }

  /** The sorted list holds exactly the catalog labels, in ascending order. */
  lemma {:induction false} SortedLabelsSorted()
    ensures forall l :: l in SortedLabels <==> l in CatalogLabels
    ensures StrictlyAscending(SortedLabels)
  {
    assert SortedLabels[5][0] == SortedLabels[6][0] && SortedLabels[5][1] < SortedLabels[6][1];
    LexLessOnSecond(SortedLabels[5], SortedLabels[6]);
    forall i | 0 < i < |SortedLabels| ensures LexLess(SortedLabels[i - 1], SortedLabels[i]) {
      if i != 6 {
        LexLessOnFirst(SortedLabels[i - 1], SortedLabels[i]);
      }
    }
  }

  lemma {:induction false} LexLessOnFirst(a: string, b: string)
    requires |a| > 0 && |b| > 0 && a[0] < b[0]
    ensures LexLess(a, b)
  {
  }

  lemma {:induction false} LexLessOnSecond(a: string, b: string)
    requires |a| > 1 && |b| > 1 && a[0] == b[0] && a[1] < b[1]
    ensures LexLess(a, b)
  {
    LexLessOnFirst(a[1..], b[1..]);
  }

  /** `\b<w>\b` at position i, case-sensitive. */
  predicate WordAt(s: string, i: nat, w: string) {
    BoundaryAt(s, i) && OccursAt(s, w, i) && BoundaryAt(s, i + |w|)
  }

  predicate HasWord(s: string, w: string) {
    exists i :: 0 <= i <= |s| && WordAt(s, i, w)
  }

  /** The candidates, in order, that occur in the text as whole words. */
  function WordsIn(cands: seq<string>, text: string): (r: seq<string>)
    ensures forall l :: l in r <==> l in cands && HasWord(text, l)
    ensures EachFromLaterCand(r, cands)
  {
    if |cands| == 0 then []
    else
      var head := if HasWord(text, cands[0]) then [cands[0]] else [];
      var rest := WordsIn(cands[1..], text);
      SelectionFromCands(cands, head, rest);
      head + rest
  }

  /** x is one of the candidates at index i or later. */
  predicate CandFrom(x: string, cands: seq<string>, i: nat) {
    exists j :: i <= j < |cands| && x == cands[j]
  }

  /** Element i of r is a candidate at index i or later. */
  predicate EachFromLaterCand(r: seq<string>, cands: seq<string>) {
    forall i :: 0 <= i < |r| ==> CandFrom(r[i], cands, i)
  }

  /** Keeping or dropping the first candidate in front of a selection from the others. */
  lemma {:induction false} SelectionFromCands(cands: seq<string>, head: seq<string>, rest: seq<string>)
    requires |cands| > 0 && (head == [] || head == [cands[0]])
    requires EachFromLaterCand(rest, cands[1..])
    ensures EachFromLaterCand(head + rest, cands)
  {
    var r := head + rest;
    forall i | 0 <= i < |r| ensures CandFrom(r[i], cands, i) {
      if i < |head| {
        assert i <= 0 < |cands| && r[i] == cands[0];
      } else {
        var k := i - |head|;
        assert r[i] == rest[k] && CandFrom(rest[k], cands[1..], k);
        var j :| k <= j < |cands[1..]| && rest[k] == cands[1..][j];
        assert i <= j + 1 < |cands| && r[i] == cands[j + 1];
      }
    }
  }

  /** A selection in order from an ascending list is ascending. */
  lemma {:induction false} WordsInAscending(cands: seq<string>, text: string)
    requires forall i, j :: 0 <= i < j < |cands| ==> LexLess(cands[i], cands[j])
    ensures StrictlyAscending(WordsIn(cands, text))
    decreases |cands|
  {
    if |cands| > 0 {
      var rest := cands[1..];
      WordsInAscending(rest, text);
      var r := WordsIn(cands, text);
      if HasWord(text, cands[0]) {
        var t := WordsIn(rest, text);
        if |t| > 0 {
          var j :| 0 <= j < |rest| && t[0] == rest[j];
          assert LexLess(cands[0], cands[j + 1]);
        }
        forall i | 1 < i < |r| ensures LexLess(r[i - 1], r[i]) {
          assert r[i - 1] == t[i - 2] && r[i] == t[i - 1];
        }
      }
    }
  }

  /** LexLess is transitive, so the sorted list is ascending pairwise and not only neighbour by neighbour. */
  lemma {:induction false} LexLessTransitive(a: string, b: string, c: string)
    requires LexLess(a, b) && LexLess(b, c)
    ensures LexLess(a, c)
    decreases |a|
  {
    if |a| > 0 && a[0] == b[0] && b[0] == c[0] {
      LexLessTransitive(a[1..], b[1..], c[1..]);
    }
  }

  lemma {:induction false} AscendingPairwise(xs: seq<string>)
    requires StrictlyAscending(xs)
    ensures forall i, j :: 0 <= i < j < |xs| ==> LexLess(xs[i], xs[j])
  {
    forall i, j | 0 <= i < j < |xs| ensures LexLess(xs[i], xs[j]) {
      AscendingFrom(xs, i, j);
    }
  }

  lemma {:induction false} AscendingFrom(xs: seq<string>, i: nat, j: nat)
    requires StrictlyAscending(xs) && i < j < |xs|
    ensures LexLess(xs[i], xs[j])
    decreases j - i
  {
    if i + 1 < j {
      AscendingFrom(xs, i, j - 1);
      LexLessTransitive(xs[i], xs[j - 1], xs[j]);
    }
  }

  /**
   * The labels of a family page: the catalog labels that occur as whole
   * words in the page text, in ascending order.
   */
  function Labels(pageText: string): (r: seq<string>)
    ensures forall l :: l in r <==> l in CatalogLabels && HasWord(pageText, l)
    ensures StrictlyAscending(r)
  {
    SortedLabelsSorted();
    AscendingPairwise(SortedLabels);
    WordsInAscending(SortedLabels, pageText);
    WordsIn(SortedLabels, pageText)
  }

  /** The family record the tags page describes. */
  function ParseFamily(page: Page, slug: string): (r: FamilyParsed)
    ensures r.slug == slug && r.displayName.Some?
    ensures forall l :: l in r.labels ==> l in CatalogLabels
    ensures StrictlyAscending(r.labels)
  {
    var pageText := NormalizeWhitespace(page.text);
    FamilyParsed(
      slug := slug,
      displayName := Some(DisplayName(page.metas, slug)),
      description := Description(page.metas),
      labels := Labels(pageText),
      downloads := match Downloads(pageText) case Some(n) => Some(n as int) case None => None,
      catalogUpdatedText := UpdatedText(pageText))
  }

  /* ---------------------------------------------------------------------- */
  /* Variant facts                                                           */
  /* ---------------------------------------------------------------------- */

  predicate IsLowerHex(c: char) { IsDigit(c) || 'a' <= c <= 'f' }

  /** `\b[a-f0-9]{12}\b` at position i. */
  function DigestAt(s: string, i: nat): (r: Option<string>)
    ensures r.Some? ==> |r.value| == 12 && OccursAt(s, r.value, i)
    ensures r.Some? ==> forall k :: 0 <= k < 12 ==> IsLowerHex(r.value[k])
  {
    if i + 12 <= |s| && BoundaryAt(s, i) && (forall k :: i <= k < i + 12 ==> IsLowerHex(s[k])) && BoundaryAt(s, i + 12)
    then Some(s[i..i + 12])
    else None
  }

  /** The first twelve-hex-digit word of the text. */
  function Digest(text: string): (r: Option<string>)
    ensures r.Some? ==>
      exists p :: 0 <= p <= |text| && DigestAt(text, p) == r
        && forall q :: 0 <= q < p ==> DigestAt(text, q).None?
    ensures r.None? <==> forall p :: 0 <= p <= |text| ==> DigestAt(text, p).None?
  {
    FirstMatchLeftmost(text, 0, DigestAt);
    FirstMatch(text, 0, DigestAt)
  }

  /** A K, M or B in either case, as `[KMB]` reads under re.IGNORECASE. */
  predicate IsScaleLetterCI(c: char) { CharIs(c, 'k') || CharIs(c, 'm') || CharIs(c, 'b') }

  /**
   * `(\d+(?:\.\d+)?[KMB]?)\s+context\s+window`, case-insensitive, at
   * position i; the group is the number with its suffix letter.
   */
  function ContextWindowAt(s: string, i: nat): (r: Option<string>)
    ensures r.Some? ==> OccursAt(s, r.value, i) && |r.value| > 0 && IsDigit(r.value[0])
  {
    match NumberAt(s, i)
    case None => None
    case Some(n) =>
      var e := n.end;
      var e2 := if e < |s| && IsScaleLetterCI(s[e]) then e + 1 else e;
      var j := SpaceRunEnd(s, e2);
      if j > e2 && WordAtCI(s, j, "context") then
        var k := SpaceRunEnd(s, j + 7);
        if k > j + 7 && WordAtCI(s, k, "window") then Some(s[i..e2]) else None
      else None
  }

  /**
   * The context length as the extractor computes it: the group of the first
   * "... context window" phrase goes to `parse_context_tokens` as it stands,
   * so a lower-case suffix that the case-insensitive phrase accepted is then
   * not read.
   */
  function MaxContextAsWritten(text: string): (r: Option<nat>)
    ensures (forall p :: 0 <= p <= |text| ==> ContextWindowAt(text, p).None?) ==> r.None?
    ensures (exists p :: 0 <= p <= |text| && ContextWindowAt(text, p).Some?) ==>
      exists p :: 0 <= p <= |text| && ContextWindowAt(text, p).Some?
        && (forall q :: 0 <= q < p ==> ContextWindowAt(text, q).None?)
        && r == ParseContextTokens(ContextWindowAt(text, p).value)
  {
    FirstMatchLeftmost(text, 0, ContextWindowAt);
    match FirstMatch(text, 0, ContextWindowAt)
    case None => None
    case Some(g) => ParseContextTokens(g)
  }

  /**
   * The context length a variant advertises: the tokens of the first
   * "... context window" phrase, its suffix read in either letter case.
   */
  function MaxContext(text: string): (r: Option<nat>)
    ensures (forall p :: 0 <= p <= |text| ==> ContextWindowAt(text, p).None?) ==> r.None?
    ensures (exists p :: 0 <= p <= |text| && ContextWindowAt(text, p).Some?) ==>
      exists p :: 0 <= p <= |text| && ContextWindowAt(text, p).Some?
        && (forall q :: 0 <= q < p ==> ContextWindowAt(text, q).None?)
        && r == ParseContextTokens(Upper(ContextWindowAt(text, p).value))
  {
    FirstMatchLeftmost(text, 0, ContextWindowAt);
    match FirstMatch(text, 0, ContextWindowAt)
    case None => None
    case Some(g) => ParseContextTokens(Upper(g))
  }

  /** As written, a phrase such as "128k context window" yields no context length. */
  lemma {:induction false} LowerSuffixDropped(text: string, n: nat, c: char)
    requires 'a' <= c <= 'z'
    requires FirstMatch(text, 0, ContextWindowAt) == Some(NatToString(n) + [c])
    ensures MaxContextAsWritten(text) == None
  {
    ContextLowerCaseSuffixRejected(n, c);
  }

  /** With the suffix read in either case, "128k context window" and "128K context window" give 131072 tokens. */
  lemma {:induction false} SuffixCaseIgnored(text: string, n: nat, c: char)
    requires ContextMult(UpperChar(c)).Some?
    requires FirstMatch(text, 0, ContextWindowAt) == Some(NatToString(n) + [c])
    ensures MaxContext(text) == Some(n * ContextMult(UpperChar(c)).value)
  {
    var d := NatToString(n);
    assert Upper(d + [c]) == d + [UpperChar(c)] by {
      forall i | 0 <= i < |d| ensures UpperChar(d[i]) == d[i] {
      }
    }
    ContextOfSuffixed(n, UpperChar(c));
  }

  /** `\bText\s+input\b`, case-insensitive. */
  predicate TextInputAt(s: string, i: nat) {
    BoundaryAt(s, i) && WordAtCI(s, i, "text") &&
    var j := SpaceRunEnd(s, i + 4);
    j > i + 4 && WordAtCI(s, j, "input") && BoundaryAt(s, j + 5)
  }

  /** `\bVision\b|\bImage\b`, case-insensitive. */
  predicate VisionAt(s: string, i: nat) {
    BoundaryAt(s, i) &&
    ((WordAtCI(s, i, "vision") && BoundaryAt(s, i + 6)) || (WordAtCI(s, i, "image") && BoundaryAt(s, i + 5)))
  }

  predicate MentionsText(s: string) {
    (exists i :: 0 <= i <= |s| && TextInputAt(s, i)) || HasWord(s, "Text")
  }

  predicate MentionsVision(s: string) {
    exists i :: 0 <= i <= |s| && VisionAt(s, i)
  }

  /** `input_type`: set to "Text" when the text mentions text input, then overridden by "Vision". */
  function InputType(text: string): (r: Option<string>)
    ensures r.Some? ==> r.value == "Text" || r.value == "Vision"
  {
    var t := if MentionsText(text) then Some("Text") else None;
    if MentionsVision(text) then Some("Vision") else t
  }

  /** Vision takes precedence over Text, and nothing else gives an input type. */
  lemma {:induction false} InputTypePrecedence(text: string)
    ensures InputType(text) == Some("Vision") <==> MentionsVision(text)
    ensures InputType(text) == Some("Text") <==> !MentionsVision(text) && MentionsText(text)
    ensures InputType(text).None? <==> !MentionsVision(text) && !MentionsText(text)
  {
  }

  /** `tag.split(":", 1)[1] if ":" in tag else tag`. */
  function TagShort(tag: string): (r: string)
    ensures ContainsChar(tag, ':') ==>
      exists k :: 0 <= k < |tag| && !ContainsChar(tag[..k], ':') && tag == tag[..k] + ":" + r
    ensures !ContainsChar(tag, ':') ==> r == tag
  {
    match IndexOf(tag, ':')
    case Some(k) =>
      assert tag == tag[..k] + ":" + tag[k + 1..];
      tag[k + 1..]
    case None => tag
  }

  /** The short tag of a family's tag is what follows "<slug>:", when the slug itself has no ':'. */
  lemma {:induction false} TagShortOfFamilyTag(slug: string, short: string)
    requires !ContainsChar(slug, ':')
    ensures TagShort(slug + ":" + short) == short
  {
    var tag := slug + ":" + short;
    assert tag[|slug|] == ':';
    assert forall j :: 0 <= j < |slug| ==> tag[j] == slug[j];
    assert tag[|slug| + 1..] == short;
  }

  /** The tag an href names when it is a tag of the family: "/library/<slug>:<short>". */
  function FamilyTagOf(href: string, slug: string): (r: Option<string>)
    ensures r.Some? ==> href == LibraryPrefix + r.value && StartsWith(r.value, slug + ":")
  {
    match LibraryRest(href)
    case None => None
    case Some(tag) => if StartsWith(tag, slug + ":") then Some(tag) else None
  }

  /**
   * The variant record of a listed tag whose text parsed to a size. Its
   * context length is read as the extractor reads it, so "128k context
   * window" leaves it unset (see `LowerSuffixDropped`).
   */
  function BuildVariant(slug: string, tag: string, text: string, size: nat): (r: VariantParsed)
    ensures r.familySlug == slug && r.tag == tag && r.sizeBytes == size
    ensures r.tagShort == Some(TagShort(tag)) && r.digest == Digest(text)
    ensures r.inputType == InputType(text) && r.catalogAgeText == ExtractAgeText(text)
    ensures r.maxContext.Some? <==> MaxContextAsWritten(text).Some?
    ensures r.maxContext.Some? ==> r.maxContext.value == MaxContextAsWritten(text).value
  {
    VariantParsed(
      familySlug := slug,
      tag := tag,
      sizeBytes := size,
      tagShort := Some(TagShort(tag)),
      digest := Digest(text),
      maxContext := match MaxContextAsWritten(text) case Some(n) => Some(n as int) case None => None,
      inputType := InputType(text),
      catalogAgeText := ExtractAgeText(text))
  }

  /**
   * The variant one anchor of the tags page describes, before
   * de-duplication: None unless the href is a tag of the family, the
   * whitespace-normalised text shows the separator and the text has a size.
   */
  function VariantOf(a: Anchor, slug: string): (r: Option<VariantParsed>)
    ensures r.Some? ==> r.value.familySlug == slug && StartsWith(r.value.tag, slug + ":")
    ensures r.Some? ==> a.href == LibraryPrefix + r.value.tag
    ensures r.Some? ==>
      var text := NormalizeWhitespace(a.text);
      r.value.digest == Digest(text) && r.value.inputType == InputType(text) &&
      r.value.catalogAgeText == ExtractAgeText(text) &&
      (r.value.maxContext.Some? <==> MaxContextAsWritten(text).Some?)
  {
    match FamilyTagOf(a.href, slug)
    case None => None
    case Some(tag) =>
      var text := NormalizeWhitespace(a.text);
      if !Contains(text, Separator) then None
      else match ParseSizeBytes(text)
        case Err(_) => None
        case Ok(size) => Some(BuildVariant(slug, tag, text, size))
  }

  /**
   * An anchor describes a variant exactly when its href is a tag of the
   * family, its text shows the separator and a size parses from it; the
   * variant then carries that size and the part of the tag after its ':'.
   */
  lemma {:induction false} VariantOfAccepts(a: Anchor, slug: string)
    ensures VariantOf(a, slug).Some? <==>
      FamilyTagOf(a.href, slug).Some? && Contains(NormalizeWhitespace(a.text), Separator) &&
      ParseSizeBytes(NormalizeWhitespace(a.text)).Ok?
    ensures VariantOf(a, slug).Some? ==>
      var v := VariantOf(a, slug).value;
      v.sizeBytes == ParseSizeBytes(NormalizeWhitespace(a.text)).value && v.tagShort == Some(TagShort(v.tag))
  {
  }

  function TagOf(v: VariantParsed): string { v.tag }

  function VariantReader(slug: string): Anchor -> Option<VariantParsed> {
    a => VariantOf(a, slug)
  }

  /** The variants the anchors describe, in document order, repeats included. */
  function VariantCandidates(anchors: seq<Anchor>, slug: string): seq<VariantParsed> {
    FilterMap(anchors, VariantReader(slug))
  }

  /** Every candidate belongs to the family and has one of its tags. */
  lemma {:induction false} VariantCandidatesOfFamily(anchors: seq<Anchor>, slug: string)
    ensures forall v :: v in VariantCandidates(anchors, slug) ==> v.familySlug == slug && StartsWith(v.tag, slug + ":")
  {
    forall v | v in VariantCandidates(anchors, slug) ensures v.familySlug == slug && StartsWith(v.tag, slug + ":") {
      FilterMapFrom(anchors, VariantReader(slug), v);
      var i :| 0 <= i < |anchors| && VariantReader(slug)(anchors[i]) == Some(v);
      assert VariantOf(anchors[i], slug) == Some(v);
    }
  }

  /**
   * The variant loop of the tags page: an anchor is skipped when it
   * describes no variant or its tag was already taken. The source tests
   * the tag before parsing the size; either order skips the same anchors,
   * and a skipped anchor leaves its tag free for a later one.
   */
  method ParseVariants(anchors: seq<Anchor>, slug: string) returns (variants: seq<VariantParsed>)
    ensures variants == FirstByKey(VariantCandidates(anchors, slug), TagOf)
    ensures DistinctKeys(variants, TagOf)
    ensures forall v :: v in variants ==> v.familySlug == slug && StartsWith(v.tag, slug + ":")
  {
    variants := CollectFirst(anchors, VariantReader(slug), TagOf);
    FirstByKeyDistinct(VariantCandidates(anchors, slug), TagOf);
    FirstByKeySubset(VariantCandidates(anchors, slug), TagOf);
    VariantCandidatesOfFamily(anchors, slug);
  }

  /** An anchor that describes no variant changes nothing, wherever it stands. */
  lemma {:induction false} RejectedAnchorIgnored(before: seq<Anchor>, a: Anchor, after: seq<Anchor>, slug: string)
    requires VariantOf(a, slug).None?
    ensures VariantCandidates(before + [a] + after, slug) == VariantCandidates(before + after, slug)
  {
    FilterMapSkip(before, a, after, VariantReader(slug));
  }

  /**
   * `parse_family_and_variants_from_tags_page`: the family record and its
   * variants, one per tag.
   */
  method ParseTagsPage(page: Page, slug: string) returns (family: FamilyParsed, variants: seq<VariantParsed>)
    ensures family == ParseFamily(page, slug)
    ensures variants == FirstByKey(VariantCandidates(page.anchors, slug), TagOf)
    ensures DistinctKeys(variants, TagOf)
    ensures forall v :: v in variants ==> v.familySlug == family.slug && StartsWith(v.tag, slug + ":")
  {
    family := ParseFamily(page, slug);
    variants := ParseVariants(page.anchors, slug);
  }
}

=== FILE: records.dfy ===
/**
 * The records the page extractor produces. A family needs only its slug;
 * a variant needs its family slug, tag and byte size. Every other field is
 * optional (`None` by default) except `labels`, which defaults to the empty
 * list.
 */
module Records {
  import opened Wrappers

  datatype FamilyParsed = FamilyParsed(
    slug: string,
    displayName: Option<string> := None,
    description: Option<string> := None,
    labels: seq<string> := [],
    downloads: Option<int> := None,
    catalogUpdatedText: Option<string> := None)

  datatype VariantParsed = VariantParsed(
    familySlug: string,
    tag: string,
    sizeBytes: int,
    tagShort: Option<string> := None,
    digest: Option<string> := None,
    maxContext: Option<int> := None,
    inputType: Option<string> := None,
    catalogAgeText: Option<string> := None)
}

=== FILE: store.dfy ===
/**
 * The persistence gateway over an abstract store. Each table is a map keyed
 * by its natural key (a family's slug, a variant's family id and tag, a
 * profile's name and version, a run's id); estimates are an append-only
 * sequence. Postgres's `now()` is the clock reading of the open
 * transaction, passed in as `now`; generated ids come from one counter.
 */
module Store {
  import opened Wrappers
  import opened Records

  /** A reading of the store's clock. */
  type Time = int

  datatype FamilyRow = FamilyRow(
    id: nat, displayName: Option<string>, description: Option<string>, labels: seq<string>,
    downloads: Option<int>, catalogUpdatedText: Option<string>,
    catalogFirstSeenAt: Time, lastSeenAt: Time, verification: string)

  datatype VariantRow = VariantRow(
    id: nat, tagShort: Option<string>, digest: Option<string>, sizeBytes: int,
    maxContext: Option<int>, inputType: Option<string>, catalogAgeText: Option<string>,
    catalogFirstSeenAt: Time, lastSeenAt: Time, verification: string)

  /** The assumption payload of an estimate profile (stored as JSON). */
  datatype Assumptions = Assumptions(weightsOverheadFactor: real, runtimeOverhead: string,
                                     kvCacheTypeDefault: string, tierProfiles: string)

  datatype ProfileRow = ProfileRow(id: nat, assumptions: Assumptions)

  datatype EstimateRow = EstimateRow(
    variantId: nat, profileId: nat, estimateType: string, value: real, units: string,
    contextTokens: int, kvCacheType: string, offloadFraction: real, confidence: string,
    verification: string)

  /** The run counters, as the crawler keeps them. */
  datatype Stats = Stats(familiesSeen: nat, variantsSeen: nat, familiesFailed: nat,
                         variantsFailed: nat, estimatesWritten: nat)

  datatype RunStatus = Running | Success | Failed

  /** What a finished run records: its counters and, when it failed, the error. */
  datatype RunReport = RunReport(stats: Stats, error: Option<string>)

  datatype RunRow = RunRow(startedAt: Time, finishedAt: Option<Time>, status: RunStatus, report: Option<RunReport>)

  datatype Store = Store(
    families: map<string, FamilyRow>,
    variants: map<(nat, string), VariantRow>,
    profiles: map<(string, string), ProfileRow>,
    estimates: seq<EstimateRow>,
    runs: map<nat, RunRow>,
    nextId: nat)

  const Catalog: string := "catalog"

  const Empty: Store := Store(map[], map[], map[], [], map[], 0)

  /** Every id the store handed out is below the counter. */
  predicate Wf(st: Store) {
    && (forall s :: s in st.families ==> st.families[s].id < st.nextId)
    && (forall k :: k in st.variants ==> st.variants[k].id < st.nextId)
    && (forall k :: k in st.profiles ==> st.profiles[k].id < st.nextId)
    && (forall r :: r in st.runs ==> r < st.nextId)
  }

  /* ---------------------------------------------------------------------- */
  /* Connection                                                              */
  /* ---------------------------------------------------------------------- */

  /** `get_db_url`: the command-line URL when it is given and non-empty, else the environment's, else "". */
  function GetDbUrl(cli: Option<string>, env: Option<string>): (r: string)
    ensures cli.Some? && cli.value != "" ==> r == cli.value
    ensures (cli.None? || cli.value == "") && env.Some? ==> r == env.value
    ensures (cli.None? || cli.value == "") && env.None? ==> r == ""
  {
    match cli
    case Some(u) => if u != "" then u else env.GetOr("")
    case None => env.GetOr("")
  }

  /** `connect`: an empty URL is refused before any connection is tried. */
  function Connect(url: string, st: Store): (r: Result<Store>)
    ensures r.Err? <==> url == ""
    ensures r.Ok? ==> r.value == st
  {
    if url == "" then Err("DATABASE_URL is not set") else Ok(st)
  }

  /* ---------------------------------------------------------------------- */
  /* Families                                                                */
  /* ---------------------------------------------------------------------- */

  datatype FamilyUpsert = FamilyUpsert(store: Store, id: nat, firstSeenAt: Time)

  /**
   * `upsert_family`: insert the family or, when its slug is present,
   * overwrite its descriptive fields; either way refresh `last_seen_at`
   * and mark it as catalog data. The first-seen time of a new family is
   * the clock reading.
   */
  function UpsertFamily(st: Store, fam: FamilyParsed, now: Time): (r: FamilyUpsert)
    ensures fam.slug in r.store.families
    ensures r.store.families.Keys == st.families.Keys + {fam.slug}
    ensures r.store.families[fam.slug].id == r.id && r.store.families[fam.slug].catalogFirstSeenAt == r.firstSeenAt
    ensures fam.slug in st.families ==>
      r.id == st.families[fam.slug].id && r.firstSeenAt == st.families[fam.slug].catalogFirstSeenAt
    ensures fam.slug !in st.families ==> r.firstSeenAt == now && (Wf(st) ==> forall s :: s in st.families ==> st.families[s].id != r.id)
    ensures forall s :: s in st.families && s != fam.slug ==> r.store.families[s] == st.families[s]
    ensures r.store.variants == st.variants && r.store.profiles == st.profiles
    ensures r.store.estimates == st.estimates && r.store.runs == st.runs
  {
    if fam.slug in st.families then
      var prev := st.families[fam.slug];
      var row := FamilyOf(fam, prev.id, prev.catalogFirstSeenAt, now);
      FamilyUpsert(st.(families := st.families[fam.slug := row]), prev.id, prev.catalogFirstSeenAt)
    else
      var row := FamilyOf(fam, st.nextId, now, now);
      FamilyUpsert(st.(families := st.families[fam.slug := row], nextId := st.nextId + 1), st.nextId, now)
  }

  /** The row the upsert writes: the parsed fields, the given identity and first-seen time, refreshed at `now`. */
  function FamilyOf(fam: FamilyParsed, id: nat, firstSeen: Time, now: Time): FamilyRow {
    FamilyRow(id, fam.displayName, fam.description, fam.labels, fam.downloads, fam.catalogUpdatedText,
              firstSeen, now, Catalog)
  }

  /** The descriptive fields the row holds after an upsert are those of the record. */
  lemma {:induction false} UpsertFamilyOverwrites(st: Store, fam: FamilyParsed, now: Time)
    ensures var row := UpsertFamily(st, fam, now).store.families[fam.slug];
      && row.displayName == fam.displayName && row.description == fam.description
      && row.labels == fam.labels && row.downloads == fam.downloads
      && row.catalogUpdatedText == fam.catalogUpdatedText
      && row.lastSeenAt == now && row.verification == Catalog
  {
  }

  /**
   * Upserting the same record again, later, returns the same id and
   * first-seen time and changes nothing but `last_seen_at`.
   */
  lemma {:induction false} UpsertFamilyTwice(st: Store, fam: FamilyParsed, t1: Time, t2: Time)
    ensures var a := UpsertFamily(st, fam, t1);
            var b := UpsertFamily(a.store, fam, t2);
      && b.id == a.id && b.firstSeenAt == a.firstSeenAt
      && b.store == a.store.(families := a.store.families[fam.slug := a.store.families[fam.slug].(lastSeenAt := t2)])
  {
    var a := UpsertFamily(st, fam, t1);
    var b := UpsertFamily(a.store, fam, t2);
    assert b.store.families == a.store.families[fam.slug := a.store.families[fam.slug].(lastSeenAt := t2)];
  }

  /** With an unchanged clock the upsert is idempotent. */
  lemma {:induction false} UpsertFamilyIdempotent(st: Store, fam: FamilyParsed, now: Time)
    ensures var a := UpsertFamily(st, fam, now);
      UpsertFamily(a.store, fam, now) == a
  {
    UpsertFamilyTwice(st, fam, now, now);
    var a := UpsertFamily(st, fam, now);
    assert a.store.families[fam.slug].(lastSeenAt := now) == a.store.families[fam.slug];
    assert a.store.families[fam.slug := a.store.families[fam.slug]] == a.store.families;
  }

  lemma {:induction false} UpsertFamilyWf(st: Store, fam: FamilyParsed, now: Time)
    requires Wf(st)
    ensures Wf(UpsertFamily(st, fam, now).store)
    ensures UpsertFamily(st, fam, now).id < UpsertFamily(st, fam, now).store.nextId
  {
  }

  /* ---------------------------------------------------------------------- */
  /* Variants                                                                */
  /* ---------------------------------------------------------------------- */

  datatype VariantUpsert = VariantUpsert(store: Store, id: nat)

  /**
   * `upsert_variant`: keyed by the family id and the tag. A new variant
   * inherits the family's first-seen time; a present one keeps its own.
   */
  function UpsertVariant(st: Store, familyId: nat, familyFirstSeenAt: Time, v: VariantParsed, now: Time): (r: VariantUpsert)
    ensures (familyId, v.tag) in r.store.variants && r.store.variants[(familyId, v.tag)].id == r.id
    ensures r.store.variants.Keys == st.variants.Keys + {(familyId, v.tag)}
    ensures r.store.variants[(familyId, v.tag)].catalogFirstSeenAt ==
      if (familyId, v.tag) in st.variants then st.variants[(familyId, v.tag)].catalogFirstSeenAt else familyFirstSeenAt
    ensures (familyId, v.tag) in st.variants ==> r.id == st.variants[(familyId, v.tag)].id
    ensures forall k :: k in st.variants && k != (familyId, v.tag) ==> r.store.variants[k] == st.variants[k]
    ensures r.store.families == st.families && r.store.profiles == st.profiles
    ensures r.store.estimates == st.estimates && r.store.runs == st.runs
  {
    var key := (familyId, v.tag);
    if key in st.variants then
      var prev := st.variants[key];
      var row := VariantOf(v, prev.id, prev.catalogFirstSeenAt, now);
      VariantUpsert(st.(variants := st.variants[key := row]), prev.id)
    else
      var row := VariantOf(v, st.nextId, familyFirstSeenAt, now);
      VariantUpsert(st.(variants := st.variants[key := row], nextId := st.nextId + 1), st.nextId)
  }

  function VariantOf(v: VariantParsed, id: nat, firstSeen: Time, now: Time): VariantRow {
    VariantRow(id, v.tagShort, v.digest, v.sizeBytes, v.maxContext, v.inputType, v.catalogAgeText,
               firstSeen, now, Catalog)
  }

  lemma {:induction false} UpsertVariantOverwrites(st: Store, familyId: nat, firstSeen: Time, v: VariantParsed, now: Time)
    ensures var row := UpsertVariant(st, familyId, firstSeen, v, now).store.variants[(familyId, v.tag)];
      && row.tagShort == v.tagShort && row.digest == v.digest && row.sizeBytes == v.sizeBytes
      && row.maxContext == v.maxContext && row.inputType == v.inputType
      && row.catalogAgeText == v.catalogAgeText && row.lastSeenAt == now && row.verification == Catalog
  {
  }

  /** Upserting the same variant again returns the same id and changes nothing but `last_seen_at`. */
  lemma {:induction false} UpsertVariantTwice(st: Store, familyId: nat, f1: Time, f2: Time, v: VariantParsed, t1: Time, t2: Time)
    ensures var a := UpsertVariant(st, familyId, f1, v, t1);
            var b := UpsertVariant(a.store, familyId, f2, v, t2);
            var key := (familyId, v.tag);
      && b.id == a.id
      && b.store == a.store.(variants := a.store.variants[key := a.store.variants[key].(lastSeenAt := t2)])
  {
    var key := (familyId, v.tag);
    var a := UpsertVariant(st, familyId, f1, v, t1);
    var b := UpsertVariant(a.store, familyId, f2, v, t2);
    assert b.store.variants == a.store.variants[key := a.store.variants[key].(lastSeenAt := t2)];
  }

  lemma {:induction false} UpsertVariantWf(st: Store, familyId: nat, firstSeen: Time, v: VariantParsed, now: Time)
    requires Wf(st)
    ensures Wf(UpsertVariant(st, familyId, firstSeen, v, now).store)
  {
  }

  /* ---------------------------------------------------------------------- */
  /* Estimate profiles and estimates                                         */
  /* ---------------------------------------------------------------------- */

  datatype ProfileUpsert = ProfileUpsert(store: Store, id: nat)

  /** `ensure_estimate_profile`: keyed by name and version; the assumptions are replaced, the id kept. */
  function EnsureEstimateProfile(st: Store, name: string, version: string, assumptions: Assumptions): (r: ProfileUpsert)
    ensures (name, version) in r.store.profiles
    ensures r.store.profiles[(name, version)] == ProfileRow(r.id, assumptions)
    ensures (name, version) in st.profiles ==> r.id == st.profiles[(name, version)].id
    ensures r.store.profiles.Keys == st.profiles.Keys + {(name, version)}
    ensures forall k :: k in st.profiles && k != (name, version) ==> r.store.profiles[k] == st.profiles[k]
    ensures r.store.families == st.families && r.store.variants == st.variants
    ensures r.store.estimates == st.estimates && r.store.runs == st.runs
  {
    var key := (name, version);
    if key in st.profiles then
      var id := st.profiles[key].id;
      ProfileUpsert(st.(profiles := st.profiles[key := ProfileRow(id, assumptions)]), id)
    else
      ProfileUpsert(st.(profiles := st.profiles[key := ProfileRow(st.nextId, assumptions)], nextId := st.nextId + 1), st.nextId)
  }

  lemma {:induction false} EnsureEstimateProfileIdempotent(st: Store, name: string, version: string, assumptions: Assumptions)
    ensures var a := EnsureEstimateProfile(st, name, version, assumptions);
      EnsureEstimateProfile(a.store, name, version, assumptions) == a
  {
    var a := EnsureEstimateProfile(st, name, version, assumptions);
    var key := (name, version);
    assert a.store.profiles[key := ProfileRow(a.id, assumptions)] == a.store.profiles;
  }

  /** `insert_estimate`: one more row at the end; nothing already stored changes. */
  function InsertEstimate(st: Store, row: EstimateRow): (r: Store)
    ensures |r.estimates| == |st.estimates| + 1
    ensures r.estimates[..|st.estimates|] == st.estimates && r.estimates[|st.estimates|] == row
    ensures r.(estimates := st.estimates) == st
  {
    st.(estimates := st.estimates + [row])
  }

  /** The same estimate inserted twice is stored twice. */
  lemma {:induction false} InsertEstimateTwice(st: Store, row: EstimateRow)
    ensures var r := InsertEstimate(InsertEstimate(st, row), row);
      |r.estimates| == |st.estimates| + 2 && r.estimates[|st.estimates|] == r.estimates[|st.estimates| + 1] == row
  {
    var a := InsertEstimate(st, row);
    assert a.estimates[|st.estimates|] == row;
  }

  /** Rows appended in order, each by `insert_estimate`. */
  function InsertEstimates(st: Store, rows: seq<EstimateRow>): (r: Store)
    ensures r.estimates == st.estimates + rows
    ensures r.(estimates := st.estimates) == st
    decreases |rows|
  {
    if |rows| == 0 then st
    else
      var r := InsertEstimates(InsertEstimate(st, rows[0]), rows[1..]);
      assert st.estimates + [rows[0]] + rows[1..] == st.estimates + rows;
      r
  }

  /* ---------------------------------------------------------------------- */
  /* Crawl runs                                                              */
  /* ---------------------------------------------------------------------- */

  datatype RunStart = RunStart(store: Store, id: nat)

  /** `start_crawl_run`: one new run, running, started now. */
  function StartCrawlRun(st: Store, now: Time): (r: RunStart)
    ensures r.store.runs.Keys == st.runs.Keys + {r.id}
    ensures r.store.runs[r.id] == RunRow(now, None, Running, None)
    ensures Wf(st) ==> r.id !in st.runs
    ensures forall k :: k in st.runs && k != r.id ==> r.store.runs[k] == st.runs[k]
    ensures r.store.families == st.families && r.store.variants == st.variants
    ensures r.store.profiles == st.profiles && r.store.estimates == st.estimates
  {
    RunStart(st.(runs := st.runs[st.nextId := RunRow(now, None, Running, None)], nextId := st.nextId + 1), st.nextId)
  }

  /** `finish_crawl_run`: an update of the one run by its id; when no such run is stored, nothing changes. */
  function FinishCrawlRun(st: Store, runId: nat, status: RunStatus, report: RunReport, now: Time): (r: Store)
    ensures runId in st.runs ==> r.runs == st.runs[runId := st.runs[runId].(finishedAt := Some(now), status := status, report := Some(report))]
    ensures runId !in st.runs ==> r == st
    ensures r.(runs := st.runs) == st
  {
    if runId in st.runs then
      st.(runs := st.runs[runId := st.runs[runId].(finishedAt := Some(now), status := status, report := Some(report))])
    else st
  }

  lemma {:induction false} StartCrawlRunWf(st: Store, now: Time)
    requires Wf(st)
    ensures Wf(StartCrawlRun(st, now).store)
  {
  }

  /** Starting and then finishing a run leaves that run terminal and every other run as it was. */
  lemma {:induction false} StartThenFinish(st: Store, t1: Time, status: RunStatus, report: RunReport, t2: Time)
    requires Wf(st)
    ensures var s := StartCrawlRun(st, t1);
            var r := FinishCrawlRun(s.store, s.id, status, report, t2);
      && r.runs.Keys == st.runs.Keys + {s.id}
      && r.runs[s.id] == RunRow(t1, Some(t2), status, Some(report))
      && (forall k :: k in st.runs ==> r.runs[k] == st.runs[k])
  {
  }

  /* ---------------------------------------------------------------------- */
  /* The open transaction                                                    */
  /* ---------------------------------------------------------------------- */

  /**
   * A connection with autocommit off: what the last commit made durable,
   * the state the open transaction sees, and how many transactions have
   * ended, by a commit or a rollback, before the open one (the open
   * transaction's clock reading is `clock(txns)`).
   */
  datatype Conn = Conn(committed: Store, current: Store, txns: nat)

  function Open(st: Store): Conn { Conn(st, st, 0) }

  function Commit(c: Conn): (r: Conn)
    ensures r.committed == r.current == c.current && r.txns == c.txns + 1
  {
    Conn(c.current, c.current, c.txns + 1)
  }

  /** A rollback ends the open transaction too: the next statement starts a new one, with its own clock. */
  function Rollback(c: Conn): (r: Conn)
    ensures r.committed == r.current == c.committed && r.txns == c.txns + 1
  {
    Conn(c.committed, c.committed, c.txns + 1)
  }

  /** Rolling back after a commit returns to what was committed: nothing the transaction did after it survives. */
  lemma {:induction false} RollbackUndoes(c: Conn, st: Store)
    ensures var r := Rollback(Commit(c).(current := st));
      r.committed == r.current == c.current && r.txns == c.txns + 2
  {
  }
}

=== FILE: text.dfy ===
/**
 * Character classes and the small scanners that stand in for the regular
 * expressions of the crawler. Every pattern is modelled by a "match at
 * position i" function; `FirstMatch` then plays `re.search`, which reports
 * the match that starts leftmost.
 */
module Text {
  import opened Wrappers

  predicate IsDigit(c: char) { '0' <= c <= '9' }

  /** `\s`: the ASCII whitespace characters. */
  predicate IsSpace(c: char) {
    c == ' ' || c == '\t' || c == '\n' || c == '\r' || c == '\U{B}' || c == '\U{C}'
  }

  /** `\w`: letters, digits and underscore. */
  predicate IsWordChar(c: char) {
    IsDigit(c) || ('a' <= c <= 'z') || ('A' <= c <= 'Z') || c == '_'
  }

  function LowerChar(c: char): (r: char)
    ensures IsWordChar(r) == IsWordChar(c)
    ensures IsDigit(r) == IsDigit(c) && IsSpace(r) == IsSpace(c)
    ensures !('A' <= c <= 'Z') ==> r == c
  {
    if 'A' <= c <= 'Z' then (c as int + 32) as char else c
  }

  /** `str.lower()` restricted to ASCII letters. */
  function Lower(s: string): (r: string)
    ensures |r| == |s|
    ensures forall i :: 0 <= i < |s| ==> r[i] == LowerChar(s[i])
  {
    seq(|s|, i requires 0 <= i < |s| => LowerChar(s[i]))
  }

  function UpperChar(c: char): (r: char)
    ensures !('a' <= c <= 'z') ==> r == c
    ensures LowerChar(r) == LowerChar(c)
  {
    if 'a' <= c <= 'z' then (c as int - 32) as char else c
  }

  /** `str.upper()` restricted to ASCII letters. */
  function Upper(s: string): (r: string)
    ensures |r| == |s|
    ensures forall i :: 0 <= i < |s| ==> r[i] == UpperChar(s[i])
  {
    seq(|s|, i requires 0 <= i < |s| => UpperChar(s[i]))
  }

  lemma {:induction false} LowerCharIdempotent(c: char)
    ensures LowerChar(LowerChar(c)) == LowerChar(c)
  {
  }

  /** Lower-casing twice is lower-casing once. */
  lemma {:induction false} LowerIdempotent(s: string)
    ensures Lower(Lower(s)) == Lower(s)
  {
    forall i | 0 <= i < |s| ensures Lower(Lower(s))[i] == Lower(s)[i] {
      LowerCharIdempotent(s[i]);
    }
  }

  /** Case-insensitive equality of a character with a lower-case letter or digit. */
  predicate CharIs(c: char, lower: char) { LowerChar(c) == lower }

  /** `\b` at position i: exactly one of the neighbouring characters is a word character. */
  predicate BoundaryAt(s: string, i: nat) {
    i <= |s| && ((i > 0 && IsWordChar(s[i - 1])) != (i < |s| && IsWordChar(s[i])))
  }

  /** End of the run of digits that starts at i (i itself when there is none). */
  function DigitRunEnd(s: string, i: nat): (e: nat)
    ensures i <= e
    ensures i <= |s| ==> e <= |s|
    ensures forall k :: i <= k < e ==> k < |s| && IsDigit(s[k])
    ensures e < |s| ==> !IsDigit(s[e])
    decreases |s| - i
  {
    if i < |s| && IsDigit(s[i]) then DigitRunEnd(s, i + 1) else i
  }

  /** End of the run of whitespace that starts at i (i itself when there is none). */
  function SpaceRunEnd(s: string, i: nat): (e: nat)
    ensures i <= e
    ensures i <= |s| ==> e <= |s|
    ensures forall k :: i <= k < e ==> k < |s| && IsSpace(s[k])
    ensures e < |s| ==> !IsSpace(s[e])
    decreases |s| - i
  {
    if i < |s| && IsSpace(s[i]) then SpaceRunEnd(s, i + 1) else i
  }

  predicate AllDigits(ds: string) { forall k :: 0 <= k < |ds| ==> IsDigit(ds[k]) }

  function DigitValue(c: char): nat { if IsDigit(c) then c as int - '0' as int else 0 }

  /** Decimal value of a digit string, as `int(ds)` computes it. */
  function DigitsValue(ds: string): nat
  {
    if |ds| == 0 then 0 else DigitsValue(ds[..|ds| - 1]) * 10 + DigitValue(ds[|ds| - 1])
  }

  function Pow(b: nat, e: nat): (r: nat)
    ensures b > 0 ==> r > 0
  {
    if e == 0 then 1 else b * Pow(b, e - 1)
  }

  /** Value of the digits after a decimal point: "05" is 0.05. */
  function FractionValue(ds: string): (r: real)
    ensures 0.0 <= r
  {
    DigitsValue(ds) as real / Pow(10, |ds|) as real
  }

  /** `int(v * m)` for a non-negative v: truncation, which is the floor here. */
  function Scale(v: real, m: nat): nat
    requires 0.0 <= v
  {
    (v * m as real).Floor as nat
  }

  lemma {:induction false} ScaleWhole(n: nat, m: nat)
    ensures Scale(n as real, m) == n * m
  {
    assert n as real * m as real == (n * m) as real;
  }

  /** A decimal number `\d+(?:\.\d+)?` found by a scanner, and where it ends. */
  datatype Number = Number(value: real, end: nat)

  /**
   * The number that the greedy `\d+(?:\.\d+)?` takes at position i: the whole
   * digit run, extended by a fraction when a '.' and at least one digit follow.
   */
  function NumberAt(s: string, i: nat): (r: Option<Number>)
    ensures r.Some? <==> i < |s| && IsDigit(s[i])
    ensures r.Some? ==> i < r.value.end <= |s| && 0.0 <= r.value.value
    ensures r.Some? && r.value.end < |s| ==> !IsDigit(s[r.value.end])
  {
    var e := DigitRunEnd(s, i);
    if e == i then None
    else if e + 1 < |s| && s[e] == '.' && IsDigit(s[e + 1]) then
      var f := DigitRunEnd(s, e + 1);
      Some(Number(DigitsValue(s[i..e]) as real + FractionValue(s[e + 1..f]), f))
    else
      Some(Number(DigitsValue(s[i..e]) as real, e))
  }

  /** The number that `\d+` alone takes at position i (no fraction). */
  function IntegerAt(s: string, i: nat): (r: Option<Number>)
    ensures r.Some? <==> i < |s| && IsDigit(s[i])
    ensures r.Some? ==> r.value.end == DigitRunEnd(s, i)
  {
    var e := DigitRunEnd(s, i);
    if e == i then None else Some(Number(DigitsValue(s[i..e]) as real, e))
  }

  /**
   * `re.search`: the result of the matcher at the leftmost position, at or
   * after i, where it succeeds.
   */
  function FirstMatch<T>(s: string, i: nat, m: (string, nat) -> Option<T>): Option<T>
    decreases |s| + 1 - i
  {
    if i > |s| then None
    else match m(s, i)
      case Some(v) => Some(v)
      case None => FirstMatch(s, i + 1, m)
  }

  /** A search succeeds exactly at the leftmost position where the matcher succeeds. */
  lemma {:induction false} FirstMatchLeftmost<T>(s: string, i: nat, m: (string, nat) -> Option<T>)
    ensures FirstMatch(s, i, m).Some? ==>
      exists p :: i <= p <= |s| && m(s, p) == FirstMatch(s, i, m)
                  && forall q :: i <= q < p ==> m(s, q).None?
    ensures FirstMatch(s, i, m).None? <==> forall q :: i <= q <= |s| ==> m(s, q).None?
    decreases |s| + 1 - i
  {
    if i <= |s| && m(s, i).None? {
      FirstMatchLeftmost(s, i + 1, m);
      if FirstMatch(s, i, m).Some? {
        var p :| i + 1 <= p <= |s| && m(s, p) == FirstMatch(s, i + 1, m)
                 && forall q :: i + 1 <= q < p ==> m(s, q).None?;
        assert forall q :: i <= q < p ==> m(s, q).None? by {
          forall q | i <= q < p ensures m(s, q).None? {
            if q > i { }
          }
        }
      }
    }
  }

  /** A search that succeeds at position p returns that match when nothing succeeds before p. */
  lemma {:induction false} FirstMatchAt<T>(s: string, i: nat, p: nat, m: (string, nat) -> Option<T>)
    requires i <= p <= |s| && m(s, p).Some?
    requires forall q :: i <= q < p ==> m(s, q).None?
    ensures FirstMatch(s, i, m) == m(s, p)
    decreases p - i
  {
    if i < p {
      FirstMatchAt(s, i + 1, p, m);
    }
  }

  /** Two strings on which a matcher agrees position by position give the same search result. */
  lemma {:induction false} FirstMatchCongruent<T>(s: string, t: string, i: nat, m: (string, nat) -> Option<T>)
    requires |s| == |t|
    requires forall q :: i <= q <= |s| ==> m(s, q) == m(t, q)
    ensures FirstMatch(s, i, m) == FirstMatch(t, i, m)
    decreases |s| + 1 - i
  {
    if i <= |s| {
      FirstMatchCongruent(s, t, i + 1, m);
    }
  }

  predicate StartsWith(s: string, prefix: string) {
    |prefix| <= |s| && s[..|prefix|] == prefix
  }

  /** Python's `needle in s` for strings. */
  predicate Contains(s: string, needle: string) {
    exists i :: 0 <= i <= |s| - |needle| && OccursAt(s, needle, i)
  }

  predicate OccursAt(s: string, needle: string, i: nat) {
    i + |needle| <= |s| && s[i..i + |needle|] == needle
  }

  predicate ContainsChar(s: string, c: char) {
    exists i :: 0 <= i < |s| && s[i] == c
  }

  /** Index of the first occurrence of c in s, if any. */
  function IndexOf(s: string, c: char): (r: Option<nat>)
    ensures r.Some? ==> r.value < |s| && s[r.value] == c && forall k :: 0 <= k < r.value ==> s[k] != c
    ensures r.None? ==> forall k :: 0 <= k < |s| ==> s[k] != c
  {
    if |s| == 0 then None
    else if s[0] == c then Some(0)
    else match IndexOf(s[1..], c)
      case Some(k) => Some(k + 1)
      case None => None
  }

  /** Case-insensitive comparison of s[i..i+|w|] with the lower-case word w. */
  predicate WordAtCI(s: string, i: nat, w: string) {
    i + |w| <= |s| && forall k :: 0 <= k < |w| ==> CharIs(s[i + k], w[k])
  }

  /** Decimal rendering of a natural number, as `str(n)` gives it. */
  function NatToString(n: nat): (r: string)
    ensures |r| > 0 && AllDigits(r)
    decreases n
  {
    if n < 10 then ["0123456789"[n]]
    else NatToString(n / 10) + ["0123456789"[n % 10]]
  }

  lemma {:induction false} NatToStringValue(n: nat)
    ensures DigitsValue(NatToString(n)) == n
    decreases n
  {
    var r := NatToString(n);
    if n >= 10 {
      NatToStringValue(n / 10);
      assert r[..|r| - 1] == NatToString(n / 10);
    }
  }

  /** The digit run at the front of a digit string followed by a non-digit is the whole digit string. */
  lemma {:induction false} DigitRunOfPrefix(ds: string, rest: string)
    requires AllDigits(ds)
    requires |rest| == 0 || !IsDigit(rest[0])
    ensures DigitRunEnd(ds + rest, 0) == |ds|
  {
    var s := ds + rest;
    var e := DigitRunEnd(s, 0);
    assert forall k :: 0 <= k < |ds| ==> s[k] == ds[k];
    assert |ds| < |s| ==> s[|ds|] == rest[0];
  }

  /** A run of n digits at i that stops at a non-digit (or the end) ends at i + n. */
  lemma {:induction false} DigitRunAt(s: string, i: nat, n: nat)
    requires i + n <= |s|
    requires forall k :: i <= k < i + n ==> IsDigit(s[k])
    requires i + n == |s| || !IsDigit(s[i + n])
    ensures DigitRunEnd(s, i) == i + n
    decreases n
  {
    if n > 0 {
      DigitRunAt(s, i + 1, n - 1);
    }
  }

  /** The digit run at i is exactly the digit string ds that occurs there when no digit follows it. */
  lemma {:induction false} DigitsOccurAt(s: string, i: nat, ds: string)
    requires AllDigits(ds) && OccursAt(s, ds, i)
    requires i + |ds| == |s| || !IsDigit(s[i + |ds|])
    ensures DigitRunEnd(s, i) == i + |ds|
  {
    var e := i + |ds|;
    assert forall k :: i <= k < e ==> IsDigit(s[k]) by {
      forall k | i <= k < e ensures IsDigit(s[k]) {
        assert s[k] == s[i..e][k - i];
      }
    }
    DigitRunAt(s, i, |ds|);
  }

  /** The number read at i when a digit run, a '.', and a second digit run follow each other there. */
  lemma {:induction false} NumberAtRuns(s: string, i: nat, ds: string, frac: string)
    requires 0 < |ds| && DigitRunEnd(s, i) == i + |ds| && OccursAt(s, ds, i)
    requires 0 < |frac| && OccursAt(s, frac, i + |ds| + 1) && s[i + |ds|] == '.'
    requires DigitRunEnd(s, i + |ds| + 1) == i + |ds| + 1 + |frac|
    ensures NumberAt(s, i) == Some(Number(DigitsValue(ds) as real + FractionValue(frac), i + |ds| + 1 + |frac|))
  {
  }

  /** An occurrence of a + b is an occurrence of a followed by an occurrence of b. */
  lemma {:induction false} OccursSplit(s: string, i: nat, a: string, b: string)
    requires OccursAt(s, a + b, i)
    ensures OccursAt(s, a, i) && OccursAt(s, b, i + |a|)
  {
    assert s[i..i + |a|] == s[i..i + |a| + |b|][..|a|];
    assert s[i + |a|..i + |a| + |b|] == s[i..i + |a| + |b|][|a|..];
  }

  /** A search whose matcher can succeed at one position p only returns the match at p. */
  lemma {:induction false} FirstMatchSingle<T>(s: string, p: nat, m: (string, nat) -> Option<T>)
    requires p <= |s|
    requires forall q :: 0 <= q <= |s| && q != p ==> m(s, q).None?
    ensures FirstMatch(s, 0, m) == m(s, p)
  {
    if m(s, p).Some? {
      FirstMatchAt(s, 0, p, m);
    } else {
      FirstMatchLeftmost(s, 0, m);
    }
  }

  /** The text of a decimal number: digits, then '.' and more digits unless frac is empty. */
  function Decimal(ds: string, frac: string): string
  {
    if frac == "" then ds else ds + "." + frac
  }

  function DecimalValue(ds: string, frac: string): (r: real)
    ensures 0.0 <= r
  {
    DigitsValue(ds) as real + FractionValue(frac)
  }

  /** The middle part of a concatenation occurs right after the first part. */
  lemma {:induction false} OccursInMiddle(a: string, b: string, c: string)
    ensures OccursAt(a + b + c, b, |a|)
  {
    assert (a + b + c)[|a|..|a| + |b|] == b;
  }

  /** The integer read at i when the digits ds sit there and no digit follows. */
  lemma {:induction false} IntegerAtOf(s: string, i: nat, ds: string)
    requires |ds| > 0 && AllDigits(ds) && OccursAt(s, ds, i)
    requires i + |ds| == |s| || !IsDigit(s[i + |ds|])
    ensures IntegerAt(s, i) == Some(Number(DigitsValue(ds) as real, i + |ds|))
  {
    DigitsOccurAt(s, i, ds);
  }

  /** The integer read right after pre when digits ds follow it and post does not start with a digit. */
  lemma {:induction false} IntegerAfter(pre: string, ds: string, post: string)
    requires |ds| > 0 && AllDigits(ds)
    requires |post| == 0 || !IsDigit(post[0])
    ensures IntegerAt(pre + ds + post, |pre|) == Some(Number(DigitsValue(ds) as real, |pre| + |ds|))
  {
    MiddleLayout(pre, ds, post);
    IntegerAtOf(pre + ds + post, |pre|, ds);
  }

  /** Where the middle part of `a + b + c` sits, and what follows it. */
  lemma {:induction false} MiddleLayout(a: string, b: string, c: string)
    ensures OccursAt(a + b + c, b, |a|)
    ensures |a + b + c| == |a| + |b| + |c|
    ensures |c| > 0 ==> (a + b + c)[|a| + |b|] == c[0]
  {
    OccursInMiddle(a, b, c);
  }

  /** A word character followed by a non-word character (or the end) closes a word. */
  lemma {:induction false} BoundaryAfter(pre: string, c: char, rest: string)
    requires IsWordChar(c)
    requires |rest| == 0 || !IsWordChar(rest[0])
    ensures var s := pre + ([c] + rest); s[|pre|] == c && BoundaryAt(s, |pre| + 1)
  {
    var s := pre + ([c] + rest);
    if |rest| > 0 {
      assert s[|pre| + 1] == rest[0];
    }
  }

  /** The number read right after pre when the digits ds follow it and post cannot extend them. */
  lemma {:induction false} NumberAfterWhole(pre: string, ds: string, post: string)
    requires |ds| > 0 && AllDigits(ds)
    requires |post| == 0 || (!IsDigit(post[0]) && post[0] != '.')
    ensures NumberAt(pre + ds + post, |pre|) == Some(Number(DigitsValue(ds) as real, |pre| + |ds|))
  {
    MiddleLayout(pre, ds, post);
    DigitsOccurAt(pre + ds + post, |pre|, ds);
  }

  /** Where the parts of `pre + (ds + "." + frac) + post` sit. */
  lemma {:induction false} FractionLayout(pre: string, ds: string, frac: string, post: string)
    requires |frac| > 0
    ensures var s := pre + (ds + "." + frac) + post;
      var e := |pre| + |ds|;
      var f := e + 1 + |frac|;
      OccursAt(s, ds, |pre|) && s[e] == '.' && OccursAt(s, frac, e + 1) && s[e + 1] == frac[0] &&
      f <= |s| && (|post| > 0 ==> s[f] == post[0])
  {
    var s := pre + (ds + "." + frac) + post;
    var e := |pre| + |ds|;
    assert s[|pre|..e] == ds;
    assert s[e + 1..e + 1 + |frac|] == frac;
  }

  /** The number read right after pre when ds, '.', frac follow it and post does not start with a digit. */
  lemma {:induction false} NumberAfterFraction(pre: string, ds: string, frac: string, post: string)
    requires |ds| > 0 && AllDigits(ds) && |frac| > 0 && AllDigits(frac)
    requires |post| == 0 || !IsDigit(post[0])
    ensures NumberAt(pre + (ds + "." + frac) + post, |pre|)
            == Some(Number(DigitsValue(ds) as real + FractionValue(frac), |pre| + |ds| + 1 + |frac|))
  {
    var s := pre + (ds + "." + frac) + post;
    FractionWholeRun(pre, ds, frac, post);
    FractionFracRun(pre, ds, frac, post);
    FractionLayout(pre, ds, frac, post);
    NumberAtRuns(s, |pre|, ds, frac);
  }

  lemma {:induction false} FractionWholeRun(pre: string, ds: string, frac: string, post: string)
    requires AllDigits(ds)
    ensures DigitRunEnd(pre + (ds + "." + frac) + post, |pre|) == |pre| + |ds|
  {
    var s := pre + (ds + "." + frac) + post;
    FractionWholeLayout(pre, ds, frac, post);
    WholeRunOfFraction(s, |pre|, ds, frac);
  }

  lemma {:induction false} FractionWholeLayout(pre: string, ds: string, frac: string, post: string)
    ensures var s := pre + (ds + "." + frac) + post;
      OccursAt(s, ds, |pre|) && |pre| + |ds| < |s| && s[|pre| + |ds|] == '.'
  {
    var s := pre + (ds + "." + frac) + post;
    assert s[|pre|..|pre| + |ds|] == ds;
  }

  lemma {:induction false} FractionFracRun(pre: string, ds: string, frac: string, post: string)
    requires |frac| > 0 && AllDigits(frac)
    requires |post| == 0 || !IsDigit(post[0])
    ensures DigitRunEnd(pre + (ds + "." + frac) + post, |pre| + |ds| + 1) == |pre| + |ds| + 1 + |frac|
  {
    var s := pre + (ds + "." + frac) + post;
    FractionLayout(pre, ds, frac, post);
    FractionRunOfFraction(s, |pre|, ds, frac);
  }

  lemma {:induction false} WholeRunOfFraction(s: string, i: nat, ds: string, frac: string)
    requires AllDigits(ds) && OccursAt(s, ds, i) && i + |ds| < |s| && s[i + |ds|] == '.'
    ensures DigitRunEnd(s, i) == i + |ds|
  {
    DigitsOccurAt(s, i, ds);
  }

  lemma {:induction false} FractionRunOfFraction(s: string, i: nat, ds: string, frac: string)
    requires AllDigits(frac) && OccursAt(s, frac, i + |ds| + 1)
    requires var f := i + |ds| + 1 + |frac|; f == |s| || !IsDigit(s[f])
    ensures DigitRunEnd(s, i + |ds| + 1) == i + |ds| + 1 + |frac|
  {
    DigitsOccurAt(s, i + |ds| + 1, frac);
  }

  /** The text and value of a decimal without a fraction are those of its digits. */
  lemma {:induction false} DecimalWhole(ds: string, frac: string)
    requires frac == ""
    ensures Decimal(ds, frac) == ds && DecimalValue(ds, frac) == DigitsValue(ds) as real
  {
    assert FractionValue(frac) == 0.0;
  }

  /** The text and value of a decimal with a fraction. */
  lemma {:induction false} DecimalFraction(ds: string, frac: string)
    requires frac != ""
    ensures Decimal(ds, frac) == ds + "." + frac && |Decimal(ds, frac)| == |ds| + 1 + |frac|
    ensures DecimalValue(ds, frac) == DigitsValue(ds) as real + FractionValue(frac)
  {
  }

  /** The number read right after pre when a decimal follows it and post cannot extend it. */
  lemma {:induction false} NumberAfter(pre: string, ds: string, frac: string, post: string)
    requires |ds| > 0 && AllDigits(ds) && AllDigits(frac)
    requires |post| == 0 || (!IsDigit(post[0]) && post[0] != '.')
    ensures NumberAt(pre + Decimal(ds, frac) + post, |pre|)
            == Some(Number(DecimalValue(ds, frac), |pre| + |Decimal(ds, frac)|))
  {
    if frac == "" {
      DecimalWhole(ds, frac);
      NumberAfterWhole(pre, ds, post);
    } else {
      DecimalFraction(ds, frac);
      NumberAfterFraction(pre, ds, frac, post);
    }
  }

  lemma {:induction false} OccursAtEnd(a: string, b: string)
    ensures OccursAt(a + b, b, |a|)
  {
    assert (a + b)[|a|..] == b;
  }

  lemma {:induction false} OccursInPrefix(a: string, b: string, needle: string, i: nat)
    requires OccursAt(a, needle, i)
    ensures OccursAt(a + b, needle, i)
  {
    assert (a + b)[i..i + |needle|] == a[i..i + |needle|];
  }

  /** `NumberAfter` for a string s known to be laid out as pre, a decimal, post. */
  lemma {:induction false} NumberAtLayout(s: string, i: nat, pre: string, ds: string, frac: string, post: string)
    requires s == pre + Decimal(ds, frac) + post && i == |pre|
    requires |ds| > 0 && AllDigits(ds) && AllDigits(frac)
    requires |post| == 0 || (!IsDigit(post[0]) && post[0] != '.')
    ensures NumberAt(s, i) == Some(Number(DecimalValue(ds, frac), i + |Decimal(ds, frac)|))
  {
    NumberAfter(pre, ds, frac, post);
  }

  /** `IntegerAfter` for a string s known to be laid out as pre, digits, post. */
  lemma {:induction false} IntegerAtLayout(s: string, i: nat, pre: string, ds: string, post: string)
    requires s == pre + ds + post && i == |pre|
    requires |ds| > 0 && AllDigits(ds)
    requires |post| == 0 || !IsDigit(post[0])
    ensures IntegerAt(s, i) == Some(Number(DigitsValue(ds) as real, i + |ds|))
  {
    IntegerAfter(pre, ds, post);
  }

  /** `BoundaryAfter` for a string s known to be laid out as pre, c, rest. */
  lemma {:induction false} BoundaryAtLayout(s: string, i: nat, pre: string, c: char, rest: string)
    requires s == pre + ([c] + rest) && i == |pre|
    requires IsWordChar(c)
    requires |rest| == 0 || !IsWordChar(rest[0])
    ensures i < |s| && s[i] == c && BoundaryAt(s, i + 1)
  {
    BoundaryAfter(pre, c, rest);
  }
}

=== FILE: vram.dfy ===
/**
 * The VRAM estimator: a parameter tier read from the tag, a heuristic
 * architecture profile per tier, and the weights + KV cache + runtime
 * overhead total in GiB under an optimistic and a conservative
 * grouped-query-attention assumption.
 */
module Vram {
  import opened Wrappers
  import opened Text

  const GiB: nat := 1073741824

  lemma {:induction false} GiBIsPower()
    ensures GiB == Pow(1024, 3)
  {
  }

  /** Multiplication of two non-negative reals, kept apart so that its sign is known. */
  function Times(a: real, b: real): (r: real)
    requires 0.0 <= a && 0.0 <= b
    ensures 0.0 <= r
  {
    a * b
  }

  /** `:(\d+)x(\d+(?:\.\d+)?)b\b`, case-insensitive, at position i: experts times size. */
  function MoeTierAt(s: string, i: nat): (r: Option<real>)
    ensures r.Some? ==> i < |s| && s[i] == ':' && 0.0 <= r.value
  {
    if !(i < |s| && s[i] == ':') then None
    else match IntegerAt(s, i + 1)
      case None => None
      case Some(n) =>
        if !(n.end < |s| && CharIs(s[n.end], 'x')) then None
        else match NumberAt(s, n.end + 1)
          case None => None
          case Some(m) =>
            if m.end < |s| && CharIs(s[m.end], 'b') && BoundaryAt(s, m.end + 1) then Some(Times(n.value, m.value))
            else None
  }

  /** `:(\d+(?:\.\d+)?)<unit>\b`, case-insensitive, at position i. */
  function UnitTierAt(s: string, i: nat, unit: char): (r: Option<real>)
    ensures r.Some? ==> i < |s| && s[i] == ':' && 0.0 <= r.value
  {
    if !(i < |s| && s[i] == ':') then None
    else match NumberAt(s, i + 1)
      case None => None
      case Some(n) =>
        if n.end < |s| && CharIs(s[n.end], unit) && BoundaryAt(s, n.end + 1) then Some(n.value) else None
  }

  function BillionsAt(s: string, i: nat): (r: Option<real>)
    ensures r.Some? ==> i < |s| && s[i] == ':' && 0.0 <= r.value
  {
    UnitTierAt(s, i, 'b')
  }

  function MillionsAt(s: string, i: nat): (r: Option<real>)
    ensures r.Some? ==> i < |s| && s[i] == ':' && 0.0 <= r.value
  {
    match UnitTierAt(s, i, 'm')
    case Some(v) => Some(v / 1000.0)
    case None => None
  }

  /**
   * The parameter tier in billions: a mixture-of-experts tag first, then a
   * size in billions, then a size in millions; None when no pattern matches.
   */
  function ParseParamTier(tag: string): (r: Option<real>)
    ensures r.Some? ==> 0.0 <= r.value
    ensures !ContainsChar(tag, ':') ==> r.None?
  {
    FirstMatchLeftmost(tag, 0, MoeTierAt);
    FirstMatchLeftmost(tag, 0, BillionsAt);
    FirstMatchLeftmost(tag, 0, MillionsAt);
    match FirstMatch(tag, 0, MoeTierAt)
    case Some(v) => Some(v)
    case None =>
      match FirstMatch(tag, 0, BillionsAt)
      case Some(v) => Some(v)
      case None => FirstMatch(tag, 0, MillionsAt)
  }

  /**
   * The three patterns are tried in order: the leftmost mixture-of-experts
   * match wins; without one, the leftmost billions match; without either, the
   * millions search decides; no match of any of them gives no tier.
   */
  lemma {:induction false} ParamTierSearch(tag: string)
    ensures (exists i :: 0 <= i <= |tag| && MoeTierAt(tag, i).Some?) ==>
      exists p :: 0 <= p <= |tag| && MoeTierAt(tag, p) == ParseParamTier(tag) &&
        forall q :: 0 <= q < p ==> MoeTierAt(tag, q).None?
    ensures (forall i :: 0 <= i <= |tag| ==> MoeTierAt(tag, i).None?) &&
            (exists i :: 0 <= i <= |tag| && BillionsAt(tag, i).Some?) ==>
      exists p :: 0 <= p <= |tag| && BillionsAt(tag, p) == ParseParamTier(tag) &&
        forall q :: 0 <= q < p ==> BillionsAt(tag, q).None?
    ensures (forall i :: 0 <= i <= |tag| ==> MoeTierAt(tag, i).None?) &&
            (forall i :: 0 <= i <= |tag| ==> BillionsAt(tag, i).None?) ==>
      ParseParamTier(tag) == FirstMatch(tag, 0, MillionsAt)
    ensures ParseParamTier(tag).None? <==>
      (forall i :: 0 <= i <= |tag| ==> MoeTierAt(tag, i).None?) &&
      (forall i :: 0 <= i <= |tag| ==> BillionsAt(tag, i).None?) &&
      (forall i :: 0 <= i <= |tag| ==> MillionsAt(tag, i).None?)
  {
    FirstMatchLeftmost(tag, 0, MoeTierAt);
    FirstMatchLeftmost(tag, 0, BillionsAt);
    FirstMatchLeftmost(tag, 0, MillionsAt);
  }

  /** A letter that is not 'x' (in either case). */
  predicate UnitLetter(u: char) { 'a' <= LowerChar(u) <= 'z' && LowerChar(u) != 'x' }

  lemma {:induction false} UnitLetterFacts(u: char)
    requires UnitLetter(u)
    ensures !IsDigit(u) && u != '.' && u != ':' && IsWordChar(u) && !CharIs(u, 'x')
  {
  }

  /** The tag `name:<decimal><u><rest>`, where the ':' is the only one. */
  function SizedTag(name: string, ds: string, frac: string, u: char, rest: string): string
  {
    name + ":" + Decimal(ds, frac) + ([u] + rest)
  }

  /** In a sized tag, the ':' after the name is the only ':'. */
  lemma {:induction false} SizedTagColon(name: string, ds: string, frac: string, u: char, rest: string)
    requires !ContainsChar(name, ':') && !ContainsChar(rest, ':')
    requires AllDigits(ds) && AllDigits(frac) && UnitLetter(u)
    ensures var tag := SizedTag(name, ds, frac, u, rest);
      |name| < |tag| && tag[|name|] == ':' &&
      forall q :: 0 <= q < |tag| && q != |name| ==> tag[q] != ':'
  {
    var tag := SizedTag(name, ds, frac, u, rest);
    var num := Decimal(ds, frac);
    var e := |name| + 1 + |num|;
    assert forall q :: 0 <= q < |num| ==> num[q] != ':' by {
      forall q | 0 <= q < |num| ensures num[q] != ':' {
        if q < |ds| {
          assert num[q] == ds[q];
        } else if q > |ds| {
          assert num[q] == frac[q - |ds| - 1];
        }
      }
    }
    forall q | 0 <= q < |tag| && q != |name|
      ensures tag[q] != ':'
    {
      if q < |name| {
        assert tag[q] == name[q];
      } else if q < e {
        assert tag[q] == num[q - |name| - 1];
      } else if q == e {
        assert tag[q] == u;
      } else {
        assert tag[q] == rest[q - e - 1];
      }
    }
  }

  /** The ways a sized tag splits around its decimal. */
  lemma {:induction false} SizedTagLayout(name: string, ds: string, frac: string, u: char, rest: string)
    ensures var tag := SizedTag(name, ds, frac, u, rest);
      var num := Decimal(ds, frac);
      && tag == (name + ":") + num + ([u] + rest)
      && tag == (name + ":" + num) + ([u] + rest)
      && |name| < |tag| && tag[|name|] == ':'
      && |name + ":"| == |name| + 1
      && |name + ":" + num| == |name| + 1 + |num|
  {
  }

  /** A sized tag without a fraction, split around its digits. */
  lemma {:induction false} SizedTagWholeLayout(name: string, ds: string, frac: string, u: char, rest: string)
    requires frac == ""
    ensures SizedTag(name, ds, frac, u, rest) == (name + ":") + ds + ([u] + rest)
    ensures |name + ":"| == |name| + 1
  {
  }

  /** A sized tag with a fraction, split around its whole digits. */
  lemma {:induction false} SizedTagFractionLayout(name: string, ds: string, frac: string, u: char, rest: string)
    requires frac != ""
    ensures SizedTag(name, ds, frac, u, rest) == (name + ":") + ds + ("." + frac + ([u] + rest))
    ensures |name + ":"| == |name| + 1
    ensures ("." + frac + ([u] + rest))[0] == '.'
  {
    var a := name + ":";
    assert a + (ds + "." + frac) + ([u] + rest) == a + ds + ("." + frac + ([u] + rest));
  }

  lemma {:induction false} SizedTagNumber(name: string, ds: string, frac: string, u: char, rest: string, p: nat, e: nat)
    requires |ds| > 0 && AllDigits(ds) && AllDigits(frac) && UnitLetter(u)
    requires p == |name| && e == p + 1 + |Decimal(ds, frac)|
    ensures NumberAt(SizedTag(name, ds, frac, u, rest), p + 1) == Some(Number(DecimalValue(ds, frac), e))
  {
    SizedTagLayout(name, ds, frac, u, rest);
    UnitLetterFacts(u);
    NumberAtLayout(SizedTag(name, ds, frac, u, rest), p + 1, name + ":", ds, frac, [u] + rest);
  }

  lemma {:induction false} SizedTagEnd(name: string, ds: string, frac: string, u: char, rest: string, e: nat)
    requires UnitLetter(u)
    requires |rest| == 0 || !IsWordChar(rest[0])
    requires e == |name| + 1 + |Decimal(ds, frac)|
    ensures var tag := SizedTag(name, ds, frac, u, rest);
      e < |tag| && tag[e] == u && BoundaryAt(tag, e + 1)
  {
    SizedTagLayout(name, ds, frac, u, rest);
    UnitLetterFacts(u);
    BoundaryAtLayout(SizedTag(name, ds, frac, u, rest), e, name + ":" + Decimal(ds, frac), u, rest);
  }

  lemma {:induction false} SizedTagInteger(name: string, ds: string, frac: string, u: char, rest: string, p: nat, d: nat)
    requires |ds| > 0 && AllDigits(ds) && UnitLetter(u)
    requires p == |name| && d == p + 1 + |ds|
    ensures IntegerAt(SizedTag(name, ds, frac, u, rest), p + 1) == Some(Number(DigitsValue(ds) as real, d))
  {
    if frac == "" {
      UnitLetterFacts(u);
      SizedTagIntegerWhole(name, ds, frac, u, rest, p, d);
    } else {
      SizedTagIntegerFraction(name, ds, frac, u, rest, p, d);
    }
  }

  lemma {:induction false} SizedTagIntegerWhole(name: string, ds: string, frac: string, u: char, rest: string, p: nat, d: nat)
    requires frac == ""
    requires |ds| > 0 && AllDigits(ds) && !IsDigit(u)
    requires p == |name| && d == p + 1 + |ds|
    ensures IntegerAt(SizedTag(name, ds, frac, u, rest), p + 1) == Some(Number(DigitsValue(ds) as real, d))
  {
    SizedTagWholeLayout(name, ds, frac, u, rest);
    IntegerAtLayout(SizedTag(name, ds, frac, u, rest), p + 1, name + ":", ds, [u] + rest);
  }

  lemma {:induction false} SizedTagIntegerFraction(name: string, ds: string, frac: string, u: char, rest: string, p: nat, d: nat)
    requires frac != ""
    requires |ds| > 0 && AllDigits(ds)
    requires p == |name| && d == p + 1 + |ds|
    ensures IntegerAt(SizedTag(name, ds, frac, u, rest), p + 1) == Some(Number(DigitsValue(ds) as real, d))
  {
    SizedTagFractionLayout(name, ds, frac, u, rest);
    var post := "." + frac + ([u] + rest);
    assert post[0] == '.';
    IntegerAtLayout(SizedTag(name, ds, frac, u, rest), p + 1, name + ":", ds, post);
  }

  /** Right after the whole digits of a sized tag comes the unit letter or a '.', never an 'x'. */
  lemma {:induction false} SizedTagAfterDigits(name: string, ds: string, frac: string, u: char, rest: string, d: nat)
    requires UnitLetter(u)
    requires d == |name| + 1 + |ds|
    ensures var tag := SizedTag(name, ds, frac, u, rest);
      d < |tag| && !CharIs(tag[d], 'x')
  {
    UnitLetterFacts(u);
    var tag := SizedTag(name, ds, frac, u, rest);
    if frac == "" {
      SizedTagWholeLayout(name, ds, frac, u, rest);
      assert tag[d] == u;
    } else {
      SizedTagFractionLayout(name, ds, frac, u, rest);
      assert tag[d] == '.';
    }
  }

  /** What the three tier matchers see at the ':' of a sized tag. */
  lemma {:induction false} SizedTagAtColon(name: string, ds: string, frac: string, u: char, rest: string)
    requires |ds| > 0 && AllDigits(ds) && AllDigits(frac) && UnitLetter(u)
    requires |rest| == 0 || !IsWordChar(rest[0])
    ensures var tag := SizedTag(name, ds, frac, u, rest);
      var v := DecimalValue(ds, frac);
      MoeTierAt(tag, |name|).None? &&
      UnitTierAt(tag, |name|, 'b') == (if CharIs(u, 'b') then Some(v) else None) &&
      UnitTierAt(tag, |name|, 'm') == (if CharIs(u, 'm') then Some(v) else None)
  {
    var tag := SizedTag(name, ds, frac, u, rest);
    var p := |name|;
    var d := p + 1 + |ds|;
    var e := p + 1 + |Decimal(ds, frac)|;
    SizedTagLayout(name, ds, frac, u, rest);
    SizedTagNumber(name, ds, frac, u, rest, p, e);
    SizedTagEnd(name, ds, frac, u, rest, e);
    SizedTagInteger(name, ds, frac, u, rest, p, d);
    SizedTagAfterDigits(name, ds, frac, u, rest, d);
    MoeTierWithoutX(tag, p, d);
    UnitTierAtOf(tag, p, e, DecimalValue(ds, frac), 'b');
    UnitTierAtOf(tag, p, e, DecimalValue(ds, frac), 'm');
  }

  lemma {:induction false} MoeTierWithoutX(s: string, p: nat, d: nat)
    requires IntegerAt(s, p + 1).Some? && IntegerAt(s, p + 1).value.end == d
    requires d < |s| && !CharIs(s[d], 'x')
    ensures MoeTierAt(s, p).None?
  {
  }

  lemma {:induction false} UnitTierAtOf(s: string, p: nat, e: nat, v: real, unit: char)
    requires p < |s| && s[p] == ':'
    requires NumberAt(s, p + 1) == Some(Number(v, e)) && e < |s| && BoundaryAt(s, e + 1)
    ensures UnitTierAt(s, p, unit) == if CharIs(s[e], unit) then Some(v) else None
  {
  }

  /**
   * The tier of a tag `name:<decimal><u><rest>` whose only ':' follows the name:
   * the decimal when u is 'b', a thousandth of it when u is 'm', and unknown
   * for any other letter but 'x'.
   */
  lemma {:induction false} TierOfSizedTag(name: string, ds: string, frac: string, u: char, rest: string)
    requires !ContainsChar(name, ':') && !ContainsChar(rest, ':')
    requires |ds| > 0 && AllDigits(ds) && AllDigits(frac) && UnitLetter(u)
    requires |rest| == 0 || !IsWordChar(rest[0])
    ensures var v := DecimalValue(ds, frac);
      ParseParamTier(SizedTag(name, ds, frac, u, rest)) ==
        if CharIs(u, 'b') then Some(v) else if CharIs(u, 'm') then Some(v / 1000.0) else None
  {
    var tag := SizedTag(name, ds, frac, u, rest);
    SizedTagColon(name, ds, frac, u, rest);
    TierWithOneColon(tag, |name|);
    SizedTagAtColon(name, ds, frac, u, rest);
  }

  /** In a tag with a single ':', the tier is what the three matchers read at that ':'. */
  lemma {:induction false} TierWithOneColon(tag: string, p: nat)
    requires p < |tag| && forall q :: 0 <= q < |tag| && q != p ==> tag[q] != ':'
    ensures ParseParamTier(tag) ==
      if MoeTierAt(tag, p).Some? then MoeTierAt(tag, p)
      else if BillionsAt(tag, p).Some? then BillionsAt(tag, p)
      else MillionsAt(tag, p)
  {
    FirstMatchSingle(tag, p, MoeTierAt);
    FirstMatchSingle(tag, p, BillionsAt);
    FirstMatchSingle(tag, p, MillionsAt);
  }

  /** The mixture-of-experts tag `name:<experts><x><decimal><b><rest>`. */
  function MoeTag(name: string, experts: string, x: char, ds: string, frac: string, b: char, rest: string): string
  {
    name + ":" + experts + [x] + Decimal(ds, frac) + ([b] + rest)
  }

  /** What the mixture-of-experts matcher reads at the ':' of such a tag: the product. */
  lemma {:induction false} MoeTagAtColon(name: string, experts: string, x: char, ds: string, frac: string, b: char, rest: string)
    requires |experts| > 0 && AllDigits(experts) && CharIs(x, 'x')
    requires |ds| > 0 && AllDigits(ds) && AllDigits(frac) && CharIs(b, 'b')
    requires |rest| == 0 || !IsWordChar(rest[0])
    ensures MoeTierAt(MoeTag(name, experts, x, ds, frac, b, rest), |name|)
            == Some(Times(DigitsValue(experts) as real, DecimalValue(ds, frac)))
  {
    var tag := MoeTag(name, experts, x, ds, frac, b, rest);
    var p := |name|;
    var d := p + 1 + |experts|;
    var e := d + 1 + |Decimal(ds, frac)|;
    MoeTagLayout(name, experts, x, ds, frac, b, rest);
    MoeTagExperts(name, experts, x, ds, frac, b, rest, p, d);
    MoeTagSize(name, experts, x, ds, frac, b, rest, d, e);
    MoeTagEnd(name, experts, x, ds, frac, b, rest, e);
    MoeTierAtOf(tag, p, d, e, DigitsValue(experts) as real, DecimalValue(ds, frac));
  }

  lemma {:induction false} MoeTagExperts(name: string, experts: string, x: char, ds: string, frac: string, b: char, rest: string,
                                         p: nat, d: nat)
    requires |experts| > 0 && AllDigits(experts) && CharIs(x, 'x')
    requires p == |name| && d == p + 1 + |experts|
    ensures IntegerAt(MoeTag(name, experts, x, ds, frac, b, rest), p + 1) == Some(Number(DigitsValue(experts) as real, d))
  {
    MoeTagLayout(name, experts, x, ds, frac, b, rest);
    assert !IsDigit(x);
    IntegerAtLayout(MoeTag(name, experts, x, ds, frac, b, rest), p + 1, name + ":", experts, [x] + Decimal(ds, frac) + ([b] + rest));
  }

  lemma {:induction false} MoeTagSize(name: string, experts: string, x: char, ds: string, frac: string, b: char, rest: string,
                                      d: nat, e: nat)
    requires |ds| > 0 && AllDigits(ds) && AllDigits(frac) && CharIs(b, 'b')
    requires d == |name| + 1 + |experts| && e == d + 1 + |Decimal(ds, frac)|
    ensures NumberAt(MoeTag(name, experts, x, ds, frac, b, rest), d + 1) == Some(Number(DecimalValue(ds, frac), e))
  {
    MoeTagLayout(name, experts, x, ds, frac, b, rest);
    assert !IsDigit(b) && b != '.';
    NumberAtLayout(MoeTag(name, experts, x, ds, frac, b, rest), d + 1, name + ":" + experts + [x], ds, frac, [b] + rest);
  }

  lemma {:induction false} MoeTagEnd(name: string, experts: string, x: char, ds: string, frac: string, b: char, rest: string,
                                     e: nat)
    requires CharIs(b, 'b')
    requires |rest| == 0 || !IsWordChar(rest[0])
    requires e == |name| + 1 + |experts| + 1 + |Decimal(ds, frac)|
    ensures var tag := MoeTag(name, experts, x, ds, frac, b, rest);
      e < |tag| && CharIs(tag[e], 'b') && BoundaryAt(tag, e + 1)
  {
    MoeTagLayout(name, experts, x, ds, frac, b, rest);
    BoundaryAtLayout(MoeTag(name, experts, x, ds, frac, b, rest), e, name + ":" + experts + [x] + Decimal(ds, frac), b, rest);
  }

  /** The three ways the mixture-of-experts tag splits around its parts. */
  lemma {:induction false} MoeTagLayout(name: string, experts: string, x: char, ds: string, frac: string, b: char, rest: string)
    ensures var tag := MoeTag(name, experts, x, ds, frac, b, rest);
      var num := Decimal(ds, frac);
      && tag == (name + ":") + experts + ([x] + num + ([b] + rest))
      && tag == (name + ":" + experts + [x]) + num + ([b] + rest)
      && tag == (name + ":" + experts + [x] + num) + ([b] + rest)
      && |name| < |tag| && tag[|name|] == ':' && tag[|name| + 1 + |experts|] == x
      && |name + ":"| == |name| + 1
      && |name + ":" + experts + [x]| == |name| + 1 + |experts| + 1
      && |name + ":" + experts + [x] + num| == |name| + 1 + |experts| + 1 + |num|
      && ([x] + num + ([b] + rest))[0] == x
  {
    var num := Decimal(ds, frac);
    MoeTagRegroup(name + ":", experts, x, num, [b] + rest);
  }

  lemma {:induction false} MoeTagRegroup(a: string, experts: string, x: char, num: string, post: string)
    ensures a + experts + [x] + num + post == a + experts + ([x] + num + post)
  {
    assert a + experts + [x] + num + post == (a + experts) + ([x] + num + post);
  }

  lemma {:induction false} MoeTierAtOf(s: string, p: nat, d: nat, e: nat, experts: real, size: real)
    requires p < |s| && s[p] == ':'
    requires 0.0 <= experts && 0.0 <= size
    requires IntegerAt(s, p + 1) == Some(Number(experts, d)) && d < |s| && CharIs(s[d], 'x')
    requires NumberAt(s, d + 1) == Some(Number(size, e)) && e < |s| && CharIs(s[e], 'b') && BoundaryAt(s, e + 1)
    ensures MoeTierAt(s, p) == Some(Times(experts, size))
  {
  }

  /** A mixture-of-experts tag whose only ':' follows the name has the product as its tier. */
  lemma {:induction false} TierOfMoeTag(name: string, experts: string, x: char, ds: string, frac: string, b: char, rest: string)
    requires !ContainsChar(name, ':') && !ContainsChar(rest, ':')
    requires |experts| > 0 && AllDigits(experts) && CharIs(x, 'x')
    requires |ds| > 0 && AllDigits(ds) && AllDigits(frac) && CharIs(b, 'b')
    requires |rest| == 0 || !IsWordChar(rest[0])
    ensures ParseParamTier(MoeTag(name, experts, x, ds, frac, b, rest))
            == Some(Times(DigitsValue(experts) as real, DecimalValue(ds, frac)))
  {
    var tag := MoeTag(name, experts, x, ds, frac, b, rest);
    var p := |name|;
    var num := Decimal(ds, frac);
    var d := p + 1 + |experts|;
    var e := d + 1 + |num|;
    assert forall q :: 0 <= q < |num| ==> num[q] != ':' by {
      forall q | 0 <= q < |num| ensures num[q] != ':' {
        if q < |ds| {
          assert num[q] == ds[q];
        } else if q > |ds| {
          assert num[q] == frac[q - |ds| - 1];
        }
      }
    }
    assert forall q :: 0 <= q < |tag| && q != p ==> tag[q] != ':' by {
      forall q | 0 <= q < |tag| && q != p ensures tag[q] != ':' {
        if q < p {
          assert tag[q] == name[q];
        } else if q < d {
          assert tag[q] == experts[q - p - 1];
        } else if q == d {
          assert tag[q] == x;
        } else if q < e {
          assert tag[q] == num[q - d - 1];
        } else if q == e {
          assert tag[q] == b;
        } else {
          assert tag[q] == rest[q - e - 1];
        }
      }
    }
    TierWithOneColon(tag, p);
    MoeTagAtColon(name, experts, x, ds, frac, b, rest);
  }

  /** The three tags the estimator's documentation gives as examples. */
  lemma {:induction false} MixtralExample(tag: string)
    requires tag == "mixtral:8x7b"
    ensures ParseParamTier(tag) == Some(56.0)
  {
    assert tag == MoeTag("mixtral", "8", 'x', "7", "", 'b', "");
    TierOfMoeTag("mixtral", "8", 'x', "7", "", 'b', "");
  }

  lemma {:induction false} QwenExample(tag: string)
    requires tag == "qwen2.5:0.5b"
    ensures ParseParamTier(tag) == Some(0.5)
  {
    assert tag == SizedTag("qwen2.5", "0", "5", 'b', "");
    TierOfSizedTag("qwen2.5", "0", "5", 'b', "");
    assert DigitsValue("5") == 5 && DigitsValue("0") == 0 && Pow(10, 1) == 10;
    assert FractionValue("5") == 0.5;
  }

  lemma {:induction false} LlamaExample(tag: string)
    requires tag == "llama3:8b"
    ensures ParseParamTier(tag) == Some(8.0)
  {
    assert tag == SizedTag("llama3", "8", "", 'b', "");
    TierOfSizedTag("llama3", "8", "", 'b', "");
    assert DigitsValue("8") == 8;
  }

  lemma {:induction false} DeepseekExample(tag: string)
    requires tag == "deepseek-r1:671b-fp16"
    ensures ParseParamTier(tag) == Some(671.0)
  {
    assert tag == SizedTag("deepseek-r1", "671", "", 'b', "-fp16");
    TierOfSizedTag("deepseek-r1", "671", "", 'b', "-fp16");
    assert "671"[..2] == "67" && "67"[..1] == "6";
    assert DigitsValue("671") == 671;
    assert FractionValue("") == 0.0;
  }

  /* ---------------------------------------------------------------------- */
  /* Architecture profile per tier                                          */
  /* ---------------------------------------------------------------------- */

  datatype Confidence = Low | Medium

  /** Layers, model width, optimistic and conservative GQA factors, confidence and a note. */
  datatype Profile = Profile(layers: nat, dModel: nat, gqaOpt: real, gqaCons: real, confidence: Confidence, note: string)

  /**
   * The heuristic profile of a tier: six size bands, the ~13B band standing in
   * with low confidence when the tier is unknown. Only the bands above 15B
   * assume grouped-query attention optimistically.
   */
  function TierProfile(tier: Option<real>): (r: Profile)
    ensures r.confidence == Low <==> tier.None?
    ensures 0.0 < r.gqaOpt <= r.gqaCons == 1.0
    ensures r.gqaOpt < r.gqaCons <==> tier.Some? && tier.value > 15.0
  {
    match tier
    case None => Profile(40, 5120, 1.0, 1.0, Low, "tier unknown; using ~13B proxy for KV sizing")
    case Some(t) =>
      if t <= 3.0 then Profile(26, 3072, 1.0, 1.0, Medium, "~3B profile")
      else if t <= 9.0 then Profile(32, 4096, 1.0, 1.0, Medium, "~7-8B profile")
      else if t <= 15.0 then Profile(40, 5120, 1.0, 1.0, Medium, "~13-14B profile")
      else if t <= 40.0 then Profile(48, 8192, 0.5, 1.0, Medium, "~30-34B profile (GQA optimistic)")
      else if t <= 80.0 then Profile(80, 8192, 0.25, 1.0, Medium, "~70B profile (GQA optimistic)")
      else Profile(80, 10240, 0.25, 1.0, Medium, ">100B profile (GQA optimistic)")
  }

  /** The unknown tier borrows the shape of the ~13B band, differing only in confidence and note. */
  lemma {:induction false} UnknownTierIsThirteenB(t: real)
    requires 9.0 < t <= 15.0
    ensures var u := TierProfile(None);
      var k := TierProfile(Some(t));
      u.layers == k.layers && u.dModel == k.dModel && u.gqaOpt == k.gqaOpt && u.gqaCons == k.gqaCons &&
      u.confidence == Low && k.confidence == Medium
  {
  }

  /**
   * A larger tier never gets fewer layers or a narrower model (so the
   * conservative KV bytes per token never shrink as the tier grows), while
   * its optimistic GQA factor never grows.
   */
  lemma {:induction false} ProfileMonotone(t1: real, t2: real)
    requires t1 <= t2
    ensures var a := TierProfile(Some(t1));
      var b := TierProfile(Some(t2));
      a.layers <= b.layers && a.dModel <= b.dModel && b.gqaOpt <= a.gqaOpt
  {
  }

  /* ---------------------------------------------------------------------- */
  /* KV cache element size                                                  */
  /* ---------------------------------------------------------------------- */

  /** Bytes per KV element by cache type (any letter case); unknown types count as fp16. */
  function KvBytesPerElem(kvCacheType: string): (r: real)
    ensures r == 0.5 || r == 1.0 || r == 2.0 || r == 4.0
  {
    var k := Lower(kvCacheType);
    if k == "fp16" || k == "f16" then 2.0
    else if k == "fp32" || k == "f32" then 4.0
    else if k == "q8" || k == "q8_0" || k == "int8" then 1.0
    else if k == "q4" || k == "int4" then 0.5
    else 2.0
  }

  /**
   * The element sizes by cache type: 4 bytes exactly for the 32-bit names,
   * 1 for the 8-bit ones, half a byte for the 4-bit ones, and 2 for every
   * other string, the 16-bit names included.
   */
  lemma {:induction false} KvBytesPerElemTable(kvCacheType: string)
    ensures var k := Lower(kvCacheType);
      && (KvBytesPerElem(kvCacheType) == 4.0 <==> k in ["fp32", "f32"])
      && (KvBytesPerElem(kvCacheType) == 1.0 <==> k in ["q8", "q8_0", "int8"])
      && (KvBytesPerElem(kvCacheType) == 0.5 <==> k in ["q4", "int4"])
      && (KvBytesPerElem(kvCacheType) == 2.0 <==> k !in ["fp32", "f32", "q8", "q8_0", "int8", "q4", "int4"])
  {
  }

  /** The extra KV overhead that only 4-bit caches carry. */
  function KvOverheadFactor(kvCacheType: string): (r: real)
    ensures r == 1.0 || r == 1.1
  {
    var k := Lower(kvCacheType);
    if k == "q4" || k == "int4" then 1.1 else 1.0
  }

  /** The 10% overhead applies exactly to the cache types stored at half a byte per element. */
  lemma {:induction false} OverheadOnlyForHalfByte(kvCacheType: string)
    ensures KvOverheadFactor(kvCacheType) == 1.1 <==> KvBytesPerElem(kvCacheType) == 0.5
  {
  }

  /** The element size and overhead depend on the cache type only up to letter case. */
  lemma {:induction false} KvTypeIgnoresCase(kvCacheType: string)
    ensures KvBytesPerElem(Lower(kvCacheType)) == KvBytesPerElem(kvCacheType)
    ensures KvOverheadFactor(Lower(kvCacheType)) == KvOverheadFactor(kvCacheType)
  {
    LowerIdempotent(kvCacheType);
  }

  /* ---------------------------------------------------------------------- */
  /* The estimate                                                           */
  /* ---------------------------------------------------------------------- */

  /** All sizes in GiB; `notes` explains where the numbers come from. */
  datatype VramEstimate = VramEstimate(
    totalOpt: real, totalCons: real, weights: real, kvOpt: real, kvCons: real,
    runtimeOverhead: real, confidence: Confidence, notes: string)

  function Min(a: real, b: real): real { if a <= b then a else b }
  function Max(a: real, b: real): real { if a >= b then a else b }

  /** The catalog size in GiB. */
  function SizeGib(sizeBytes: int): real { sizeBytes as real / GiB as real }

  /** Runtime overhead: 0.8 GiB plus 2% of the weights, kept within [0.8, 8]. */
  function RuntimeOverhead(weightsGib: real): (r: real)
    ensures 0.8 <= r <= 8.0
  {
    Min(8.0, Max(0.8, 0.8 + 0.02 * weightsGib))
  }

  /** KV cache bytes per token: keys and values for every layer and model dimension. */
  function KvPerToken(layers: nat, dModel: nat, gqa: real, bpe: real): real
  {
    2.0 * layers as real * dModel as real * gqa * bpe
  }

  /** The KV cache of a context, in GiB, with the type's overhead factor. */
  function KvGib(perToken: real, contextTokens: int, factor: real): real
  {
    (perToken * contextTokens as real / GiB as real) * factor
  }

  /** The fixed prefix of the notes; the rest names the cache type, the offload fraction and the tier note. */
  const NotesPrefix: string := "ESTIMATED: weights derived from catalog size; KV cache inferred from tier heuristics; "

  /**
   * `estimate_vram_total_gib`: weights with a 5% overhead scaled by the
   * offloaded fraction, the KV cache under the optimistic and the
   * conservative GQA factor of the tier's profile, and the runtime overhead.
   * `offloadText` is the text Python prints for the offload fraction.
   */
  function EstimateVram(sizeBytes: int, tag: string, contextTokens: int, kvCacheType: string,
                        offloadFraction: real, offloadText: string): (r: VramEstimate)
    ensures 0.8 <= r.runtimeOverhead <= 8.0
    ensures r.runtimeOverhead == RuntimeOverhead(SizeGib(sizeBytes))
    ensures r.weights == SizeGib(sizeBytes) * 1.05 * offloadFraction
    ensures r.totalOpt == r.weights + r.kvOpt + r.runtimeOverhead
    ensures r.totalCons == r.weights + r.kvCons + r.runtimeOverhead
    ensures r.confidence == Low <==> ParseParamTier(tag).None?
  {
    EstimateWith(TierProfile(ParseParamTier(tag)), sizeBytes, contextTokens, kvCacheType, offloadFraction, offloadText)
  }

  /** The estimate for a given architecture profile. */
  function EstimateWith(prof: Profile, sizeBytes: int, contextTokens: int, kvCacheType: string,
                        offloadFraction: real, offloadText: string): (r: VramEstimate)
    ensures r.confidence == prof.confidence
    ensures r.runtimeOverhead == RuntimeOverhead(SizeGib(sizeBytes))
    ensures r.weights == SizeGib(sizeBytes) * 1.05 * offloadFraction
    ensures r.totalOpt == r.weights + r.kvOpt + r.runtimeOverhead
    ensures r.totalCons == r.weights + r.kvCons + r.runtimeOverhead
  {
    var w := SizeGib(sizeBytes);
    var weights := w * 1.05 * offloadFraction;
    var runtime := RuntimeOverhead(w);
    var bpe := KvBytesPerElem(kvCacheType);
    var factor := KvOverheadFactor(kvCacheType);
    var kvOpt := KvGib(KvPerToken(prof.layers, prof.dModel, prof.gqaOpt, bpe), contextTokens, factor);
    var kvCons := KvGib(KvPerToken(prof.layers, prof.dModel, prof.gqaCons, bpe), contextTokens, factor);
    var notes := NotesPrefix + "kv_cache_type=" + kvCacheType + "; offload_fraction=" + offloadText
                 + "; " + prof.note + ".";
    VramEstimate(weights + kvOpt + runtime, weights + kvCons + runtime, weights, kvOpt, kvCons, runtime,
                 prof.confidence, notes)
  }

  /** The overhead is 0.8 GiB up to an empty model, 8 GiB from 360 GiB of weights on, linear in between. */
  lemma {:induction false} RuntimeOverheadShape(w: real)
    ensures w <= 0.0 ==> RuntimeOverhead(w) == 0.8
    ensures 0.0 <= w <= 360.0 ==> RuntimeOverhead(w) == 0.8 + 0.02 * w
    ensures 360.0 <= w ==> RuntimeOverhead(w) == 8.0
  {
  }

  lemma {:induction false} RuntimeOverheadMonotone(w1: real, w2: real)
    requires w1 <= w2
    ensures RuntimeOverhead(w1) <= RuntimeOverhead(w2)
  {
  }

  lemma {:induction false} MulMonotone(a: real, b: real, c: real)
    requires a <= b && 0.0 <= c
    ensures a * c <= b * c
  {
    assert (b - a) * c >= 0.0;
  }

  lemma {:induction false} MulNonNegative(a: real, c: real)
    requires 0.0 <= a && 0.0 <= c
    ensures 0.0 <= a * c
  {
  }

  lemma {:induction false} KvPerTokenMonotone(layers: nat, dModel: nat, g1: real, g2: real, bpe: real)
    requires 0.0 <= g1 <= g2 && 0.0 <= bpe
    ensures 0.0 <= KvPerToken(layers, dModel, g1, bpe) <= KvPerToken(layers, dModel, g2, bpe)
  {
    var c := 2.0 * layers as real * dModel as real;
    MulNonNegative(2.0 * layers as real, dModel as real);
    MulMonotone(g1, g2, c);
    MulNonNegative(g1, c);
    MulMonotone(c * g1, c * g2, bpe);
    MulNonNegative(c * g1, bpe);
  }

  lemma {:induction false} KvGibMonotone(p1: real, p2: real, c1: int, c2: int, factor: real)
    requires 0.0 <= p1 <= p2 && 0 <= c1 <= c2 && 0.0 <= factor
    ensures 0.0 <= KvGib(p1, c1, factor) <= KvGib(p2, c2, factor)
  {
    MulMonotone(p1, p2, c1 as real);
    MulMonotone(c1 as real, c2 as real, p2);
    MulNonNegative(p1, c1 as real);
    var g := GiB as real;
    var x1 := p1 * c1 as real / g;
    var x2 := p2 * c2 as real / g;
    assert 0.0 <= x1 <= x2;
    MulMonotone(x1, x2, factor);
    MulNonNegative(x1, factor);
  }

  /**
   * With a non-negative context, the optimistic KV cache never exceeds the
   * conservative one, so neither does the optimistic total.
   */
  lemma {:induction false} OptimisticNotAboveConservative(sizeBytes: int, tag: string, contextTokens: int, kvCacheType: string,
                                                          offloadFraction: real, offloadText: string)
    requires 0 <= contextTokens
    ensures var r := EstimateVram(sizeBytes, tag, contextTokens, kvCacheType, offloadFraction, offloadText);
      0.0 <= r.kvOpt <= r.kvCons && r.totalOpt <= r.totalCons
  {
    var prof := TierProfile(ParseParamTier(tag));
    var bpe := KvBytesPerElem(kvCacheType);
    KvPerTokenMonotone(prof.layers, prof.dModel, prof.gqaOpt, prof.gqaCons, bpe);
    KvGibMonotone(KvPerToken(prof.layers, prof.dModel, prof.gqaOpt, bpe), KvPerToken(prof.layers, prof.dModel, prof.gqaCons, bpe),
                  contextTokens, contextTokens, KvOverheadFactor(kvCacheType));
  }

  /** A longer context never lowers the KV cache or the totals; weights and runtime overhead do not depend on it. */
  lemma {:induction false} MoreContextNeedsMore(sizeBytes: int, tag: string, c1: int, c2: int, kvCacheType: string,
                                                offloadFraction: real, offloadText: string)
    requires 0 <= c1 <= c2
    ensures var a := EstimateVram(sizeBytes, tag, c1, kvCacheType, offloadFraction, offloadText);
      var b := EstimateVram(sizeBytes, tag, c2, kvCacheType, offloadFraction, offloadText);
      a.weights == b.weights && a.runtimeOverhead == b.runtimeOverhead &&
      a.kvOpt <= b.kvOpt && a.kvCons <= b.kvCons && a.totalOpt <= b.totalOpt && a.totalCons <= b.totalCons
  {
    var prof := TierProfile(ParseParamTier(tag));
    var bpe := KvBytesPerElem(kvCacheType);
    var f := KvOverheadFactor(kvCacheType);
    var po := KvPerToken(prof.layers, prof.dModel, prof.gqaOpt, bpe);
    var pc := KvPerToken(prof.layers, prof.dModel, prof.gqaCons, bpe);
    KvPerTokenMonotone(prof.layers, prof.dModel, prof.gqaOpt, prof.gqaCons, bpe);
    KvGibMonotone(po, po, c1, c2, f);
    KvGibMonotone(pc, pc, c1, c2, f);
  }

  /** Without context there is no KV cache: both totals are the weights plus the runtime overhead. */
  lemma {:induction false} ZeroContext(sizeBytes: int, tag: string, kvCacheType: string, offloadFraction: real, offloadText: string)
    ensures var r := EstimateVram(sizeBytes, tag, 0, kvCacheType, offloadFraction, offloadText);
      r.kvOpt == 0.0 && r.kvCons == 0.0 &&
      r.totalOpt == r.weights + r.runtimeOverhead && r.totalCons == r.totalOpt
  {
  }

  /**
   * The offload fraction scales the weights and nothing else: the weights
   * are that fraction of the fully offloaded weights, and the KV cache,
   * runtime overhead and confidence stay as they are.
   */
  lemma {:induction false} OffloadScalesWeightsOnly(sizeBytes: int, tag: string, contextTokens: int, kvCacheType: string,
                                                    offloadFraction: real, offloadText: string, fullText: string)
    ensures var a := EstimateVram(sizeBytes, tag, contextTokens, kvCacheType, offloadFraction, offloadText);
      var b := EstimateVram(sizeBytes, tag, contextTokens, kvCacheType, 1.0, fullText);
      a.weights == offloadFraction * b.weights && b.weights == SizeGib(sizeBytes) * 1.05 &&
      a.kvOpt == b.kvOpt && a.kvCons == b.kvCons && a.runtimeOverhead == b.runtimeOverhead && a.confidence == b.confidence
  {
    var prof := TierProfile(ParseParamTier(tag));
    OffloadWith(prof, sizeBytes, contextTokens, kvCacheType, offloadFraction, offloadText, fullText);
    assert EstimateVram(sizeBytes, tag, contextTokens, kvCacheType, offloadFraction, offloadText)
        == EstimateWith(prof, sizeBytes, contextTokens, kvCacheType, offloadFraction, offloadText);
    assert EstimateVram(sizeBytes, tag, contextTokens, kvCacheType, 1.0, fullText)
        == EstimateWith(prof, sizeBytes, contextTokens, kvCacheType, 1.0, fullText);
  }

  lemma {:induction false} OffloadWith(prof: Profile, sizeBytes: int, contextTokens: int, kvCacheType: string,
                                       offloadFraction: real, offloadText: string, fullText: string)
    ensures var a := EstimateWith(prof, sizeBytes, contextTokens, kvCacheType, offloadFraction, offloadText);
      var b := EstimateWith(prof, sizeBytes, contextTokens, kvCacheType, 1.0, fullText);
      a.weights == offloadFraction * b.weights && b.weights == SizeGib(sizeBytes) * 1.05 &&
      a.kvOpt == b.kvOpt && a.kvCons == b.kvCons && a.runtimeOverhead == b.runtimeOverhead && a.confidence == b.confidence
  {
    var w := SizeGib(sizeBytes);
    assert w * 1.05 * offloadFraction == offloadFraction * (w * 1.05 * 1.0);
  }

  /**
   * A 4-bit cache holds a quarter of the fp16 bytes per element but carries
   * a 10% overhead: its KV cache is 0.275 of the fp16 one.
   */
  lemma {:induction false} FourBitCache(sizeBytes: int, tag: string, contextTokens: int, q4: string, fp16: string,
                                        offloadFraction: real, offloadText: string)
    requires Lower(q4) == "q4" || Lower(q4) == "int4"
    requires Lower(fp16) == "fp16" || Lower(fp16) == "f16"
    ensures var a := EstimateVram(sizeBytes, tag, contextTokens, q4, offloadFraction, offloadText);
      var b := EstimateVram(sizeBytes, tag, contextTokens, fp16, offloadFraction, offloadText);
      a.kvOpt == 0.275 * b.kvOpt && a.kvCons == 0.275 * b.kvCons
  {
    var prof := TierProfile(ParseParamTier(tag));
    KvTypesOfFourBit(q4, fp16);
    KvQuarter(prof.layers, prof.dModel, prof.gqaOpt, contextTokens);
    KvQuarter(prof.layers, prof.dModel, prof.gqaCons, contextTokens);
  }

  lemma {:induction false} KvTypesOfFourBit(q4: string, fp16: string)
    requires Lower(q4) == "q4" || Lower(q4) == "int4"
    requires Lower(fp16) == "fp16" || Lower(fp16) == "f16"
    ensures KvBytesPerElem(q4) == 0.5 && KvOverheadFactor(q4) == 1.1
    ensures KvBytesPerElem(fp16) == 2.0 && KvOverheadFactor(fp16) == 1.0
  {
  }

  lemma {:induction false} KvQuarter(layers: nat, dModel: nat, gqa: real, contextTokens: int)
    ensures KvGib(KvPerToken(layers, dModel, gqa, 0.5), contextTokens, 1.1)
            == 0.275 * KvGib(KvPerToken(layers, dModel, gqa, 2.0), contextTokens, 1.0)
  {
    var a := 2.0 * layers as real * dModel as real * gqa;
    var y := a * contextTokens as real / GiB as real;
    assert KvGib(a * 0.5, contextTokens, 1.1) == y * 0.55;
    assert KvGib(a * 2.0, contextTokens, 1.0) == y * 2.0;
  }

  lemma {:induction false} Fp16Type(kvCacheType: string)
    requires kvCacheType == "fp16"
    ensures KvBytesPerElem(kvCacheType) == 2.0 && KvOverheadFactor(kvCacheType) == 1.0
  {
    assert Lower(kvCacheType) == kvCacheType;
  }

  /**
   * The worked example: a 4 GiB `llama3:8b` at 8192 tokens of fp16 cache,
   * fully offloaded, needs 4.2 GiB of weights, 4 GiB of KV cache and
   * 0.88 GiB of runtime overhead, 9.08 GiB in all, under both GQA factors.
   */
  lemma {:induction false} WorkedExample(tag: string, kvCacheType: string, offloadText: string)
    requires tag == "llama3:8b" && kvCacheType == "fp16"
    ensures var r := EstimateVram(4 * GiB, tag, 8192, kvCacheType, 1.0, offloadText);
      r.weights == 4.2 && r.runtimeOverhead == 0.88 && r.kvOpt == 4.0 && r.kvCons == 4.0 &&
      r.totalOpt == 9.08 && r.totalCons == 9.08 && r.confidence == Medium
  {
    LlamaExample(tag);
    Fp16Type(kvCacheType);
    var prof := TierProfile(Some(8.0));
    assert prof.layers == 32 && prof.dModel == 4096 && prof.gqaOpt == 1.0 && prof.gqaCons == 1.0;
    assert SizeGib(4 * GiB) == 4.0;
    assert KvPerToken(32, 4096, 1.0, 2.0) == 524288.0;
    assert KvGib(524288.0, 8192, 1.0) == 4.0;
  }
}

=== FILE: wrappers.dfy ===
/** Option and Result, the model's stand-ins for Python's `None` and raised exceptions. */
module Wrappers {

  datatype Option<+T> = None | Some(value: T) {

    /** Python's `x or default` for an optional value. */
    function GetOr(default: T): T {
      match this
      case Some(v) => v
      case None => default
    }
  }

  /** `Err` carries the message of the exception the source would raise. */
  datatype Result<+R> = Ok(value: R) | Err(error: string) {

    function ToOption(): Option<R> {
      match this
      case Ok(v) => Some(v)
      case Err(_) => None
    }
  }
}
